=== FILE: README.md ===
# coworktree in Dafny

A model of the core of **coworktree**, a Go tool that creates git worktrees by cloning the
repository directory copy-on-write (APFS `clonefile`) rather than checking files out, and
then registering the clone with git by hand. The model has four layers, each written as
pure functions over an immutable file tree.

1. **Ignore matcher, text classifier and path rewriter** (`pkg/cowgit/pathrewrite.go`, and
   `processFile` in `pkg/cowgit/adaptive_pool.go`):
   - the `.gitignore` line parser and the tool's own simplified pattern matcher;
   - the binary/text heuristic: valid UTF-8 as in RFC 3629 section 4, no NUL byte, and at
     least 95% printable bytes;
   - the per-file decision to rewrite the source root into the destination root, with the
     counters of `WorkerPool.processFile`;
   - the whole pass of `rewriteAbsolutePathsAsync`, symlinks and failed writes included.

   The setup itself calls `rewriteAbsolutePathsWithProgress`, whose file is not part of
   this model; `Worktree.Setup` treats the rewrite as a call whose outcome it ignores.
2. **Clone engines** (`pkg/cowgit/cow_pool.go`, `CloneDirectory` in `pkg/cowgit/cow.go`):
   - the per-entry task and its counters;
   - the walk that submits every entry;
   - the APFS gate, then atomic clone, then per-file fallback ladder, plus the forced
     variant;
   - the depth-limited mode built from `findDirectoriesAtDepth` and
     `createDirectoryStructure`.
3. **Adaptive pools**:
   - the worker registry (`AddWorker`, `RemoveWorker` with its floor);
   - the `adjustWorkers` decision of the three controllers, which differ only in their
     constants.
4. **Worktree bookkeeping** (`pkg/cowgit/worktree.go`, `pkg/cowgit/manager.go`,
   `cmd/list.go`):
   - the `git worktree list --porcelain` parser;
   - the admin files forged by `registerWorktreeManually`;
   - the setup sequence with clean-up on failure, and the fallback to `git worktree add`;
   - removal and `combineErrors`;
   - the manager's prefixing, filtering and lookup;
   - the list command's unit choice and HEAD abbreviation.

Trees are `Node = Dir(mode, entries) | File(mode, data) | Symlink(target) | Other(mode)`.
Paths are sequences of names. A destination is a map from paths to items.

Goroutines and channels become a sequential queue that stops at a worker's first error.
System calls, `clonefile`, git commands and the APFS check are oracles passed in as
parameters.

Modules, one per file:

| Module | Contents |
|---|---|
| `Wrappers` | result and outcome types |
| `Seqs` | Go's `strings`/`bytes` helpers stated over `seq<T>` |
| `Utf8` | UTF-8 validity |
| `Strings` | `TrimSpace`, `bufio.ScanLines` |
| `TextClass` | `isValidText` |
| `GitIgnore`, `GitIgnoreExamples` | the ignore parser and matcher, and the test's cases |
| `FileTree` | trees, `filepath.Walk` |
| `Rewrite` | the path rewriter |
| `CoWClone` | per-file clone engine |
| `DepthClone` | depth mode |
| `Pool` | registry and controllers |
| `Porcelain` | `ListWorktrees` |
| `Registration` | `registerWorktreeManually` |
| `Worktree` | setup, fallback, removal |
| `Manager` | the manager |
| `ListCommand` | `cmd/list.go` |

## Model

| member | source | states |
|---|---|---|
| `Seqs.Split` | pkg/cowgit/worktree.go:297 | `strings.Split` on one character yields one more piece than there are separators, and no piece contains the separator. |
| `Seqs.JoinSplit` | pkg/cowgit/worktree.go:297 | Joining the pieces of a split with the separator gives back the input. |
| `Seqs.SplitJoin` | pkg/cowgit/worktree.go:297 | Splitting a join of separator-free pieces gives back the pieces. |
| `Seqs.Index` | pkg/cowgit/pathrewrite.go:137 | The leftmost occurrence of a pattern, or -1 exactly when it does not occur. |
| `Seqs.CountOne` | pkg/cowgit/cow_pool.go:819 | `strings.Count` of a one-character pattern is the number of its occurrences. |
| `Seqs.ReplaceLength` | pkg/cowgit/pathrewrite.go:137 | Each replacement changes the length by the difference of the pattern lengths. |
| `Seqs.ReplaceUnchangedIff` | pkg/cowgit/pathrewrite.go:137 | Replace-all with a non-empty pattern leaves the input unchanged iff the pattern is absent or replaced by itself. |
| `Utf8.EncodeStringValid` | pkg/cowgit/pathrewrite.go:106-107 | The model's encoding of the source and destination roots, taken as Unicode text, is valid UTF-8. |
| `Utf8.ReplaceAllUnchangedIff` | pkg/cowgit/pathrewrite.go:137 | Including the empty-pattern case, replace-all changes nothing iff the pattern is absent or replaced by itself. |
| `Strings.TrimSpace` | pkg/cowgit/pathrewrite.go:32 | The result sits inside the input, and neither end is white space. |
| `Strings.TrimSpaceIdempotent` | pkg/cowgit/pathrewrite.go:32 | Trimming twice trims nothing more. |
| `Strings.TrimSpaceExact` | pkg/cowgit/pathrewrite.go:32 | The trimmed line is exactly the input between its first and last non-space characters. |
| `Strings.ScanLines` | pkg/cowgit/pathrewrite.go:30-31 | The scanner's lines contain no newline. |
| `Strings.ScanTerminated` | pkg/cowgit/pathrewrite.go:30-31 | Scanning newline-terminated lines gives back those lines. |
| `GitIgnore.PatternsOf` | pkg/cowgit/pathrewrite.go:29-37 | Each kept line is trimmed, non-empty and not a comment, and there are no more patterns than lines. |
| `GitIgnore.ParseGitignore` | pkg/cowgit/pathrewrite.go:20-40 | A missing file gives no patterns; otherwise every pattern is a trimmed, non-empty, non-comment line. |
| `GitIgnore.PatternsOfAppend` | pkg/cowgit/pathrewrite.go:31-36 | Parsing keeps file order: the patterns of two blocks of lines are the patterns of each, concatenated. |
| `GitIgnore.PatternsOfPatterns` | pkg/cowgit/pathrewrite.go:32-35 | Lines that are already patterns are all kept, unchanged. |
| `GitIgnore.ParseTerminated` | pkg/cowgit/pathrewrite.go:20-40 | Writing patterns one per line and parsing the file gives the patterns back. |
| `GitIgnore.SkippedLines` | pkg/cowgit/pathrewrite.go:34 | A blank or comment line anywhere changes nothing. |
| `GitIgnore.Match` | pkg/cowgit/pathrewrite.go:43-50 | A path matches iff some pattern matches it, so no patterns match nothing. |
| `GitIgnore.LiteralMatchesSegments` | pkg/cowgit/pathrewrite.go:66-67 | A pattern without `*` or trailing `/` matches exactly the paths whose segments begin with the pattern's segments. |
| `GitIgnore.TrailingSlashIgnored` | pkg/cowgit/pathrewrite.go:55-59 | `d/` matches exactly what `d` matches: the path `d` and everything below it. |
| `GitIgnore.StarMatchesAll` | pkg/cowgit/pathrewrite.go:73-75 | `*` matches every path. |
| `GitIgnore.ExtensionPattern` | pkg/cowgit/pathrewrite.go:78-81 | `*.ext` matches exactly the paths ending in `.ext`. |
| `GitIgnore.PrefixPattern` | pkg/cowgit/pathrewrite.go:84-87 | `prefix*` matches exactly the paths starting with `prefix`. |
| `GitIgnore.InnerStarPattern` | pkg/cowgit/pathrewrite.go:90-93 | A pattern with one inner `*` matches iff the path starts with the part before it and ends with the part after it. |
| `GitIgnore.InnerStarOverlap` | pkg/cowgit/pathrewrite.go:90-93 | The two parts may overlap: `a*a` matches `a`. |
| `GitIgnore.ManyStarsMatchNothing` | pkg/cowgit/pathrewrite.go:90-95 | Any other pattern with two or more stars matches nothing. |
| `GitIgnoreExamples.TestFileParse` | pkg/cowgit/pathrewrite_test.go:19-38 | The test's `.gitignore` parses to its nine patterns, comments and the blank line dropped. |
| `GitIgnoreExamples.DirPatterns` | pkg/cowgit/pathrewrite_test.go:45 | `node_modules/`, `dist/` and `venv/` match their directory and everything below it. |
| `GitIgnoreExamples.IgnoredNodeModules` | pkg/cowgit/pathrewrite_test.go:45 | `node_modules/react/package.json` is ignored. |
| `GitIgnoreExamples.IgnoredBuild` | pkg/cowgit/pathrewrite_test.go:46 | `build` is ignored. |
| `GitIgnoreExamples.IgnoredDist` | pkg/cowgit/pathrewrite_test.go:47 | `dist/app.js` is ignored. |
| `GitIgnoreExamples.IgnoredLog` | pkg/cowgit/pathrewrite_test.go:48 | `app.log` is ignored. |
| `GitIgnoreExamples.IgnoredTmp` | pkg/cowgit/pathrewrite_test.go:49 | `debug.tmp` is ignored. |
| `GitIgnoreExamples.IgnoredVenv` | pkg/cowgit/pathrewrite_test.go:50 | `venv/bin/python` is ignored. |
| `GitIgnoreExamples.IgnoredPycache` | pkg/cowgit/pathrewrite_test.go:51 | `__pycache__/module.pyc` is ignored. |
| `GitIgnoreExamples.IgnoredEnv` | pkg/cowgit/pathrewrite_test.go:55 | `.env` is ignored. |
| `GitIgnoreExamples.KeptPaths` | pkg/cowgit/pathrewrite_test.go:52-56 | `src/app.js`, `README.md`, `package.json` and `config.env` are not ignored; `config.env` does not match the `.env` pattern. |
| `TextClass.ClassifyText` | pkg/cowgit/pathrewrite.go:178-204 | The loop computes exactly `isValidText`; a non-empty text has `20 * printable >= 19 * length`. |
| `TextClass.CheckUtf8` | pkg/cowgit/pathrewrite.go:180 | The scan answers exactly whether the bytes are valid UTF-8. |
| `TextClass.EmptyIsText` | pkg/cowgit/pathrewrite_test.go:219-223 | Empty content is text. |
| `TextClass.ZeroByteIsBinary` | pkg/cowgit/pathrewrite.go:185-187 | Any zero byte makes content binary. |
| `TextClass.InvalidUtf8IsBinary` | pkg/cowgit/pathrewrite.go:180-182 | Invalid UTF-8 is binary. |
| `TextClass.PlainTextExample` | pkg/cowgit/pathrewrite_test.go:214-218 | Plain printable text with a newline is text. |
| `TextClass.NullByteExample` | pkg/cowgit/pathrewrite_test.go:224-228 | The NUL-byte case is binary. |
| `TextClass.InvalidUtf8Example` | pkg/cowgit/pathrewrite_test.go:229-233 | `FF FE FD` is binary. |
| `TextClass.MostlyBinaryExample` | pkg/cowgit/pathrewrite_test.go:234-238 | Two printable bytes out of seven is binary. |
| `Rewrite.Decide` | pkg/cowgit/pathrewrite.go:115-145 | A file is rewritten iff it matches, reads, is text and replace-all changes it. Unmatched files are `NoMatch` and matched non-text files are `Binary`. |
| `Rewrite.NoMatchIgnoresContent` | pkg/cowgit/adaptive_pool.go:199-202 | An unmatched path is decided without reading the file. |
| `Rewrite.Tally` | pkg/cowgit/adaptive_pool.go:199-222 | Each decided file bumps exactly one counter and modified files are counted; `text + binary <= matches` and `modified <= text` are preserved. |
| `Rewrite.ProcessFile` | pkg/cowgit/adaptive_pool.go:192-227 | Bytes are written iff the decision is a rewrite, and they are the replaced content. The only error is a failed write. Counters stay consistent. |
| `Rewrite.Land` | pkg/cowgit/pathrewrite.go:126-138 | `os.ReadFile` and `os.WriteFile` follow symlinks: they land on the entry itself iff it is a regular file, on another destination file only through a link that resolves to it, and otherwise outside the destination. |
| `Rewrite.Step` | pkg/cowgit/pathrewrite.go:114-145 | One walked path keeps every path, kind and mode and counter consistency; a worker exits only with an error, and the first error sticks. A write leaves the destination only through a matched entry that is not a regular file. Handing out regular files only, nothing escapes and only the path's own item can change. |
| `Rewrite.Run` | pkg/cowgit/pathrewrite.go:109-175 | A pass keeps every path, kind and mode; the first error sticks; without an error no worker is lost; every escaped entry is a matched non-regular entry, and none escapes when only regular files are handed out. |
| `Rewrite.StepRewrites` | pkg/cowgit/pathrewrite.go:126-141 | Handing out regular files only, a step changes at most its own item, leaving it untouched, rewritten or torn by its own failed write; with a successful write it is exactly the rewrite. |
| `Rewrite.RunAllWritesSucceed` | pkg/cowgit/pathrewrite.go:114-145 | Handing out regular files only, with every write succeeding, the first `k` distinct paths are rewritten exactly as the decision says, nothing else changes, and no worker exits. |
| `Rewrite.RunTouchesOnlyRewritable` | pkg/cowgit/pathrewrite.go:114-145 | Handing out regular files only, whatever the writes do, each item is untouched, its rewrite, or (where its own write failed after truncating) a same-mode prefix of its rewrite; items not yet handed out are untouched. |
| `Rewrite.RewritePass` | pkg/cowgit/pathrewrite.go:99-175 | Either way of handing out entries keeps every path, kind and mode of the tree; escaped entries are matched entries of the tree that are not regular files, and there are none with regular files only. |
| `Rewrite.RewriteAbsolutePathsAsWritten` | pkg/cowgit/pathrewrite.go:99-175 | As written, every non-directory is handed out; the result keeps every path, kind and mode and lists the matched non-regular entries through which a write left the destination. |
| `Rewrite.RewriteAbsolutePaths` | pkg/cowgit/pathrewrite.go:99-175 | The corrected pass, over regular files only, keeps every path, kind and mode. |
| `Rewrite.RewriteAllWritesSucceed` | pkg/cowgit/pathrewrite.go:99-175 | With every write succeeding, the corrected pass leaves exactly the matched text files holding the source root rewritten, every other entry identical, and returns no error. |
| `Rewrite.RewriteTouchesOnlyRewritable` | pkg/cowgit/pathrewrite.go:99-175 | Whatever the writes do, every entry after the corrected pass is as cloned, its rewrite, or, where its own write failed, a same-mode prefix of its rewrite (`os.WriteFile` truncates before writing). |
| `Rewrite.LinkWritesThrough` | pkg/cowgit/pathrewrite.go:126-155 | As written, a matched symlink resolving to a destination file that holds the source root rewrites that file, whether or not the file is matched; the corrected pass leaves the state alone. |
| `Rewrite.LinkWritesOutside` | pkg/cowgit/pathrewrite.go:126-155 | As written, a matched symlink leading out of the destination to text holding the source root is written through, outside the destination; the corrected pass passes it over. |
| `FileTree.WalkIsLookup` | pkg/cowgit/cow_pool.go:388 | `filepath.Walk` visits exactly the paths that lead to an entry. |
| `FileTree.FlattenIsLookup` | pkg/cowgit/cow_pool.go:388-413 | The flattened tree holds, at every reachable path, the item found there. |
| `FileTree.WalkNoDuplicates` | pkg/cowgit/cow_pool.go:388-413 | The walk visits no path twice. |
| `FileTree.WalkParentsEarlier` | pkg/cowgit/cow_pool.go:388-413 | The walk visits a directory before anything inside it. |
| `FileTree.AncestorIsDir` | pkg/cowgit/cow_pool.go:196-200 | Every proper prefix of a reachable path is a directory. |
| `CoWClone.MkdirAll` | pkg/cowgit/cow_pool.go:188 | `os.MkdirAll` is a no-op at an existing directory and an error at a non-directory. On success it makes the path and only its missing ancestors. |
| `CoWClone.ProcessTask` | pkg/cowgit/cow_pool.go:185-228 | Exact counters per branch: a directory passes iff `MkdirAll` does and then counts `copied` and `directories`. Any other entry whose parent cannot be made fails with nothing changed. A file counts `regular`, then `copied` when cloned, else `skipped` with the copy's outcome. A symlink counts `symlinks`, and `copied` once `Readlink` passes; it passes iff `Readlink` and `Symlink` do. Anything else counts `skipped` and passes. Other entries are kept, and a successful task places its entry. |
| `CoWClone.ProcessTaskAllOk` | pkg/cowgit/cow_pool.go:185-228 | With the parent present and every call succeeding, a task adds exactly its own entry (other entries create nothing), and the counters are exactly its kind's counter plus `copied`, or `skipped` for other entries. |
| `CoWClone.Step` | pkg/cowgit/cow_pool.go:158-183 | One task keeps existing entries and faithfulness to the source; the first error is kept and its worker exits. |
| `CoWClone.Run` | pkg/cowgit/cow_pool.go:158-183 | A run keeps faithfulness; `processed` grows by at most the number of tasks; no error means no lost worker. |
| `CoWClone.Tasks` | pkg/cowgit/cow_pool.go:388-413 | The walk submits every non-root path of the source, each once. |
| `CoWClone.RunAllOk` | pkg/cowgit/cow_pool.go:388-413 | With every call succeeding and tasks in walk order, the first `k` tasks build exactly their image. |
| `CoWClone.FallbackAllOk` | pkg/cowgit/cow_pool.go:344-445 | With every call succeeding and the tasks run one after another in walk order, the fallback reproduces every directory, file and symlink. The root gets mode 0755. `processed` is the walk size minus one. Exact directory modes rely on that order: run concurrently, a child's `MkdirAll(parent, 0755)` (cow_pool.go:198) can come before the directory's own task (cow_pool.go:188), which then keeps 0755. |
| `CoWClone.FallbackReportsFailures` | pkg/cowgit/cow_pool.go:434-444 | The corrected fallback passes iff no worker exited with an error. |
| `CoWClone.RaceMissesError` | pkg/cowgit/cow_pool.go:415-444 | Concrete: a one-file tree whose copy fails passes the as-written poll but fails the corrected one. |
| `CoWClone.DeadPoolReturns` | pkg/cowgit/cow_pool.go:158-183 | Once no worker is alive, the corrected run hands the remaining tasks to nobody and returns the state unchanged. |
| `CoWClone.SubmitStranded` | pkg/cowgit/cow_pool.go:98-100 | As written, submitting into a pool with no live worker blocks for good exactly when more tasks are left than the 1000-slot channel has room for; otherwise they all sit queued. |
| `CoWClone.RunAsWritten` | pkg/cowgit/cow_pool.go:98-100 | With no live worker at the start, the walk as written blocks iff the tasks overflow the channel's free slots. |
| `CoWClone.AsWrittenBlocks` | pkg/cowgit/cow_pool.go:98-100 | The walk as written blocks iff the pool's last worker exits, in the run, with more tasks still to submit than the channel has free slots. The controller is not part of this run: the Go walk escapes the hang when the first tick after the last exit still sees earlier successes and grows the pool (`Pool.TickGrows`); once a tick sees none, no worker is ever added (`Pool.StalledNeverGrows`). |
| `CoWClone.AsWrittenReturnsRun` | pkg/cowgit/cow_pool.go:98-100 | Whenever the walk as written returns, its state is the corrected run's. |
| `CoWClone.AsWrittenWhileAlive` | pkg/cowgit/cow_pool.go:98-100 | When a worker survives the whole run, the walk as written returns the corrected run's state. |
| `CoWClone.StrandedWalkBlocks` | pkg/cowgit/cow_pool.go:98-100 | With every worker gone and more than 1000 tasks left, the walk as written blocks, unless the first tick after the last exit still sees earlier successes and grows the pool (`Pool.TickGrows`), while the corrected run returns. |
| `CoWClone.FallbackFaithful` | pkg/cowgit/cow_pool.go:344-445 | Whatever the calls do, the fallback leaves only copies of source entries. |
| `CoWClone.ApfsGate` | pkg/cowgit/cow_pool.go:317-322 | Cloning proceeds iff the APFS check answers yes without error. |
| `CoWClone.CloneDirectoryParallel` | pkg/cowgit/cow_pool.go:316-341 | The ladder: a failed gate clones nothing; a successful atomic clone is the source; a failed one runs the fallback. |
| `CoWClone.CloneDirectoryParallelForced` | pkg/cowgit/cow_pool.go:448-462 | The gate, then the fallback, never the atomic clone. |
| `CoWClone.ForcedIsParallelWithoutAtomic` | pkg/cowgit/cow_pool.go:448-462 | The forced mode equals the parallel mode whose atomic clone fails. |
| `CoWClone.ParallelCloneComplete` | pkg/cowgit/cow_pool.go:316-341 | With every call succeeding, either path yields every non-special source entry. |
| `CoWClone.CloneDirectory` | pkg/cowgit/cow.go:39-56 | The plain strategy (`cloneDirectoryAPFS`) passes iff APFS and the atomic clone succeed, and then yields the source. |
| `DepthClone.RelDepth` | pkg/cowgit/cow_pool.go:819 | Separator count plus one is the number of names in a path. |
| `DepthClone.FoundIffAtDepth` | pkg/cowgit/cow_pool.go:796-838 | Exactly the source directories at the target depth are found, each once, never the root, none for target < 1. |
| `DepthClone.StructureIff` | pkg/cowgit/cow_pool.go:841-879 | The structure walk lists exactly the root and the directories of depth at most `maxDepth`. |
| `DepthClone.StructureOrdered` | pkg/cowgit/cow_pool.go:841-879 | Each listed directory's parent comes before it. |
| `DepthClone.MakeDirs` | pkg/cowgit/cow_pool.go:859-869 | Successive `MkdirAll` calls keep existing entries, add only directories on the plan's paths, and on success make every planned path. |
| `DepthClone.MakeDirsAllOk` | pkg/cowgit/cow_pool.go:859-869 | With every call succeeding and parents first, exactly the planned directories are added with their source modes. |
| `DepthClone.CreateDirectoryStructure` | pkg/cowgit/cow_pool.go:841-879 | Only directories of depth at most `maxDepth` (and the root) are made, and on success all listed ones are. |
| `DepthClone.StructureAllOk` | pkg/cowgit/cow_pool.go:841-879 | With every call succeeding, the result is exactly the source directories down to `maxDepth` plus the root, with source modes. |
| `DepthClone.TargetParentsMade` | pkg/cowgit/cow_pool.go:478-488 | Every depth-N target finds its parent made and its own path free once the structure to depth N-1 is in place. |
| `DepthClone.DepthTasksIff` | pkg/cowgit/cow_pool.go:464-562 | The corrected tasks are the directories at depth N and every other entry at depth at most N, each once. |
| `DepthClone.DepthAllOk` | pkg/cowgit/cow_pool.go:464-562 | With every call succeeding, the corrected depth mode reproduces the source exactly and passes. |
| `DepthClone.DepthAsWrittenAllOk` | pkg/cowgit/cow_pool.go:465-562 | With every call succeeding, the as-written depth mode passes but keeps only the directories above the cut and whatever lies below a directory at the cut. Non-directories at depth at most N are missing. |
| `DepthClone.RootFileLost` | pkg/cowgit/cow_pool.go:465-562 | Concrete: a top-level `README.md` at depth 1 is lost by the as-written version and kept by the corrected one. |
| `DepthClone.EarlyPollPasses` | pkg/cowgit/cow_pool.go:540-561 | Polled before any task ends, the as-written version passes whatever the clones do. |
| `DepthClone.DepthReportsFailure` | pkg/cowgit/cow_pool.go:695-728 | The corrected depth mode fails whenever some task's clone fails. |
| `DepthClone.RunRecordsFailure` | pkg/cowgit/cow_pool.go:705-711 | A run that reaches a refused task counts a failed directory. |
| `DepthClone.DepthRaceMissesError` | pkg/cowgit/cow_pool.go:540-561 | Concrete: one failing depth-1 directory passes as written and fails when corrected. |
| `Pool.MinWorkers` | pkg/cowgit/adaptive_pool.go:113 | The floor is at least 1 and is `NumCPU/2` from two CPUs up. |
| `Pool.AddWorker` | pkg/cowgit/adaptive_pool.go:95-106 | A fresh id never used before joins the registry, and the counter grows by one, keeping `workerCount == |registry|`. |
| `Pool.RemoveWorker` | pkg/cowgit/adaptive_pool.go:109-127 | It refuses, state unchanged, iff the registry is at or below the floor. Otherwise it removes exactly one entry and decrements the counter. |
| `Pool.Start` | pkg/cowgit/cow_pool.go:624-629 | Starting adds one worker per CPU. |
| `Pool.Choose` | pkg/cowgit/adaptive_pool.go:270-292 | Hold within 1 s. Grow iff the queue exceeds `grow * workers` below the cap with positive rate. Shrink iff not growing, the queue is empty and the rate is below the threshold. |
| `Pool.Adjust` | pkg/cowgit/cow_pool.go:290-312 | One call changes the count by at most one and never both ways; a change records the time, and no change leaves the state alone. |
| `Pool.AdjustKeepsBounds` | pkg/cowgit/cow_pool.go:771-793 | Never retires below the floor, never grows past `cap * NumCPU`. |
| `Pool.AdjustRateLimited` | pkg/cowgit/adaptive_pool.go:272-274 | Within a second of the last change nothing happens. |
| `Pool.StartupIdleShrinks` | pkg/cowgit/cow_pool.go:624-629 | An idle pool of two or more CPUs retires a worker on its first adjustment after start. |
| `Pool.Tick` | pkg/cowgit/cow_pool.go:741-768 | A tick with no elapsed time is ignored; otherwise the ticker advances and the registry stays valid. |
| `Pool.TickGrows` | pkg/cowgit/cow_pool.go:741-768 | A tick that sees progress, a long queue and room below the cap adds exactly one worker. |
| `Pool.StalledNeverGrows` | pkg/cowgit/cow_pool.go:270-303 | A tick that sees no task finished since the last one never adds a worker, however long the queue. |
| `Porcelain.Flush` | pkg/cowgit/worktree.go:299-316 | A record is emitted iff its path is non-empty, after the earlier ones. |
| `Porcelain.Feed` | pkg/cowgit/worktree.go:299-312 | A `worktree ` line closes the record and opens one with that path. Other lines never change the path or the emitted records; unknown lines change nothing. |
| `Porcelain.ListWorktrees` | pkg/cowgit/worktree.go:287-318 | A failed command is reported with the prefix `failed to list worktrees: `, and every parsed record has a path. |
| `Porcelain.ParseRender` | pkg/cowgit/worktree.go:295-317 | Parsing git's porcelain output for any records with non-empty, newline-free fields gives back those records in order; the branch loses `refs/heads/`. |
| `Porcelain.PreambleDropped` | pkg/cowgit/worktree.go:303-306 | Lines before the first `worktree ` line are dropped. |
| `Porcelain.LaterBranchWins` | pkg/cowgit/worktree.go:305-308 | Within a record a later `branch ` line overwrites an earlier one, with `refs/heads/` stripped. |
| `Registration.FirstFailure` | pkg/cowgit/worktree.go:340-376 | The first failing step: every earlier step passes. |
| `Registration.RunSteps` | pkg/cowgit/worktree.go:340-376 | Steps run in order. Success iff all pass. A failure stops at that step and reports its context with the error. |
| `Registration.RegisterSteps` | pkg/cowgit/worktree.go:335-377 | The six steps: metadata directory 0755, `HEAD`, `commondir`, `gitdir` files 0644, removal of the worktree's `.git`, and the `.git` file, each with its error context. |
| `Registration.RegisterAsWritten` | pkg/cowgit/worktree.go:335-377 | The registration as written, writing `../..` as `commondir`. |
| `Registration.Register` | pkg/cowgit/worktree.go:335-377 | The corrected registration, whose `commondir` climbs one level per segment of the branch name plus one. |
| `Registration.RegisterSingleSegment` | pkg/cowgit/worktree.go:352-355 | For a branch without `/` the correction changes nothing. |
| `Registration.Apply` | pkg/cowgit/worktree.go:345-374 | A write sets one file; a removal deletes exactly the path and what lies below it; nothing else changes. |
| `Registration.RegisteredFiles` | pkg/cowgit/worktree.go:345-374 | A successful registration leaves `HEAD`, `commondir` and `gitdir` in the metadata directory and the `.git` file in the worktree, with the exact contents. |
| `Registration.RegisterLinks` | pkg/cowgit/worktree.go:335-377 | Following what the corrected registration wrote leads from the worktree to the metadata directory, whose `HEAD` names the branch's ref, on to the repository's `.git`, and back. Whether that ref file exists is the setup's matter (`Worktree.BranchRecorded`). |
| `Registration.RegistrationKeeps` | pkg/cowgit/worktree.go:345-374 | A file outside the worktree's `.git` that the registration does not write keeps its contents, or its absence. |
| `Registration.RegistrationDrops` | pkg/cowgit/worktree.go:366-369 | Everything inside the worktree's `.git` directory is gone after the registration. |
| `Registration.AsWrittenCommonDirIff` | pkg/cowgit/worktree.go:352-355 | The as-written `commondir` resolves to the repository's `.git` iff the branch name has no `/`. |
| `Registration.NestedBranchMisplaces` | pkg/cowgit/worktree.go:352-355 | For any branch with `/`, the as-written `commondir` misses `.git` and the corrected one reaches it. |
| `Registration.PrefixedBranchMisplacesCommonDir` | pkg/cowgit/worktree.go:352-355 | Concrete: for `cow/feature` the as-written `commondir` does not resolve to `/repo/.git`, the corrected one does. |
| `Worktree.ChooseStrategy` | pkg/cowgit/worktree.go:129-140 | Depth mode iff parallel with depth > 0; forced iff parallel, depth <= 0 and forced; parallel otherwise; plain iff not parallel. |
| `Worktree.Setup` | pkg/cowgit/worktree.go:110-210 | Removal of the destination comes first. Success iff remove, clone, `git branch` (in the worktree as written, in the repository when corrected), symbolic-ref and the registration (with `commondir` as the variant writes it) all pass. A failure after the clone removes the destination last. `git branch --delete --force` is issued iff the branch was made in the repository and the setup then fails; the as-written variant never issues it. The rewrite runs iff the setup succeeds and rewriting is on. |
| `Worktree.SetupOrder` | pkg/cowgit/worktree.go:142-185 | In a successful setup of either variant: clone, then `git branch <b> <base>` where the branch site says, then `symbolic-ref HEAD refs/heads/<b>` in the worktree, then registration. |
| `Worktree.CreateCoW` | pkg/cowgit/worktree.go:64-87 | `worktree remove -f` and `rev-parse HEAD` come first. A failed lookup fails with no further call. Otherwise the base is the trimmed commit; success iff the setup succeeds or the `worktree add -b` fallback does, the fallback only when the failed setup left no branch in the repository; the fallback runs iff the setup fails. |
| `Worktree.FallbackIsRegular` | pkg/cowgit/worktree.go:82-84 | After a failed setup the outcome is `setupRegularWorktree`'s, except that a branch the setup left in the repository makes git refuse the fallback whatever it would have answered. As written the fallback is always the regular one. |
| `Worktree.CreateStartsAtHead` | pkg/cowgit/worktree.go:68-87 | Whichever path is taken, every branch-creating command issued names the trimmed HEAD commit as its start. This is about the commands; that the ref survives is `Worktree.BranchRecorded`. |
| `Worktree.SetupHeadTarget` | pkg/cowgit/worktree.go:158-175 | After the setup's git commands and registration, git reading the worktree finds the metadata directory, the branch in its `HEAD`, the repository's `.git`, and its way back, and resolves HEAD to the repository's ref file for the branch. |
| `Worktree.OrphanedRef` | pkg/cowgit/worktree.go:158-175 | As written, the branch's ref file is neither in the repository nor in the worktree after the setup. |
| `Worktree.RecordedRef` | pkg/cowgit/worktree.go:158-175 | With `git branch` run in the repository, its ref file survives the registration holding the base commit. |
| `Worktree.BranchOrphaned` | pkg/cowgit/worktree.go:158-175 | As written, the worktree's HEAD resolves to a ref file that exists nowhere: the branch has no commits. |
| `Worktree.BranchRecorded` | pkg/cowgit/worktree.go:158-175 | Corrected, the worktree's HEAD resolves to a ref file that exists and holds the base commit. |
| `Worktree.SetupRegular` | pkg/cowgit/worktree.go:219-224 | Succeeds iff `git worktree add -b <b> <wt> <commit>` does. |
| `Worktree.CombineErrors` | pkg/cowgit/worktree.go:380-391 | Nil iff no errors; otherwise the message starts `multiple errors occurred: `. |
| `Worktree.CombineKeepsEach` | pkg/cowgit/worktree.go:380-391 | Every message appears whole in the combined error, in order, with nothing overlapping. |
| `Worktree.JoinOffsets` | pkg/cowgit/worktree.go:390 | The `i`-th piece of a join sits at the sum of the earlier pieces and separators. |
| `Worktree.Prune` | pkg/cowgit/worktree.go:279-284 | Succeeds iff `git worktree prune` does. |
| `Worktree.RemoveKeepingBranch` | pkg/cowgit/worktree.go:227-232 | Succeeds iff `git worktree remove -f` does. |
| `Worktree.RemoveWithBranch` | pkg/cowgit/worktree.go:235-276 | The result combines the collected errors and passes iff every step is clean. Prune runs iff the repository opens, and the ref is deleted iff it opens and the branch exists. An open failure is the last error; a prune failure is last otherwise. |
| `Worktree.RemovalContinuesAfterFailure` | pkg/cowgit/worktree.go:240-270 | A failed worktree removal does not stop branch deletion or the prune; its error comes first. |
| `Manager.EffectiveBranch` | pkg/cowgit/manager.go:36-39 | The branch starts with the prefix and is as long as prefix plus name; without a prefix it is the name. |
| `Manager.EffectiveBranchStrips` | pkg/cowgit/manager.go:36-39 | Trimming the prefix off the effective branch gives the name back. |
| `Manager.WorktreePath` | pkg/cowgit/manager.go:42-50 | A given path is used; otherwise a temporary directory, whose failure is the error. |
| `Manager.CreateRegular` | pkg/cowgit/manager.go:151-162 | Succeeds iff the parent directory and `git worktree add -b <b> <path>` succeed. |
| `Manager.CreateRegularAfter` | pkg/cowgit/manager.go:64-67 | After a copy-on-write attempt, the regular creation is unchanged when no branch was left behind, and never succeeds when one was. |
| `Manager.Create` | pkg/cowgit/manager.go:35-71 | For either setup variant: a created worktree has the repo, the effective branch and the chosen path. Copy-on-write counts only if tried, and a path failure is the error. |
| `Manager.NoCoWIsRegular` | pkg/cowgit/manager.go:56-68 | With CoW off or unsupported, creation is the regular creation. |
| `Manager.CreateSucceeds` | pkg/cowgit/manager.go:56-70 | Creation succeeds iff the tried CoW creation succeeds, or the regular fallback does and the attempt left no branch in the repository. |
| `Manager.Keep` | pkg/cowgit/manager.go:104-110 | Every kept element is an element that satisfies the filter, and every such element is kept. |
| `Manager.KeepAppend` | pkg/cowgit/manager.go:105-110 | Filtering distributes over concatenation, so order is preserved. |
| `Manager.ListCoW` | pkg/cowgit/manager.go:98-113 | Errors pass through. The result holds exactly the listed worktrees whose path is not the repository, in order. |
| `Manager.FindByBranch` | pkg/cowgit/manager.go:123-129 | None iff no worktree has the branch; otherwise the first one that does. |
| `Manager.Remove` | pkg/cowgit/manager.go:116-143 | A list failure and a missing branch are errors. Otherwise the first match's path is used. Keeping the branch makes exactly the one `git worktree remove -f <path>` call, deletes no ref, prunes nothing, and its outcome is `Remove`'s; otherwise the calls and the outcome are `RemoveWithBranch`'s. |
| `ListCommand.FormatSize` | cmd/list.go:165-176 | Sizes below 1024 (negative ones included) stay in bytes. Otherwise `div` is a power `1024^(e+1)` with `div <= bytes < 1024 * div` and `0 <= e <= 5`, and the unit is `"KMGTPE"[e]`. |
| `ListCommand.BracketUnique` | cmd/list.go:170-175 | Only one exponent brackets a size, so the unit is determined. |
| `ListCommand.ShortHead` | cmd/list.go:88-91 | A HEAD of at most 8 characters is kept; a longer one becomes its first 8. |
| `ListCommand.ShortHeadIdempotent` | cmd/list.go:141-144 | Abbreviating twice is abbreviating once. |
| `ListCommand.ListFilter` | cmd/list.go:52-57 | Keeps a worktree iff its path contains `.cow-worktrees` or differs from the repo path. |
| `ListCommand.ListFilterIsListCoW` | cmd/list.go:53-57 | Unless the repository path contains `.cow-worktrees`, the list command shows what `ListCoW` keeps. |
| `ListCommand.ListFilterInsideCowDir` | cmd/list.go:53-57 | Run from a path containing `.cow-worktrees`, the command shows every worktree, the repository included. |

## Left out

- I/O and concurrency:
  - Goroutines, channels, `WaitGroup`, tickers and the progress output are not modelled. Each pool is a sequential queue in which a worker that meets an error stops. The control loop's timing is a parameter (`now`, `processed`).
  - `unix.Clonefile`, `Statfs`/`isAPFS`, the GOOS switch, `os.*` file calls, `exec.Command("git", …)` and go-git calls are oracles. Their error text is whatever the oracle returns. Because `exec` errors read `exit status N`, the "brand new repository" test in `CreateCoWWorktreeWithProgress` may never fire in practice; the model keeps the test as written.
  - `filepath.Join`'s cleaning, `filepath.Rel`, `EvalSymlinks` and the umask are not modelled. Path parts are taken as clean, and modes pass through unchanged.
  - Walk errors and `Rel` errors in the clone walks and the depth helpers are not modelled. Trees are well formed (`WellFormed`: distinct, valid names), which the depth functions require.
  - `regularCopy` is not modelled as byte I/O: a failed clone followed by a successful copy yields the source item.
  - `bufio.Scanner`'s 64 KiB line limit is not modelled.
- `CoWClone.FallbackFaithful`: a copy that fails after `regularCopy` has opened the destination with `O_TRUNC` (cow_pool.go:238-246) can leave an empty or partial file; the model's failed copy leaves no entry, so the statement covers only entries the model creates.
- `CoWClone.AsWrittenBlocks`, `CoWClone.StrandedWalkBlocks`: the controller's growth during the run is not modelled. A tick whose window still holds successes from before the last exit adds a worker (cow_pool.go:299-302), which drains the channel and lets the Go walk return; the lemmas state the hang for the case where no such tick comes.
- `Rewrite.Rel` of the root is `""` where `filepath.Rel` gives `"."`, and `Porcelain.Render` ends one newline short of git's output, whose last record is followed by an empty line. Neither changes a result: the root is never handed out, and the parser ignores empty lines.
- `CoWClone.Step`: once every worker has exited, the step drops the task and the run returns. As written the walk instead blocks on the full task channel and never returns; that hang is stated separately by `CoWClone.RunAsWritten` (see Findings).
- `DepthClone.AtomicStep`: the same simplification for depth mode, whose task channel holds 100 (cow_pool.go:608, 638-640); its hang is not modelled.
- `Rewrite.Step`: once every worker has exited, the step drops the path. As written the walking goroutine blocks on the full channel and leaks, while `rewriteAbsolutePathsAsync` still returns the first error, which is what the model returns.
- `Rewrite.Land`: where a symlink leads (`resolve`) and what reading a link that leaves the destination yields (`follow`) are oracles; link targets are not resolved by the model. A matched FIFO blocks the worker's read until a writer appears; that is not modelled.
- `Utf8.EncodeStringValid`: Go strings, and so `[]byte(srcDir)`, may hold any bytes. The model's paths and roots are Unicode text encoded as UTF-8, so roots that are not valid UTF-8 are not modelled.
- `CoWClone.CloneDirectory`: the `clonefile not supported: ` wording for `ENOTSUP`/`EXDEV` is folded into `clonefile failed: `, since the error kind comes from the kernel. The Linux and other-OS branches of the `runtime.GOOS` switch are not modelled; the model is the macOS path.
- `adjustWorkers`' float rate is a `real`; `time.Since` is `now - lastAdjust` in nanoseconds.
- `ListCommand.FormatSize`: the `%.1f` rendering and the `%d` digits are not modelled. It returns the size, divisor and unit letter that the Go code formats.
- The workers stay registered after exiting on an error, as in the Go code. The model tracks the number still running separately.
- The startup pool does not stay at one worker per CPU: with an empty queue and no progress the first adjustment retires one (`Pool.StartupIdleShrinks`).
- On a failed clone, `setupWorktreeWithCoWProgress` does not remove the partial destination before the `git worktree add` fallback runs. The model records exactly the calls the code makes.
- `Worktree.Setup`, `Worktree.CreateCoW` and `Manager.Create` take the setup variant: `AsWrittenSetup` is the code as written, `CorrectedSetup` creates the branch in the repository, deletes it when a later step fails, and writes the corrected `commondir`.
- `Worktree.CreateCoW`: the git oracle answers as the repository stood when creation began. The one change tracked across calls is a branch that a failed setup left in the repository, which git refuses to create again; other state git keeps between calls is not modelled.
- `Worktree.SetupFiles`: loose refs only; packed refs, the reflog and the index are not modelled, and `git branch` writes `<commit>\n`.
- `Manager.Create`: `os.MkdirTemp`'s random suffix is the oracle's answer. `FromCommit` is unused by the Go code and so by the model.
- `CreateFromExistingBranch`, `CreateFromBranch`, `NewManager`, `Manager.List`, `getDirSize`, the JSON, table and compact printers, `cmd/add.go`, `cmd/create.go`, `cmd/remove.go`, `cmd/root.go`, `cmd/util.go`, `cmd/benchmark.go` and `progress.go` are not modelled. They are CLI wiring, output or timing, outside the core.

## Findings

| source | as written | input that shows it | evidently intended | confidence | as-written member | corrected member |
|---|---|---|---|---|---|---|
| pkg/cowgit/cow_pool.go:415-444 | The error channel is polled once with `select`/`default` before the deferred `pool.Stop` waits for the workers, so an error sent by a task still running is missed and the fallback returns nil. | One file whose copy fails, polled before its task ends; the failed copy can also leave a truncated file in a worktree reported as fine. | Wait for the workers, then read the error. | not executed | `CoWClone.FallbackAsWritten`, `CoWClone.RaceMissesError` | `CoWClone.Fallback`, `CoWClone.FallbackReportsFailures` |
| pkg/cowgit/cow_pool.go:540-561 | The same early poll in depth mode. | One depth-1 directory whose clone fails, polled before its task ends. | Wait for the workers, then read the error. | not executed | `DepthClone.CloneDirectoryParallelDepthAsWritten`, `DepthClone.DepthRaceMissesError` | `DepthClone.CloneDirectoryParallelDepth`, `DepthClone.DepthReportsFailure` |
| pkg/cowgit/cow_pool.go:478-488 | Depth mode clones only the directories at depth N and creates the directories above them. Files, symlinks and other entries at depth at most N are never copied, yet it reports success. | A repository with `README.md` at its root, depth 1. | Clone every non-directory entry at depth at most N too, so the worktree is a full copy. | not executed | `DepthClone.CloneDirectoryParallelDepthAsWritten`, `DepthClone.RootFileLost`, `DepthClone.DepthAsWrittenAllOk` | `DepthClone.CloneDirectoryParallelDepth`, `DepthClone.DepthAllOk` |
| pkg/cowgit/worktree.go:352-355 | `commondir` is always `../..`. The metadata directory is `.git/worktrees/<branch>`, so for a branch with `/` (as made by `--prefix cow/`) it resolves inside `.git/worktrees` instead of to `.git`. | Branch `cow/feature` in repository `/repo`. | Climb one level per segment of the branch name plus one, so `commondir` always names `.git` (naming the metadata directory by a flat id, as git does, would serve too). | not executed | `Registration.RegisterAsWritten`, `Registration.AsWrittenCommonDirIff`, `Registration.PrefixedBranchMisplacesCommonDir` | `Registration.Register`, `Registration.RegisterLinks`, `Registration.NestedBranchMisplaces` |
| pkg/cowgit/pathrewrite.go:153-155 | The walk hands every non-directory to the workers, symlinks included, and `os.ReadFile`/`os.WriteFile` (pathrewrite.go:126, 138) follow links. A matched link to a file of the worktree rewrites that file even when the file itself is not matched; an absolute link copied from the repository leads back into it, and the rewrite writes into the source repository. | A matched symlink `.env -> /repo/config/app.env` whose target holds `/repo`. | Hand out regular files only. | not executed | `Rewrite.RewriteAbsolutePathsAsWritten`, `Rewrite.LinkWritesThrough`, `Rewrite.LinkWritesOutside` | `Rewrite.RewriteAbsolutePaths`, `Rewrite.RewriteAllWritesSucceed`, `Rewrite.RewriteTouchesOnlyRewritable` |
| pkg/cowgit/worktree.go:158-175 | `git branch` and `git symbolic-ref` run in the worktree, whose `.git` is still the clone's copy of the repository's. The registration then deletes that directory (worktree.go:366-369), and the new ref with it. The repository never receives the branch, so the worktree's HEAD names a branch without commits, the case worktree_test.go:719-731 looks for. | Any new branch `feature` of `/repo` set up in `/tmp/wt`. | Create the branch in the repository, whose refs the linked worktree shares, and delete it again when a later step fails, so that the `git worktree add -b` fallback can still create it. | not executed | `Worktree.Setup` with `Worktree.AsWrittenSetup`, `Worktree.BranchOrphaned` | `Worktree.Setup` with `Worktree.CorrectedSetup`, `Worktree.BranchRecorded`, `Worktree.FallbackIsRegular` |
| pkg/cowgit/cow_pool.go:98-100 | `Submit` blocks on the 1000-slot task channel. A worker that meets an error exits (cow_pool.go:168-173) without lowering the worker count, and the controller adds a worker only when the processed count grew (cow_pool.go:299), which only successes raise (cow_pool.go:176). Once every worker has failed, a walk with more than 1000 tasks left blocks for good, unless the first tick after the last exit still sees earlier successes and grows the pool (`Pool.TickGrows`). Depth mode has the same shape with 100 slots (cow_pool.go:638-640). | `NumCPU` failing tasks early in a walk of more than `NumCPU + 1000` entries, with no success in the controller's window after the last failure. | Stop submitting once the pool has failed, so the walk returns the first error. | not executed | `CoWClone.RunAsWritten`, `CoWClone.AsWrittenBlocks`, `CoWClone.StrandedWalkBlocks`, `Pool.StalledNeverGrows` | `CoWClone.Run`, `CoWClone.DeadPoolReturns`, `CoWClone.AsWrittenReturnsRun` |

=== FILE: cowclone.dfy ===
/** The file-by-file clone engine of pkg/cowgit/cow_pool.go: the disposition of each
    walked entry (`processCoWTask`), the walk that feeds the pool
    (`cloneDirectoryParallelFallback`) and the strategy ladder
    (`CloneDirectoryParallel`, `CloneDirectoryParallelForced`).

    Every system call is an oracle `Sys` that says whether the call on a given path
    succeeds and, if not, with what message. The pool's workers take queued tasks one at
    a time in walk order; a worker whose task fails offers the error to the one-slot
    error channel and exits, and once no worker is left nothing more is processed. */
module CoWClone {
  import opened Wrappers
  import opened Seqs
  import opened FileTree

  /** The system calls of the clone engine: `os.Mkdir` (inside `os.MkdirAll`),
      `unix.Clonefile` on one file, the byte copy of `regularCopy`, `os.Readlink` on the
      source and `os.Symlink` on the destination. */
  datatype Op = Mkdir | Clonefile | Copy | Readlink | MakeLink

  type Sys = (Op, Path) -> Outcome

  /** The counters of a `CoWPool`. */
  datatype CoWStats = CoWStats(processed: nat, copied: nat, skipped: nat,
                               directories: nat, regular: nat, symlinks: nat)

  const NoCoWStats := CoWStats(0, 0, 0, 0, 0, 0)

  /** `os.MkdirAll(p, mode)` on a destination: nothing to do at an existing directory,
      an error at an existing non-directory, otherwise the missing ancestors and then
      `p` itself are made, each with `mode`. The destination root's own parent is taken
      to exist. */
  function MkdirAll(sys: Sys, fs: FS, p: Path, mode: Mode): (r: Result<FS>)
    ensures p in fs && fs[p].DirItem? ==> r == Ok(fs)
    ensures p in fs && !fs[p].DirItem? ==> r.Err?
    ensures r.Ok? ==> p in r.value && r.value[p].DirItem?
    ensures r.Ok? ==> forall q :: q in fs ==> q in r.value && r.value[q] == fs[q]
    ensures r.Ok? ==> forall q :: q in r.value && q !in fs ==> HasPrefix(p, q) && r.value[q] == DirItem(mode)
    decreases |p|
  {
    if p in fs then
      if fs[p].DirItem? then Ok(fs) else Err("mkdir " + Join(p, "/") + ": not a directory")
    else
      var up :- if |p| == 0 then Ok(fs) else MkdirAll(sys, fs, Parent(p), mode);
      assert p !in up by {
        if |p| > 0 {
          assert !HasPrefix(Parent(p), p);
        }
      }
      match sys(Mkdir, p)
      case Pass => Ok(up[p := DirItem(mode)])
      case Fail(e) => Err(e)
  }

  /** Making a directory whose parent already exists adds just that directory. */
  lemma MkdirOneLevel(sys: Sys, fs: FS, p: Path, mode: Mode)
    requires |p| >= 1 && p !in fs && Parent(p) in fs && fs[Parent(p)].DirItem?
    requires sys(Mkdir, p) == Pass
    ensures MkdirAll(sys, fs, p, mode) == Ok(fs[p := DirItem(mode)])
  {
  }

  /** Whether `os.MkdirAll` makes the parent of `p`, with mode 0755. */
  predicate ParentMade(sys: Sys, fs: FS, p: Path)
    requires |p| >= 1
  {
    MkdirAll(sys, fs, Parent(p), DefaultDirMode).Ok?
  }

  /** What one task leaves behind. */
  datatype TaskResult = TaskResult(fs: FS, stats: CoWStats, outcome: Outcome)

  /** `processCoWTask` for the source entry `it` at `p`: a directory is made with its
      own mode; anything else first gets its parent made with mode 0755; a regular file
      is cloned, or copied when the clone fails; a symlink is re-created from its
      target; anything else is skipped. */
  function ProcessTask(sys: Sys, fs: FS, s: CoWStats, p: Path, it: Item): (r: TaskResult)
    requires |p| >= 1
    ensures it.DirItem? ==>
      (r.outcome.Pass? <==> MkdirAll(sys, fs, p, it.mode).Ok?)
      && r.stats == if r.outcome.Pass? then s.(copied := s.copied + 1, directories := s.directories + 1) else s
    ensures !it.DirItem? && !ParentMade(sys, fs, p) ==> r == TaskResult(fs, s, r.outcome) && r.outcome.Fail?
    ensures it.FileItem? && ParentMade(sys, fs, p) ==>
      if sys(Clonefile, p).Pass? then r.outcome.Pass? && r.stats == s.(regular := s.regular + 1, copied := s.copied + 1)
      else r.outcome == sys(Copy, p) && r.stats == s.(regular := s.regular + 1, skipped := s.skipped + 1)
    ensures it.LinkItem? && ParentMade(sys, fs, p) ==>
      (r.outcome.Pass? <==> sys(Readlink, p).Pass? && sys(MakeLink, p).Pass?)
      && r.stats == s.(symlinks := s.symlinks + 1, copied := s.copied + if sys(Readlink, p).Pass? then 1 else 0)
    ensures it.OtherItem? && ParentMade(sys, fs, p) ==> r.outcome.Pass? && r.stats == s.(skipped := s.skipped + 1)
    ensures r.stats.processed == s.processed
    ensures r.outcome.Pass? ==> r.stats.copied + r.stats.skipped == s.copied + s.skipped + 1
    ensures r.outcome.Fail? ==> r.stats.copied + r.stats.skipped <= s.copied + s.skipped + 1
    ensures r.stats.directories == s.directories + (if it.DirItem? && r.outcome.Pass? then 1 else 0)
    ensures r.stats.regular <= s.regular + (if it.FileItem? then 1 else 0)
    ensures r.stats.symlinks <= s.symlinks + (if it.LinkItem? then 1 else 0)
    ensures r.outcome.Pass? && !it.OtherItem? ==> p in r.fs && (r.fs[p] == it || (it.DirItem? && r.fs[p].DirItem?))
    ensures fs.Keys <= r.fs.Keys
    ensures forall q :: q in fs && q != p ==> r.fs[q] == fs[q]
    ensures forall q :: q in r.fs ==>
      (q in fs && r.fs[q] == fs[q])
      || (q == p && (r.fs[q] == it || (it.DirItem? && r.fs[q].DirItem?)))
      || (HasPrefix(p, q) && |q| < |p| && r.fs[q].DirItem?)
  {
    if it.DirItem? then
      match MkdirAll(sys, fs, p, it.mode)
      case Err(e) => TaskResult(fs, s, Fail(e))
      case Ok(made) => TaskResult(made, s.(copied := s.copied + 1, directories := s.directories + 1), Pass)
    else
      match MkdirAll(sys, fs, Parent(p), DefaultDirMode)
      case Err(e) => TaskResult(fs, s, Fail(e))
      case Ok(made) =>
        if it.FileItem? then
          var s1 := s.(regular := s.regular + 1);
          if sys(Clonefile, p).Pass? then TaskResult(made[p := it], s1.(copied := s1.copied + 1), Pass)
          else
            var s2 := s1.(skipped := s1.skipped + 1);
            match sys(Copy, p)
            case Pass => TaskResult(made[p := it], s2, Pass)
            case Fail(e) => TaskResult(made, s2, Fail(e))
        else if it.LinkItem? then
          var s1 := s.(symlinks := s.symlinks + 1);
          match sys(Readlink, p)
          case Fail(e) => TaskResult(made, s1, Fail(e))
          case Pass =>
            var s2 := s1.(copied := s1.copied + 1);
            match sys(MakeLink, p)
            case Pass => TaskResult(made[p := it], s2, Pass)
            case Fail(e) => TaskResult(made, s2, Fail(e))
        else TaskResult(made, s.(skipped := s.skipped + 1), Pass)
  }

  /** The counters after a task that meets no failure: a directory, a cloned file and a
      re-created link are copied, each also counted by kind; anything else is skipped. */
  function CleanCount(s: CoWStats, it: Item): CoWStats {
    match it
    case DirItem(_) => s.(copied := s.copied + 1, directories := s.directories + 1)
    case FileItem(_, _) => s.(copied := s.copied + 1, regular := s.regular + 1)
    case LinkItem(_) => s.(copied := s.copied + 1, symlinks := s.symlinks + 1)
    case OtherItem(_) => s.(skipped := s.skipped + 1)
  }

  /** With its parent in place and every call succeeding, a task adds exactly its own
      entry (nothing, for an entry that is neither directory, file nor symlink). */
  lemma ProcessTaskAllOk(sys: Sys, fs: FS, s: CoWStats, p: Path, it: Item)
    requires forall op, q :: sys(op, q) == Pass
    requires |p| >= 1 && p !in fs && Parent(p) in fs && fs[Parent(p)].DirItem?
    ensures ProcessTask(sys, fs, s, p, it).outcome == Pass
    ensures ProcessTask(sys, fs, s, p, it).fs == if it.OtherItem? then fs else fs[p := it]
    ensures ProcessTask(sys, fs, s, p, it).stats == CleanCount(s, it)
  {
    if it.DirItem? {
      MkdirOneLevel(sys, fs, p, it.mode);
    }
  }

  /** Every proper prefix of a source path is a source directory. */
  predicate Closed(src: FS) {
    forall p, i :: p in src && 0 <= i < |p| ==> p[..i] in src && src[p[..i]].DirItem?
  }

  /** Everything in the destination is a copy of the source entry at the same path,
      except that a directory's mode may differ; the root is a directory. */
  predicate Faithful(fs: FS, src: FS) {
    forall p :: p in fs ==> p in src && (fs[p] == src[p] || (fs[p].DirItem? && (p == [] || src[p].DirItem?)))
  }

  lemma ClosedPrefix(src: FS, p: Path, q: Path)
    requires Closed(src) && p in src && HasPrefix(p, q) && |q| < |p|
    ensures q in src && src[q].DirItem?
  {
    assert q == p[..|q|];
  }

  /** The state of a pool run: the destination, the counters, the workers still
      running and the error sitting in the error channel. */
  datatype CloneState = CloneState(fs: FS, stats: CoWStats, alive: nat, sent: Option<string>)

  /** One task handed to the pool. */
  function Step(sys: Sys, src: FS, s: CloneState, p: Path): (r: CloneState)
    requires p in src && |p| >= 1
    ensures r.stats.processed <= s.stats.processed + 1
    ensures r.alive == s.alive || (r.alive == s.alive - 1 && r.sent.Some?)
    ensures s.sent.Some? ==> r.sent == s.sent
    ensures s.sent.None? ==> (r.sent.None? <==> r.alive == s.alive)
    ensures s.fs.Keys <= r.fs.Keys
    ensures [] in s.fs ==> r.fs[[]] == s.fs[[]]
    ensures r.alive == s.alive ==>
      r.stats.processed + s.stats.copied + s.stats.skipped == s.stats.processed + r.stats.copied + r.stats.skipped
    ensures Closed(src) && Faithful(s.fs, src) ==> Faithful(r.fs, src)
  {
    if s.alive == 0 then s
    else
      var t := ProcessTask(sys, s.fs, s.stats, p, src[p]);
      if t.outcome.Fail? then
        CloneState(t.fs, t.stats, s.alive - 1, if s.sent.None? then Some(t.outcome.msg) else s.sent)
      else
        CloneState(t.fs, t.stats.(processed := t.stats.processed + 1), s.alive, s.sent)
  }

  predicate Submittable(src: FS, ps: seq<Path>) {
    forall i :: 0 <= i < |ps| ==> ps[i] in src && |ps[i]| >= 1
  }

  /** One task per path of `ps`, in order. */
  function Run(sys: Sys, src: FS, s: CloneState, ps: seq<Path>): (r: CloneState)
    requires Submittable(src, ps)
    ensures r.alive <= s.alive
    ensures r.sent.None? ==> r.alive == s.alive
    ensures s.sent.Some? ==> r.sent == s.sent
    ensures s.sent.None? ==> (r.sent.None? <==> r.alive == s.alive)
    ensures r.stats.processed <= s.stats.processed + |ps|
    ensures s.fs.Keys <= r.fs.Keys
    ensures [] in s.fs ==> r.fs[[]] == s.fs[[]]
    ensures r.alive == s.alive ==>
      r.stats.processed + s.stats.copied + s.stats.skipped == s.stats.processed + r.stats.copied + r.stats.skipped
    ensures Closed(src) && Faithful(s.fs, src) ==> Faithful(r.fs, src)
    decreases |ps|
  {
    if |ps| == 0 then s
    else Step(sys, src, Run(sys, src, s, ps[..|ps| - 1]), ps[|ps| - 1])
  }

  /** Once no worker is alive the corrected walk hands its remaining tasks to
      nobody and returns: the run leaves the state as it was, the first error
      already in the error channel. */
  lemma {:induction false} DeadPoolReturns(sys: Sys, src: FS, s: CloneState, ps: seq<Path>)
    requires Submittable(src, ps) && s.alive == 0
    ensures Run(sys, src, s, ps) == s
    decreases |ps|
  {
    if |ps| > 0 {
      DeadPoolReturns(sys, src, s, ps[..|ps| - 1]);
    }
  }

  /** The capacity of the fallback pool's task channel. */
  const TaskBuffer := 1000

  /** The walk as written once every worker has exited: each `Submit` parks its task
      in the channel, which nobody drains any more (a failed worker exits without
      lowering the worker count, and the controller adds a worker only while the
      processed count grows), so the walk blocks for good once the channel is full
      (`None`); otherwise it ends with the tasks still queued. */
  function SubmitStranded(queued: nat, ps: seq<Path>): (r: Option<nat>)
    requires queued <= TaskBuffer
    ensures r.None? <==> queued + |ps| > TaskBuffer
    ensures r.Some? ==> r.value == queued + |ps|
    decreases |ps|
  {
    if |ps| == 0 then Some(queued)
    else if queued == TaskBuffer then None
    else SubmitStranded(queued + 1, ps[1..])
  }

  /** The run taken from the front: the first task, then the rest. */
  lemma {:induction false} RunFront(sys: Sys, src: FS, s: CloneState, ps: seq<Path>)
    requires Submittable(src, ps) && |ps| >= 1
    ensures Run(sys, src, s, ps) == Run(sys, src, Step(sys, src, s, ps[0]), ps[1..])
    decreases |ps|
  {
    var n := |ps|;
    if n > 1 {
      RunFront(sys, src, s, ps[..n - 1]);
      assert ps[..n - 1][1..] == ps[1..][..n - 2];
      assert ps[1..][n - 2] == ps[n - 1];
    }
  }

  /** The run as written: while a worker is alive each task goes through `Step`;
      once the last one has exited, the remaining tasks are parked in the channel
      beside the `queued` already there, as `SubmitStranded` says, and the walk
      never returns (`None`) when they overflow it. */
  function RunAsWritten(sys: Sys, src: FS, s: CloneState, queued: nat, ps: seq<Path>): (r: Option<CloneState>)
    requires Submittable(src, ps) && queued <= TaskBuffer
    ensures s.alive == 0 ==> (r.None? <==> queued + |ps| > TaskBuffer)
    decreases |ps|
  {
    if |ps| == 0 then Some(s)
    else if s.alive == 0 then (if SubmitStranded(queued, ps).None? then None else Some(s))
    else RunAsWritten(sys, src, Step(sys, src, s, ps[0]), queued, ps[1..])
  }

  /** The last worker has exited once the first `k` tasks are handed out. */
  predicate DeadAfter(sys: Sys, src: FS, s: CloneState, ps: seq<Path>, k: nat)
    requires Submittable(src, ps)
  {
    k <= |ps| && Run(sys, src, s, ps[..k]).alive == 0
  }

  /** The walk as written blocks for good exactly when the pool dies with more tasks
      still to submit than the channel has room for. Nothing revives the pool: see
      `Pool.StalledNeverGrows`. */
  lemma {:induction false} AsWrittenBlocks(sys: Sys, src: FS, s: CloneState, queued: nat, ps: seq<Path>)
    requires Submittable(src, ps) && queued <= TaskBuffer
    ensures RunAsWritten(sys, src, s, queued, ps).None? <==>
      exists k: nat :: DeadAfter(sys, src, s, ps, k) && queued + |ps| - k > TaskBuffer
    decreases |ps|
  {
    if |ps| > 0 && s.alive == 0 {
      assert ps[..0] == [];
      assert DeadAfter(sys, src, s, ps, 0);
    } else if |ps| > 0 {
      var s1 := Step(sys, src, s, ps[0]);
      AsWrittenBlocks(sys, src, s1, queued, ps[1..]);
      forall k: nat | 1 <= k <= |ps|
        ensures DeadAfter(sys, src, s, ps, k) == DeadAfter(sys, src, s1, ps[1..], k - 1)
      {
        RunFront(sys, src, s, ps[..k]);
        assert ps[..k][1..] == ps[1..][..k - 1];
      }
      assert !DeadAfter(sys, src, s, ps, 0) by { assert ps[..0] == []; }
      if RunAsWritten(sys, src, s1, queued, ps[1..]).None? {
        var k: nat :| DeadAfter(sys, src, s1, ps[1..], k) && queued + |ps| - 1 - k > TaskBuffer;
        assert DeadAfter(sys, src, s, ps, k + 1);
      }
      if exists k: nat :: DeadAfter(sys, src, s, ps, k) && queued + |ps| - k > TaskBuffer {
        var k: nat :| DeadAfter(sys, src, s, ps, k) && queued + |ps| - k > TaskBuffer;
        assert DeadAfter(sys, src, s1, ps[1..], k - 1);
      }
    }
  }

  /** Whenever the walk as written returns, it returns what the corrected run does. */
  lemma {:induction false} AsWrittenReturnsRun(sys: Sys, src: FS, s: CloneState, queued: nat, ps: seq<Path>)
    requires Submittable(src, ps) && queued <= TaskBuffer
    ensures RunAsWritten(sys, src, s, queued, ps).Some? ==>
      RunAsWritten(sys, src, s, queued, ps).value == Run(sys, src, s, ps)
    decreases |ps|
  {
    if |ps| > 0 && s.alive == 0 {
      DeadPoolReturns(sys, src, s, ps);
    } else if |ps| > 0 {
      RunFront(sys, src, s, ps);
      AsWrittenReturnsRun(sys, src, Step(sys, src, s, ps[0]), queued, ps[1..]);
    }
  }

  /** While a worker survives the whole run, the two readings agree. */
  lemma {:induction false} AsWrittenWhileAlive(sys: Sys, src: FS, s: CloneState, queued: nat, ps: seq<Path>)
    requires Submittable(src, ps) && queued <= TaskBuffer
    requires Run(sys, src, s, ps).alive > 0
    ensures RunAsWritten(sys, src, s, queued, ps) == Some(Run(sys, src, s, ps))
    decreases |ps|
  {
    if |ps| > 0 {
      RunFront(sys, src, s, ps);
      AsWrittenWhileAlive(sys, src, Step(sys, src, s, ps[0]), queued, ps[1..]);
    }
  }

  /** Where the two readings part: with every worker gone and more tasks left than
      the channel holds, the walk as written never returns, while the corrected run
      returns the state it was handed. */
  lemma StrandedWalkBlocks(sys: Sys, src: FS, s: CloneState, ps: seq<Path>)
    requires Submittable(src, ps) && s.alive == 0 && |ps| > TaskBuffer
    ensures RunAsWritten(sys, src, s, 0, ps).None?
    ensures Run(sys, src, s, ps) == s
  {
    DeadPoolReturns(sys, src, s, ps);
  }

  /** Work items the walk submits: every walked path but the root. */
  function Tasks(tree: Node): (ps: seq<Path>)
    ensures Submittable(Flatten(tree), ps)
  {
    var ps := Walk(tree)[1..];
    forall i | 0 <= i < |ps| ensures ps[i] in Flatten(tree) {
      WalkInFlatten(tree, ps[i]);
    }
    ps
  }

  const DestinationError := "failed to create destination directory: "

  /** `cloneDirectoryParallelFallback` AS WRITTEN. The error channel is polled before the
      deferred `pool.Stop` has waited for the workers, so the error seen is the one
      sent by the first `finished` tasks only: `finished` is how many tasks had ended
      when the poll ran. The destination is the one left once every worker is done. */
  function FallbackAsWritten(sys: Sys, tree: Node, cpus: nat, finished: nat): (r: (FS, Outcome))
    requires cpus >= 1
  {
    match MkdirAll(sys, map[], [], DefaultDirMode)
    case Err(e) => (map[], Fail(DestinationError + e))
    case Ok(root) =>
      var src := Flatten(tree);
      var ps := Tasks(tree);
      var s := CloneState(root, NoCoWStats, cpus, None);
      var polled := Run(sys, src, s, ps[..if finished < |ps| then finished else |ps|]);
      (Run(sys, src, s, ps).fs, if polled.sent.Some? then Fail(polled.sent.value) else Pass)
  }

  /** `cloneDirectoryParallelFallback` with the error polled after the workers are done,
      as its own comment says it means to: any failed task makes the clone fail. */
  function Fallback(sys: Sys, tree: Node, cpus: nat): (r: (FS, Outcome))
    requires cpus >= 1
    ensures r.1.Pass? ==> [] in r.0 && r.0[[]] == DirItem(DefaultDirMode)
  {
    match MkdirAll(sys, map[], [], DefaultDirMode)
    case Err(e) => (map[], Fail(DestinationError + e))
    case Ok(root) =>
      var s := Run(sys, Flatten(tree), CloneState(root, NoCoWStats, cpus, None), Tasks(tree));
      (s.fs, if s.sent.Some? then Fail(s.sent.value) else Pass)
  }

  /** The fallback's state after its whole run, for the lemmas below. */
  function FallbackRun(sys: Sys, tree: Node, cpus: nat): (r: CloneState)
    requires cpus >= 1 && MkdirAll(sys, map[], [], DefaultDirMode).Ok?
  {
    Run(sys, Flatten(tree), CloneState(MkdirAll(sys, map[], [], DefaultDirMode).value, NoCoWStats, cpus, None), Tasks(tree))
  }

  /** A failed task, seen or missed: the waiting version reports it. */
  lemma FallbackReportsFailures(sys: Sys, tree: Node, cpus: nat)
    requires cpus >= 1 && MkdirAll(sys, map[], [], DefaultDirMode).Ok?
    ensures Fallback(sys, tree, cpus).1.Pass? <==> FallbackRun(sys, tree, cpus).alive == cpus
    ensures Fallback(sys, tree, cpus).0 == FallbackRun(sys, tree, cpus).fs
  {
  }

  /** The error the poll misses: a single-file tree whose copy fails, polled before the
      task ends, comes back as a success from the version as written and as the copy's
      error from the waiting one. */
  lemma RaceMissesError()
    ensures var tree := Dir(DefaultDirMode, [Entry("a", File(0x1A4, []))]);
            var sys: Sys := (op, q) => if op == Clonefile || op == Copy then Fail("copy failed") else Pass;
            FallbackAsWritten(sys, tree, 1, 0).1 == Pass && Fallback(sys, tree, 1).1 == Fail("copy failed")
  {
    var tree := Dir(DefaultDirMode, [Entry("a", File(0x1A4, []))]);
    var sys: Sys := (op, q) => if op == Clonefile || op == Copy then Fail("copy failed") else Pass;
    var root := map[[] := DirItem(DefaultDirMode)];
    assert MkdirAll(sys, map[], [], DefaultDirMode) == Ok(root);
    OneFileTree(tree);
    var src := Flatten(tree);
    var s := CloneState(root, NoCoWStats, 1, None);
    assert Tasks(tree)[..0] == [];
    assert Run(sys, src, s, Tasks(tree)) == Step(sys, src, s, ["a"]) by {
      assert Tasks(tree)[..0] == [];
    }
    assert Parent(["a"]) == [];
    FailedCopy(sys, root, NoCoWStats, ["a"], FileItem(0x1A4, []), "copy failed");
  }

  /** The walk of a root holding one file `a`. */
  lemma OneFileTree(tree: Node)
    requires tree == Dir(DefaultDirMode, [Entry("a", File(0x1A4, []))])
    ensures Tasks(tree) == [["a"]]
    ensures ["a"] in Flatten(tree) && Flatten(tree)[["a"]] == FileItem(0x1A4, [])
  {
    var leaf: seq<Path> := [[]];
    assert Walk(File(0x1A4, [])) == leaf;
    assert Under("a", leaf) == [["a"]] by {
      var u := Under("a", leaf);
      assert |u| == 1 && u[0] == ["a"] + leaf[0];
      assert ["a"] + leaf[0] == ["a"];
    }
    var es := tree.entries;
    assert es[1..] == [];
    assert WalkEntries(es) == Under("a", leaf) + WalkEntries([]);
    assert Walk(tree) == [[], ["a"]];
    var src := Flatten(tree);
    assert src == Prefix("a", Flatten(File(0x1A4, []))) + map[] + map[[] := DirItem(DefaultDirMode)] by {
      assert FlattenEntries(tree.entries) == Prefix("a", Flatten(File(0x1A4, []))) + FlattenEntries([]);
    }
    assert [] + ["a"] == ["a"];
  }

  /** A file whose clone and copy both fail fails its task with the copy's error. */
  lemma FailedCopy(sys: Sys, fs: FS, st: CoWStats, p: Path, it: Item, m: string)
    requires it.FileItem? && |p| >= 1 && MkdirAll(sys, fs, Parent(p), DefaultDirMode).Ok?
    requires sys(Clonefile, p).Fail? && sys(Copy, p) == Fail(m)
    ensures ProcessTask(sys, fs, st, p, it).outcome == Fail(m)
  {
  }

  /** What the fallback makes of a tree when every call succeeds: the root with mode
      0755 and every entry that is a directory, a file or a symlink, as it is. */
  function FallbackImage(src: FS, ps: seq<Path>, k: nat): (r: FS)
    requires k <= |ps|
  {
    map p | p in src && (p == [] || (p in ps[..k] && !src[p].OtherItem?)) ::
      if p == [] then DirItem(DefaultDirMode) else src[p]
  }

  /** Task `k` of `ps` has not come before, is not the root, and finds its parent
      made by what came before it. */
  predicate TaskReady(src: FS, ps: seq<Path>, k: nat)
    requires k < |ps|
  {
    ps[k] in src && ps[k] != [] && ps[k] !in ps[..k]
    && Parent(ps[k]) in FallbackImage(src, ps, k) && FallbackImage(src, ps, k)[Parent(ps[k])].DirItem?
  }

  /** With every call succeeding and every task ready in its turn, the first `k` tasks
      build `FallbackImage` and no worker exits. */
  lemma {:induction false} RunAllOk(sys: Sys, src: FS, ps: seq<Path>, s: CloneState, k: nat)
    requires forall op, q :: sys(op, q) == Pass
    requires Submittable(src, ps) && forall i :: 0 <= i < |ps| ==> TaskReady(src, ps, i)
    requires s.alive >= 1 && s.fs == FallbackImage(src, ps, 0)
    requires k <= |ps|
    ensures Run(sys, src, s, ps[..k]).fs == FallbackImage(src, ps, k)
    ensures Run(sys, src, s, ps[..k]).alive == s.alive
    ensures Run(sys, src, s, ps[..k]).stats.processed == s.stats.processed + k
    decreases k
  {
    if k > 0 {
      var pre := ps[..k - 1];
      var p := ps[k - 1];
      assert ps[..k][..k - 1] == pre && ps[..k][k - 1] == p;
      RunAllOk(sys, src, ps, s, k - 1);
      var m := Run(sys, src, s, pre);
      assert Run(sys, src, s, ps[..k]) == Step(sys, src, m, p);
      assert TaskReady(src, ps, k - 1);
      ProcessTaskAllOk(sys, m.fs, m.stats, p, src[p]);
      ImageStep(src, ps, k - 1);
    }
  }

  /** One more task adds its own entry to the image, unless it is neither directory,
      file nor symlink. */
  lemma ImageStep(src: FS, ps: seq<Path>, k: nat)
    requires k < |ps| && ps[k] in src && ps[k] != [] && ps[k] !in ps[..k]
    ensures FallbackImage(src, ps, k + 1) ==
      if src[ps[k]].OtherItem? then FallbackImage(src, ps, k) else FallbackImage(src, ps, k)[ps[k] := src[ps[k]]]
  {
    var p := ps[k];
    assert ps[..k + 1] == ps[..k] + [p];
    assert forall q :: q in ps[..k + 1] <==> q in ps[..k] || q == p;
  }

  /** What the walk order guarantees task `k`: it has not come before, it is not the
      root, and its parent is the root or an earlier directory task. */
  lemma TaskOrder(tree: Node, src: FS, ps: seq<Path>, k: nat)
    requires WellFormed(tree) && src == Flatten(tree) && ps == Tasks(tree) && k < |ps|
    ensures TaskReady(src, ps, k)
  {
    var p := ps[k];
    TaskIsNew(tree, ps, k);
    FlatParentIsDir(tree, p);
    if |p| >= 2 {
      TaskParentEarlier(tree, ps, k);
    } else {
      assert Parent(p) == [];
    }
  }

  /** Task `k` is walked path `k + 1`, is not the root, and has not come before. */
  lemma TaskIsNew(tree: Node, ps: seq<Path>, k: nat)
    requires WellFormed(tree) && ps == Tasks(tree) && k < |ps|
    ensures ps[k] == Walk(tree)[k + 1] && |ps[k]| >= 1 && ps[k] in Flatten(tree)
    ensures ps[k] !in ps[..k]
  {
    var ws := Walk(tree);
    var p := ps[k];
    WalkNoDuplicates(tree);
    var pre := ps[..k];
    forall i | 0 <= i < |pre| ensures pre[i] != p {
      assert pre[i] == ws[i + 1];
    }
  }

  /** The parent of a deeper task is an earlier task. */
  lemma TaskParentEarlier(tree: Node, ps: seq<Path>, k: nat)
    requires WellFormed(tree) && ps == Tasks(tree) && k < |ps| && |ps[k]| >= 2
    ensures Parent(ps[k]) in ps[..k]
  {
    var ws := Walk(tree);
    var p := ps[k];
    assert p == ws[k + 1];
    WalkParentsEarlier(tree);
    var j :| 0 <= j < k + 1 && ws[j] == Parent(p);
    assert j >= 1;
    assert ps[..k][j - 1] == Parent(p);
  }

  /** With every call succeeding, the fallback copies every directory, file and
      symlink of the source, gives the root mode 0755, counts every task as processed
      and succeeds. */
  lemma FallbackAllOk(sys: Sys, tree: Node, cpus: nat)
    requires forall op, q :: sys(op, q) == Pass
    requires WellFormed(tree) && cpus >= 1
    ensures Fallback(sys, tree, cpus) ==
      (map p | p in Flatten(tree) && (p == [] || !Flatten(tree)[p].OtherItem?) ::
         if p == [] then DirItem(DefaultDirMode) else Flatten(tree)[p], Pass)
    ensures FallbackRun(sys, tree, cpus).stats.processed == |Walk(tree)| - 1
  {
    var src := Flatten(tree);
    var ps := Tasks(tree);
    var root := map[[] := DirItem(DefaultDirMode)];
    assert MkdirAll(sys, map[], [], DefaultDirMode) == Ok(root);
    assert root == FallbackImage(src, ps, 0);
    var s := CloneState(root, NoCoWStats, cpus, None);
    forall i | 0 <= i < |ps| ensures TaskReady(src, ps, i) {
      TaskOrder(tree, src, ps, i);
    }
    RunAllOk(sys, src, ps, s, |ps|);
    assert ps[..|ps|] == ps;
    WalkCoversFlatten(tree, src, ps);
    ImageComplete(src, ps);
  }

  lemma ImageComplete(src: FS, ps: seq<Path>)
    requires forall p :: p in src && p != [] ==> p in ps
    ensures FallbackImage(src, ps, |ps|) ==
      map p | p in src && (p == [] || !src[p].OtherItem?) :: if p == [] then DirItem(DefaultDirMode) else src[p]
  {
    assert ps[..|ps|] == ps;
  }

  lemma WalkCoversFlatten(tree: Node, src: FS, ps: seq<Path>)
    requires WellFormed(tree) && src == Flatten(tree) && ps == Tasks(tree)
    ensures forall p :: p in src && p != [] ==> p in ps
  {
    forall p | p in src && p != [] ensures p in ps {
      FlattenIsLookup(tree, p);
      WalkIsLookup(tree, p);
      var ws := Walk(tree);
      var i :| 0 <= i < |ws| && ws[i] == p;
      assert i >= 1;
      assert Tasks(tree)[i - 1] == p;
    }
  }

  /** A tree's flattening is closed under taking ancestors. */
  lemma FlattenClosed(tree: Node)
    requires WellFormed(tree)
    ensures Closed(Flatten(tree))
  {
    var src := Flatten(tree);
    forall p, i | p in src && 0 <= i < |p| ensures p[..i] in src && src[p[..i]].DirItem? {
      FlattenIsLookup(tree, p);
      AncestorIsDir(tree, p, i);
      FlattenIsLookup(tree, p[..i]);
    }
  }

  /** Whatever the system calls do, the fallback leaves only copies of source entries
      in the destination: the same item at the same path, or a directory where the
      source has one. */
  lemma FallbackFaithful(sys: Sys, tree: Node, cpus: nat)
    requires WellFormed(tree) && cpus >= 1
    ensures Faithful(Fallback(sys, tree, cpus).0, Flatten(tree))
  {
    FlattenClosed(tree);
    if MkdirAll(sys, map[], [], DefaultDirMode).Ok? {
      assert Faithful(MkdirAll(sys, map[], [], DefaultDirMode).value, Flatten(tree));
    }
  }

  const CheckError := "failed to check filesystem: "
  const NotApfsError := "copy-on-write requires APFS filesystem"

  /** The APFS check every clone strategy starts with; `apfs` is what `isAPFS(src)`
      returned. */
  function ApfsGate(apfs: Result<bool>): (r: Outcome)
    ensures r.Pass? <==> apfs == Ok(true)
  {
    match apfs
    case Err(e) => Fail(CheckError + e)
    case Ok(b) => if b then Pass else Fail(NotApfsError)
  }

  /** `CloneDirectoryParallel`: past the APFS check, an atomic `clonefile` of the whole
      tree (`atomic` is its result), and the per-file fallback when that fails. The
      destination is `map[]` when nothing was made. */
  function CloneDirectoryParallel(tree: Node, apfs: Result<bool>, atomic: Outcome, sys: Sys, cpus: nat): (r: (FS, Outcome))
    requires cpus >= 1
    ensures apfs != Ok(true) ==> r.0 == map[] && r.1 == ApfsGate(apfs)
    ensures apfs == Ok(true) && atomic.Pass? ==> r == (Flatten(tree), Pass)
    ensures apfs == Ok(true) && atomic.Fail? ==> r == Fallback(sys, tree, cpus)
  {
    match ApfsGate(apfs)
    case Fail(e) => (map[], Fail(e))
    case Pass => if atomic.Pass? then (Flatten(tree), Pass) else Fallback(sys, tree, cpus)
  }

  /** `CloneDirectoryParallelForced`: the APFS check, then straight to the fallback. */
  function CloneDirectoryParallelForced(tree: Node, apfs: Result<bool>, sys: Sys, cpus: nat): (r: (FS, Outcome))
    requires cpus >= 1
    ensures apfs != Ok(true) ==> r.0 == map[] && r.1 == ApfsGate(apfs)
  {
    match ApfsGate(apfs)
    case Fail(e) => (map[], Fail(e))
    case Pass => Fallback(sys, tree, cpus)
  }

  /** The forced mode is the parallel mode with an atomic clone that always fails: it
      never depends on what the atomic clone would have done. */
  lemma ForcedIsParallelWithoutAtomic(tree: Node, apfs: Result<bool>, sys: Sys, cpus: nat, e: string)
    requires cpus >= 1
    ensures CloneDirectoryParallelForced(tree, apfs, sys, cpus) == CloneDirectoryParallel(tree, apfs, Fail(e), sys, cpus)
  {
  }

  /** Either way a successful clone holds the whole source: verbatim from the atomic
      clone, and with the root made 0755 and special files left out from the fallback
      when every call succeeds. */
  lemma ParallelCloneComplete(tree: Node, atomic: Outcome, sys: Sys, cpus: nat)
    requires WellFormed(tree) && cpus >= 1
    requires forall op, q :: sys(op, q) == Pass
    ensures CloneDirectoryParallel(tree, Ok(true), atomic, sys, cpus).1 == Pass
    ensures forall p :: p in Flatten(tree) && p != [] && !Flatten(tree)[p].OtherItem? ==>
      p in CloneDirectoryParallel(tree, Ok(true), atomic, sys, cpus).0
      && CloneDirectoryParallel(tree, Ok(true), atomic, sys, cpus).0[p] == Flatten(tree)[p]
  {
    FallbackAllOk(sys, tree, cpus);
  }

  const ClonefileError := "clonefile failed: "

  /** `CloneDirectory` on macOS (pkg/cowgit/cow.go): the APFS check and one atomic
      `clonefile`, with no fallback. */
  function CloneDirectory(tree: Node, apfs: Result<bool>, atomic: Outcome): (r: (FS, Outcome))
    ensures r.1.Pass? <==> apfs == Ok(true) && atomic.Pass?
    ensures r.1.Pass? ==> r.0 == Flatten(tree)
    ensures r.1.Fail? ==> r.0 == map[]
  {
    match ApfsGate(apfs)
    case Fail(e) => (map[], Fail(e))
    case Pass =>
      match atomic
      case Pass => (Flatten(tree), Pass)
      case Fail(e) => (map[], Fail(ClonefileError + e))
  }
}

=== FILE: depthclone.dfy ===
/** Depth mode of pkg/cowgit/cow_pool.go (`CloneDirectoryParallelDepth`): the walk
    that finds the directories at a given depth (`findDirectoriesAtDepth`), the walk
    that makes the directories above them (`createDirectoryStructure`), and the pool
    that clones each found directory with one `clonefile` (`AtomicClonePool`).

    Both walks are `filepath.Walk` cut short with `filepath.SkipDir`: which entries a
    walk reports, and below which directories it goes on, depend only on an entry's
    depth and on whether it is a directory. A `Policy` names that choice. The depth
    of a path is its number of names, so the root's entries are at depth 1. */
module DepthClone {
  import opened Wrappers
  import opened Seqs
  import opened FileTree
  import opened CoWClone

  /** What a cut-short walk reports and where it stops. */
  datatype Policy =
    | AtDepth(target: int)   // `findDirectoriesAtDepth`
    | UpTo(limit: int)       // `createDirectoryStructure` below the root
    | Frontier(target: int)  // the corrected depth mode's tasks, see `CloneDirectoryParallelDepth`

  /** Whether the walk reports an entry at `depth`. */
  predicate Emits(pol: Policy, depth: int, isDir: bool) {
    match pol
    case AtDepth(t) => isDir && depth == t
    case UpTo(m) => isDir && depth <= m
    case Frontier(t) => if isDir then depth == t else depth <= t
  }

  /** The walk goes on below a directory whose depth is smaller than this, and
      returns `filepath.SkipDir` for the others. */
  function Limit(pol: Policy): int {
    match pol
    case AtDepth(t) => t
    case UpTo(m) => m
    case Frontier(t) => t
  }

  /** The paths, relative to `n`, that the walk reports from `n` (at `depth`) down. */
  function Prune(pol: Policy, n: Node, depth: int): seq<Path>
    decreases n
  {
    (if Emits(pol, depth, n.Dir?) then [[]] else [])
    + (if n.Dir? && depth < Limit(pol) then PruneEntries(pol, n.entries, depth + 1) else [])
  }

  /** The same for the entries of a directory, which sit at `depth`. */
  function PruneEntries(pol: Policy, es: seq<Entry>, depth: int): (ps: seq<Path>)
    ensures forall i :: 0 <= i < |ps| ==> |ps[i]| >= 1
    decreases es
  {
    if |es| == 0 then []
    else Under(es[0].name, Prune(pol, es[0].node, depth)) + PruneEntries(pol, es[1..], depth)
  }

  /** A cut-short walk reports exactly the paths that lead to an entry the policy
      wants, below directories shallow enough to be walked into. */
  lemma {:induction false} PruneIsLookup(pol: Policy, n: Node, depth: int, p: Path)
    requires WellFormed(n)
    ensures p in Prune(pol, n, depth) <==>
      Lookup(n, p).Some? && Emits(pol, depth + |p|, Lookup(n, p).value.Dir?)
      && (|p| == 0 || depth + |p| - 1 < Limit(pol))
    decreases n
  {
    if |p| > 0 && n.Dir? && depth < Limit(pol) {
      PruneEntriesIsLookup(pol, n.entries, depth + 1, p);
    }
  }

  lemma {:induction false} PruneEntriesIsLookup(pol: Policy, es: seq<Entry>, depth: int, p: Path)
    requires WellFormedEntries(es) && |p| >= 1
    ensures p in PruneEntries(pol, es, depth) <==>
      FindEntry(es, p[0]).Some? && Lookup(FindEntry(es, p[0]).value, p[1..]).Some?
      && Emits(pol, depth + |p| - 1, Lookup(FindEntry(es, p[0]).value, p[1..]).value.Dir?)
      && (|p| == 1 || depth + |p| - 2 < Limit(pol))
    decreases es
  {
    if |es| > 0 {
      var e := es[0];
      EntriesTail(es);
      PruneEntriesIsLookup(pol, es[1..], depth, p);
      UnderMember(e.name, Prune(pol, e.node, depth), p);
      if p[0] == e.name {
        PruneIsLookup(pol, e.node, depth, p[1..]);
      }
    }
  }

  /** The same, below a directory root, in terms of the flattened source. */
  lemma PrunedIff(pol: Policy, tree: Node, p: Path)
    requires WellFormed(tree) && tree.Dir?
    ensures p in PruneEntries(pol, tree.entries, 1) <==>
      |p| >= 1 && p in Flatten(tree) && Emits(pol, |p|, Flatten(tree)[p].DirItem?)
      && (|p| == 1 || |p| - 1 < Limit(pol))
  {
    FlattenIsLookup(tree, p);
    if |p| >= 1 {
      PruneEntriesIsLookup(pol, tree.entries, 1, p);
    }
  }

  /** A cut-short walk reports no path twice. */
  lemma {:induction false} PruneNoDuplicates(pol: Policy, n: Node, depth: int)
    requires WellFormed(n)
    ensures NoDuplicates(Prune(pol, n, depth))
    decreases n
  {
    if n.Dir? && depth < Limit(pol) {
      PruneEntriesNoDuplicates(pol, n.entries, depth + 1);
    }
  }

  lemma {:induction false} PruneEntriesNoDuplicates(pol: Policy, es: seq<Entry>, depth: int)
    requires WellFormedEntries(es)
    ensures NoDuplicates(PruneEntries(pol, es, depth))
    decreases es
  {
    if |es| > 0 {
      var e := es[0];
      var rest := es[1..];
      assert WellFormedEntries(rest) by {
        assert forall i :: 0 <= i < |rest| ==> rest[i] == es[i + 1];
      }
      PruneNoDuplicates(pol, e.node, depth);
      PruneEntriesNoDuplicates(pol, rest, depth);
      var a := Under(e.name, Prune(pol, e.node, depth));
      var b := PruneEntries(pol, rest, depth);
      UnderNoDuplicates(e.name, Prune(pol, e.node, depth));
      forall q | q in b ensures q !in a {
        PruneEntriesIsLookup(pol, rest, depth, q);
        var i :| 0 <= i < |rest| && rest[i].name == q[0];
        assert rest[i] == es[i + 1];
      }
      forall i, j | 0 <= i < j < |a + b| ensures (a + b)[i] != (a + b)[j] {
        if i < |a| && j >= |a| {
          assert (a + b)[j] in b;
        }
      }
    }
  }

  /** The structure walk makes a directory before anything inside it: what it
      reports from a node is empty or starts with the node itself. */
  lemma {:induction false} UpToParentsEarlier(m: int, n: Node, depth: int)
    ensures ParentsEarlier(Prune(UpTo(m), n, depth))
    ensures Prune(UpTo(m), n, depth) == [] || Prune(UpTo(m), n, depth)[0] == []
    decreases n
  {
    if n.Dir? && depth < m {
      UpToEntriesParentsEarlier(m, n.entries, depth + 1);
      AppendParentsEarlier([[]], PruneEntries(UpTo(m), n.entries, depth + 1));
    }
  }

  lemma {:induction false} UpToEntriesParentsEarlier(m: int, es: seq<Entry>, depth: int)
    ensures ParentsEarlier(PruneEntries(UpTo(m), es, depth))
    decreases es
  {
    if |es| > 0 {
      var ps := Prune(UpTo(m), es[0].node, depth);
      UpToParentsEarlier(m, es[0].node, depth);
      if |ps| > 0 {
        UnderParentsEarlier(es[0].name, ps);
      }
      UpToEntriesParentsEarlier(m, es[1..], depth);
      AppendParentsEarlier(Under(es[0].name, ps), PruneEntries(UpTo(m), es[1..], depth));
    }
  }

  /** The depth `findDirectoriesAtDepth` computes from a relative path: one more than
      the separators in it, which is the number of names. */
  lemma RelDepth(p: Path)
    requires |p| >= 1 && forall i :: 0 <= i < |p| ==> ValidName(p[i])
    ensures Count(Join(p, "/"), "/") + 1 == |p|
  {
    CountOne(Join(p, "/"), '/');
    assert forall i :: 0 <= i < |p| ==> '/' !in p[i];
    SplitJoin(p, '/');
  }

  /** `findDirectoriesAtDepth(src, target)`: the directories the walk reports, in walk
      order; the root is never one of them. */
  function FindDirectoriesAtDepth(tree: Node, target: int): seq<Path> {
    if tree.Dir? then PruneEntries(AtDepth(target), tree.entries, 1) else []
  }

  /** It finds exactly the source directories whose depth is the target, each once;
      a target below 1 finds nothing. */
  lemma FoundIffAtDepth(tree: Node, target: int, p: Path)
    requires WellFormed(tree)
    ensures p in FindDirectoriesAtDepth(tree, target) <==>
      target >= 1 && |p| == target && p in Flatten(tree) && Flatten(tree)[p].DirItem?
    ensures NoDuplicates(FindDirectoriesAtDepth(tree, target))
  {
    if tree.Dir? {
      PrunedIff(AtDepth(target), tree, p);
      PruneEntriesNoDuplicates(AtDepth(target), tree.entries, 1);
    } else {
      assert Flatten(tree).Keys == {[]};
    }
  }

  /** The directories `createDirectoryStructure(src, dst, maxDepth)` makes, in walk
      order: the root, whatever `maxDepth` is, then every directory at depth
      `maxDepth` or less. */
  function Structure(tree: Node, maxDepth: int): seq<Path> {
    if tree.Dir? then [[]] + PruneEntries(UpTo(maxDepth), tree.entries, 1) else []
  }

  lemma StructureIff(tree: Node, maxDepth: int, p: Path)
    requires WellFormed(tree)
    ensures p in Structure(tree, maxDepth) <==>
      p in Flatten(tree) && Flatten(tree)[p].DirItem? && (|p| == 0 || |p| <= maxDepth)
  {
    if tree.Dir? {
      PrunedIff(UpTo(maxDepth), tree, p);
    } else {
      assert Flatten(tree).Keys == {[]};
    }
  }

  /** The structure walk visits a directory before anything inside it, starting
      with the root. */
  lemma StructureOrdered(tree: Node, maxDepth: int)
    ensures forall i :: 0 <= i < |Structure(tree, maxDepth)| ==>
      var p := Structure(tree, maxDepth)[i];
      |p| == 0 || exists j :: 0 <= j < i && Structure(tree, maxDepth)[j] == Parent(p)
  {
    if tree.Dir? {
      var rest := PruneEntries(UpTo(maxDepth), tree.entries, 1);
      var ps := [[]] + rest;
      UpToEntriesParentsEarlier(maxDepth, tree.entries, 1);
      forall i | 0 <= i < |ps| && |ps[i]| > 0 ensures exists j :: 0 <= j < i && ps[j] == Parent(ps[i]) {
        assert ps[i] == rest[i - 1];
        if |ps[i]| == 1 {
          assert ps[0] == Parent(ps[i]);
        } else {
          var j :| 0 <= j < i - 1 && rest[j] == Parent(rest[i - 1]);
          assert ps[j + 1] == rest[j];
        }
      }
    }
  }

  /** `os.MkdirAll` with the source directory's mode on every path of `ps`, in
      order, stopping at the first error. */
  function MakeDirs(sys: Sys, src: FS, fs: FS, ps: seq<Path>): (r: (FS, Outcome))
    requires forall i :: 0 <= i < |ps| ==> ps[i] in src && src[ps[i]].DirItem?
    ensures forall q :: q in fs ==> q in r.0 && r.0[q] == fs[q]
    ensures forall q :: q in r.0 && q !in fs ==> r.0[q].DirItem? && exists i :: 0 <= i < |ps| && HasPrefix(ps[i], q)
    ensures r.1.Pass? ==> forall i :: 0 <= i < |ps| ==> ps[i] in r.0 && r.0[ps[i]].DirItem?
    decreases |ps|
  {
    if |ps| == 0 then (fs, Pass)
    else
      match MkdirAll(sys, fs, ps[0], src[ps[0]].mode)
      case Err(e) => (fs, Fail(e))
      case Ok(made) =>
        var r := MakeDirs(sys, src, made, ps[1..]);
        assert forall i :: 1 <= i < |ps| ==> ps[i] == ps[1..][i - 1];
        r
  }

  /** A destination that holds only source directories, as they are in the source. */
  predicate DirsOf(fs: FS, src: FS) {
    forall q :: q in fs ==> q in src && fs[q] == src[q] && fs[q].DirItem?
  }

  /** Every path of `ps` is the root, has its parent in `fs`, or comes after it. */
  predicate ParentsReady(fs: FS, ps: seq<Path>) {
    forall i :: 0 <= i < |ps| ==>
      |ps[i]| == 0 || Parent(ps[i]) in fs || exists j :: 0 <= j < i && ps[j] == Parent(ps[i])
  }

  /** With every call succeeding and every directory's parent made before it,
      the directories of `ps` are added with their source modes and nothing else. */
  lemma {:induction false} MakeDirsAllOk(sys: Sys, src: FS, fs: FS, ps: seq<Path>)
    requires forall op, q :: sys(op, q) == Pass
    requires forall i :: 0 <= i < |ps| ==> ps[i] in src && src[ps[i]].DirItem?
    requires DirsOf(fs, src) && ParentsReady(fs, ps)
    ensures MakeDirs(sys, src, fs, ps) == (map q | q in fs.Keys + (set p | p in ps) :: src[q], Pass)
    decreases |ps|
  {
    if |ps| > 0 {
      var made := fs[ps[0] := src[ps[0]]];
      MakeDirsHead(sys, src, fs, ps);
      ReadyAfterHead(fs, ps, src[ps[0]]);
      MakeDirsAllOk(sys, src, made, ps[1..]);
      UnionAfterHead(src, fs, ps);
    } else {
      var m := map q | q in fs.Keys + (set p | p in ps) :: src[q];
      assert fs.Keys + (set q | q in ps) == fs.Keys;
      assert m == fs;
    }
  }

  /** The first directory of the plan, made when every call succeeds. */
  lemma MakeDirsHead(sys: Sys, src: FS, fs: FS, ps: seq<Path>)
    requires forall op, q :: sys(op, q) == Pass
    requires |ps| > 0 && forall i :: 0 <= i < |ps| ==> ps[i] in src && src[ps[i]].DirItem?
    requires DirsOf(fs, src) && (|ps[0]| == 0 || Parent(ps[0]) in fs)
    ensures MakeDirs(sys, src, fs, ps) == MakeDirs(sys, src, fs[ps[0] := src[ps[0]]], ps[1..])
    ensures DirsOf(fs[ps[0] := src[ps[0]]], src)
  {
    var p := ps[0];
    if p in fs {
      assert MkdirAll(sys, fs, p, src[p].mode) == Ok(fs);
      assert fs[p := src[p]] == fs;
    } else if |p| == 0 {
      assert MkdirAll(sys, fs, p, src[p].mode) == Ok(fs[p := src[p]]);
    } else {
      MkdirOneLevel(sys, fs, p, src[p].mode);
    }
  }

  lemma ReadyAfterHead(fs: FS, ps: seq<Path>, x: Item)
    requires |ps| > 0 && ParentsReady(fs, ps)
    ensures ParentsReady(fs[ps[0] := x], ps[1..])
  {
    var rest := ps[1..];
    forall i | 0 <= i < |rest|
      ensures |rest[i]| == 0 || Parent(rest[i]) in fs[ps[0] := x] || exists j :: 0 <= j < i && rest[j] == Parent(rest[i])
    {
      assert rest[i] == ps[i + 1];
      if |rest[i]| > 0 && Parent(rest[i]) !in fs && Parent(rest[i]) != ps[0] {
        var j :| 0 <= j < i + 1 && ps[j] == Parent(ps[i + 1]);
        assert rest[j - 1] == ps[j];
      }
    }
  }

  lemma UnionAfterHead(src: FS, fs: FS, ps: seq<Path>)
    requires |ps| > 0 && forall i :: 0 <= i < |ps| ==> ps[i] in src
    requires forall q :: q in fs ==> q in src
    ensures (map q | q in fs[ps[0] := src[ps[0]]].Keys + (set p | p in ps[1..]) :: src[q])
         == (map q | q in fs.Keys + (set p | p in ps) :: src[q])
  {
    assert fs[ps[0] := src[ps[0]]].Keys + (set p | p in ps[1..]) == fs.Keys + (set p | p in ps) by {
      assert forall q :: q in ps <==> q == ps[0] || q in ps[1..];
    }
  }

  /** `createDirectoryStructure(src, dst, maxDepth)` on an empty destination. */
  function CreateDirectoryStructure(sys: Sys, tree: Node, maxDepth: int): (r: (FS, Outcome))
    requires WellFormed(tree)
    ensures r.1.Pass? ==> forall p :: p in Structure(tree, maxDepth) ==> p in r.0 && r.0[p].DirItem?
    ensures forall q :: q in r.0 ==> r.0[q].DirItem? && (|q| == 0 || |q| <= maxDepth)
  {
    var ps := Structure(tree, maxDepth);
    forall i | 0 <= i < |ps| ensures ps[i] in Flatten(tree) && Flatten(tree)[ps[i]].DirItem? {
      StructureIff(tree, maxDepth, ps[i]);
    }
    var r := MakeDirs(sys, Flatten(tree), map[], ps);
    assert forall q :: q in r.0 ==> |q| == 0 || |q| <= maxDepth by {
      forall q | q in r.0 ensures |q| == 0 || |q| <= maxDepth {
        var i :| 0 <= i < |ps| && HasPrefix(ps[i], q);
        StructureIff(tree, maxDepth, ps[i]);
      }
    }
    r
  }

  /** The source's directories down to `maxDepth`, and the root. */
  function DirsDownTo(src: FS, maxDepth: int): FS {
    map q | q in src && src[q].DirItem? && (|q| == 0 || |q| <= maxDepth) :: src[q]
  }

  /** With every call succeeding, the structure is the source's directories down to
      `maxDepth`, with their modes, and the root whatever `maxDepth` is. */
  lemma StructureAllOk(sys: Sys, tree: Node, maxDepth: int)
    requires forall op, q :: sys(op, q) == Pass
    requires WellFormed(tree) && tree.Dir?
    ensures CreateDirectoryStructure(sys, tree, maxDepth) == (DirsDownTo(Flatten(tree), maxDepth), Pass)
  {
    var src := Flatten(tree);
    var ps := Structure(tree, maxDepth);
    StructurePlan(tree, maxDepth, src, ps);
    MakeDirsExact(sys, src, ps, DirsDownTo(src, maxDepth));
    assert CreateDirectoryStructure(sys, tree, maxDepth) == MakeDirs(sys, src, map[], ps);
  }

  lemma StructurePlan(tree: Node, maxDepth: int, src: FS, ps: seq<Path>)
    requires WellFormed(tree) && src == Flatten(tree) && ps == Structure(tree, maxDepth)
    ensures forall i :: 0 <= i < |ps| ==> ps[i] in src && src[ps[i]].DirItem?
    ensures ParentsReady(map[], ps)
    ensures forall q :: q in ps <==> q in DirsDownTo(src, maxDepth)
  {
    forall i | 0 <= i < |ps| ensures ps[i] in src && src[ps[i]].DirItem? {
      StructureIff(tree, maxDepth, ps[i]);
    }
    StructureOrdered(tree, maxDepth);
    forall q ensures q in ps <==> q in DirsDownTo(src, maxDepth) {
      StructureIff(tree, maxDepth, q);
    }
  }

  /** A plan of directories made in order on an empty destination, every call
      succeeding, gives exactly the directories wanted. */
  lemma MakeDirsExact(sys: Sys, src: FS, ps: seq<Path>, want: FS)
    requires forall op, q :: sys(op, q) == Pass
    requires forall i :: 0 <= i < |ps| ==> ps[i] in src && src[ps[i]].DirItem?
    requires ParentsReady(map[], ps)
    requires forall q :: q in ps <==> q in want
    requires forall q :: q in want ==> q in src && want[q] == src[q]
    ensures MakeDirs(sys, src, map[], ps) == (want, Pass)
  {
    var none: FS := map[];
    MakeDirsAllOk(sys, src, none, ps);
    var keys := none.Keys + (set p | p in ps);
    assert keys == want.Keys by {
      forall q ensures q in keys <==> q in want {
        assert q in keys <==> q in ps;
      }
    }
    MapOfKeys(src, keys, want);
  }

  lemma MapOfKeys(src: FS, keys: set<Path>, want: FS)
    requires keys == want.Keys
    requires forall q :: q in want ==> q in src && want[q] == src[q]
    ensures (map q | q in keys :: src[q]) == want
  {
    var m := map q | q in keys :: src[q];
    assert m.Keys == want.Keys;
    forall q | q in m ensures m[q] == want[q] { }
  }

  /** The error strings of `unix.Clonefile` this model distinguishes. */
  const ExistsError := "file exists"
  const NoEntryError := "no such file or directory"
  const NotDirError := "not a directory"

  /** The source entry at `p` with everything below it. */
  function Subtree(src: FS, p: Path): FS {
    map q | q in src && HasPrefix(q, p) :: src[q]
  }

  /** `unix.Clonefile(src/p, dst/p, CLONE_NOFOLLOW)`: refused when `p` exists in the
      destination or its parent is not a directory there, and otherwise as `clone`
      says; on success the whole source subtree at `p` appears. */
  function Clonefile(clone: Path -> Outcome, src: FS, fs: FS, p: Path): (r: Result<FS>)
    requires |p| >= 1
    ensures r.Ok? <==> p !in fs && Parent(p) in fs && fs[Parent(p)].DirItem? && clone(p).Pass?
    ensures r.Ok? ==> r.value == fs + Subtree(src, p)
    ensures r.Err? && p in fs ==> r.msg == ExistsError
  {
    if p in fs then Err(ExistsError)
    else if Parent(p) !in fs then Err(NoEntryError)
    else if !fs[Parent(p)].DirItem? then Err(NotDirError)
    else
      match clone(p)
      case Pass => Ok(fs + Subtree(src, p))
      case Fail(e) => Err(e)
  }

  /** The counters of an `AtomicClonePool`. */
  datatype AtomicStats = AtomicStats(processed: nat, completed: nat, failed: nat)

  const NoAtomicStats := AtomicStats(0, 0, 0)

  /** The state of a pool run: the destination, the counters, the workers still
      running and the error sitting in the one-slot error channel. */
  datatype AtomicState = AtomicState(fs: FS, stats: AtomicStats, alive: nat, sent: Option<string>)

  /** One task handed to the pool: a worker clones it; on failure the worker counts
      it as failed, offers the error and exits; on success it counts it as completed
      and processed. Once no worker is left nothing happens. */
  function AtomicStep(clone: Path -> Outcome, src: FS, s: AtomicState, p: Path): (r: AtomicState)
    requires |p| >= 1
    ensures r.stats.failed + r.alive == s.stats.failed + s.alive
    ensures r.stats.processed + s.stats.completed == s.stats.processed + r.stats.completed
    ensures r.stats.completed + r.stats.failed <= s.stats.completed + s.stats.failed + 1
    ensures s.sent.Some? ==> r.sent == s.sent
    ensures s.sent.None? ==> (r.sent.None? <==> r.alive == s.alive)
    ensures r.alive <= s.alive
    ensures s.fs.Keys <= r.fs.Keys
    ensures forall q :: q in r.fs ==> (q in s.fs && r.fs[q] == s.fs[q]) || (q in src && r.fs[q] == src[q])
  {
    if s.alive == 0 then s
    else
      match Clonefile(clone, src, s.fs, p)
      case Err(e) =>
        AtomicState(s.fs, s.stats.(failed := s.stats.failed + 1), s.alive - 1, if s.sent.None? then Some(e) else s.sent)
      case Ok(fs) =>
        AtomicState(fs, s.stats.(completed := s.stats.completed + 1, processed := s.stats.processed + 1), s.alive, s.sent)
  }

  predicate Named(ps: seq<Path>) {
    forall i :: 0 <= i < |ps| ==> |ps[i]| >= 1
  }

  /** One task per path of `ps`, in order. Every failure retires its worker, the first error
      stays in the channel, and the destination only gains copies of source
      entries. */
  function AtomicRun(clone: Path -> Outcome, src: FS, s: AtomicState, ps: seq<Path>): (r: AtomicState)
    requires Named(ps)
    ensures r.stats.failed + r.alive == s.stats.failed + s.alive
    ensures r.stats.processed + s.stats.completed == s.stats.processed + r.stats.completed
    ensures r.stats.completed + r.stats.failed <= s.stats.completed + s.stats.failed + |ps|
    ensures s.sent.Some? ==> r.sent == s.sent
    ensures s.sent.None? ==> (r.sent.None? <==> r.alive == s.alive)
    ensures r.alive <= s.alive
    ensures s.fs.Keys <= r.fs.Keys
    ensures forall q :: q in r.fs ==> (q in s.fs && r.fs[q] == s.fs[q]) || (q in src && r.fs[q] == src[q])
    decreases |ps|
  {
    if |ps| == 0 then s
    else AtomicStep(clone, src, AtomicRun(clone, src, s, ps[..|ps| - 1]), ps[|ps| - 1])
  }

  /** The destination after the first `k` clones when all of them succeed: the source
      restricted to the paths `made` beforehand and those at or below a cloned
      task. */
  function Grafted(src: FS, made: set<Path>, ts: seq<Path>, k: nat): FS
    requires k <= |ts|
  {
    map q | q in src && (q in made || exists i :: 0 <= i < k && HasPrefix(q, ts[i])) :: src[q]
  }

  /** Task `k` is in the source, is not made beforehand, lies below no earlier task,
      and has its parent made beforehand as a directory. */
  predicate GraftReady(src: FS, made: set<Path>, ts: seq<Path>, k: nat)
    requires k < |ts|
  {
    var p := ts[k];
    |p| >= 1 && p in src && p !in made
    && (forall i :: 0 <= i < k ==> !HasPrefix(p, ts[i]))
    && Parent(p) in src && Parent(p) in made && src[Parent(p)].DirItem?
  }

  lemma GraftStep(src: FS, made: set<Path>, ts: seq<Path>, k: nat)
    requires k < |ts| && |ts[k]| >= 1
    ensures Grafted(src, made, ts, k) + Subtree(src, ts[k]) == Grafted(src, made, ts, k + 1)
  {
    var a := Grafted(src, made, ts, k) + Subtree(src, ts[k]);
    var b := Grafted(src, made, ts, k + 1);
    forall q ensures q in a <==> q in b {
      if q in src && HasPrefix(q, ts[k]) {
        assert q in b;
      }
      if q in b && q !in made && q !in Subtree(src, ts[k]) {
        var i :| 0 <= i < k + 1 && HasPrefix(q, ts[i]);
        assert i < k;
      }
    }
    assert a == b;
  }

  /** With every clone succeeding and every task ready in its turn, the first `k`
      tasks build `Grafted` and no worker exits. */
  lemma {:induction false} RunGrafts(clone: Path -> Outcome, src: FS, made: set<Path>, ts: seq<Path>, s: AtomicState, k: nat)
    requires forall q :: clone(q) == Pass
    requires Named(ts) && forall i :: 0 <= i < |ts| ==> GraftReady(src, made, ts, i)
    requires s.alive >= 1 && s.fs == Grafted(src, made, ts, 0)
    requires k <= |ts|
    ensures AtomicRun(clone, src, s, ts[..k]).fs == Grafted(src, made, ts, k)
    ensures AtomicRun(clone, src, s, ts[..k]).alive == s.alive
    ensures AtomicRun(clone, src, s, ts[..k]).stats.completed == s.stats.completed + k
    decreases k
  {
    if k > 0 {
      var pre := ts[..k - 1];
      var p := ts[k - 1];
      assert ts[..k][..k - 1] == pre && ts[..k][k - 1] == p;
      RunGrafts(clone, src, made, ts, s, k - 1);
      var m := AtomicRun(clone, src, s, pre);
      assert AtomicRun(clone, src, s, ts[..k]) == AtomicStep(clone, src, m, p);
      assert GraftReady(src, made, ts, k - 1);
      assert p !in m.fs;
      GraftStep(src, made, ts, k - 1);
    }
  }

  /** Tasks that are directories at depth `n` or other entries no deeper, each once,
      are ready in every turn after the directories above depth `n` are made. */
  lemma CutReady(src: FS, n: int, ts: seq<Path>, k: nat)
    requires Closed(src) && k < |ts| && NoDuplicates(ts)
    requires forall i :: 0 <= i < |ts| ==>
      |ts[i]| >= 1 && ts[i] in src && (if src[ts[i]].DirItem? then |ts[i]| == n else |ts[i]| <= n)
    ensures GraftReady(src, (set q | q in src && src[q].DirItem? && |q| < n), ts, k)
  {
    var made := set q | q in src && src[q].DirItem? && |q| < n;
    var p := ts[k];
    forall i | 0 <= i < k ensures !HasPrefix(p, ts[i]) {
      var t := ts[i];
      assert t != p;
      if |t| < |p| && !src[t].DirItem? {
        assert src[p[..|t|]].DirItem?;
      }
    }
    assert Parent(p) == p[..|p| - 1];
  }

  const StructureError := "failed to create directory structure: "

  /** `CloneDirectoryParallelDepth` AS WRITTEN: past the APFS check, the directories
      at depth `maxDepth` are found, the directories above them are made, and each
      found directory is cloned whole by the pool. Entries that are not directories
      and sit at depth `maxDepth` or above are never copied. The error channel is
      polled before the deferred `pool.Stop` has waited for the workers, so the error
      seen is the one sent by the first `finished` tasks only. */
  function CloneDirectoryParallelDepthAsWritten(tree: Node, maxDepth: int, apfs: Result<bool>, sys: Sys,
                                                clone: Path -> Outcome, cpus: nat, finished: nat): (r: (FS, Outcome))
    requires WellFormed(tree) && cpus >= 1
    ensures apfs != Ok(true) ==> r == (map[], ApfsGate(apfs))
  {
    match ApfsGate(apfs)
    case Fail(e) => (map[], Fail(e))
    case Pass =>
      var targets := FindDirectoriesAtDepth(tree, maxDepth);
      var (skeleton, made) := CreateDirectoryStructure(sys, tree, maxDepth - 1);
      if made.Fail? then (skeleton, Fail(StructureError + made.msg))
      else
        var s := AtomicState(skeleton, NoAtomicStats, cpus, None);
        var polled := AtomicRun(clone, Flatten(tree), s, targets[..if finished < |targets| then finished else |targets|]);
        (AtomicRun(clone, Flatten(tree), s, targets).fs, if polled.sent.Some? then Fail(polled.sent.value) else Pass)
  }

  /** Work items of the corrected depth mode: the directories at depth `maxDepth` and
      every other entry at that depth or above, in walk order. */
  function DepthTasks(tree: Node, maxDepth: int): seq<Path> {
    if tree.Dir? then PruneEntries(Frontier(maxDepth), tree.entries, 1) else []
  }

  lemma DepthTasksIff(tree: Node, maxDepth: int, p: Path)
    requires WellFormed(tree)
    ensures p in DepthTasks(tree, maxDepth) <==>
      |p| >= 1 && p in Flatten(tree)
      && (if Flatten(tree)[p].DirItem? then |p| == maxDepth else |p| <= maxDepth)
    ensures NoDuplicates(DepthTasks(tree, maxDepth))
  {
    if tree.Dir? {
      PrunedIff(Frontier(maxDepth), tree, p);
      PruneEntriesNoDuplicates(Frontier(maxDepth), tree.entries, 1);
    } else {
      assert Flatten(tree).Keys == {[]};
    }
  }

  /** `CloneDirectoryParallelDepth` as its comment means it: the entries that are not
      directories down to depth `maxDepth` are cloned alongside the directories at
      that depth, and the error is read after the workers are done. */
  function CloneDirectoryParallelDepth(tree: Node, maxDepth: int, apfs: Result<bool>, sys: Sys,
                                       clone: Path -> Outcome, cpus: nat): (r: (FS, Outcome))
    requires WellFormed(tree) && cpus >= 1
    ensures apfs != Ok(true) ==> r == (map[], ApfsGate(apfs))
  {
    match ApfsGate(apfs)
    case Fail(e) => (map[], Fail(e))
    case Pass =>
      var (skeleton, made) := CreateDirectoryStructure(sys, tree, maxDepth - 1);
      if made.Fail? then (skeleton, Fail(StructureError + made.msg))
      else
        var s := AtomicRun(clone, Flatten(tree), AtomicState(skeleton, NoAtomicStats, cpus, None), DepthTasks(tree, maxDepth));
        (s.fs, if s.sent.Some? then Fail(s.sent.value) else Pass)
  }

  /** Whatever the calls do, every directory found at the target depth finds its
      parent made and its own path free once the structure is in place, so its clone
      can fail only for its own reasons. */
  lemma TargetParentsMade(sys: Sys, tree: Node, maxDepth: int, p: Path)
    requires WellFormed(tree)
    requires CreateDirectoryStructure(sys, tree, maxDepth - 1).1.Pass?
    requires p in FindDirectoriesAtDepth(tree, maxDepth)
    ensures |p| >= 1 && p !in CreateDirectoryStructure(sys, tree, maxDepth - 1).0
    ensures Parent(p) in CreateDirectoryStructure(sys, tree, maxDepth - 1).0
    ensures CreateDirectoryStructure(sys, tree, maxDepth - 1).0[Parent(p)].DirItem?
  {
    TargetNotMade(sys, tree, maxDepth, p);
    TargetParentMade(sys, tree, maxDepth, p);
  }

  lemma TargetNotMade(sys: Sys, tree: Node, maxDepth: int, p: Path)
    requires WellFormed(tree)
    requires p in FindDirectoriesAtDepth(tree, maxDepth)
    ensures |p| >= 1 && p !in CreateDirectoryStructure(sys, tree, maxDepth - 1).0
  {
    FoundIffAtDepth(tree, maxDepth, p);
  }

  lemma TargetParentMade(sys: Sys, tree: Node, maxDepth: int, p: Path)
    requires WellFormed(tree)
    requires CreateDirectoryStructure(sys, tree, maxDepth - 1).1.Pass?
    requires p in FindDirectoriesAtDepth(tree, maxDepth)
    ensures |p| >= 1 && Parent(p) in CreateDirectoryStructure(sys, tree, maxDepth - 1).0
    ensures CreateDirectoryStructure(sys, tree, maxDepth - 1).0[Parent(p)].DirItem?
  {
    FoundIffAtDepth(tree, maxDepth, p);
    var q := Parent(p);
    assert |q| == maxDepth - 1;
    FlatParentIsDir(tree, p);
    StructureIff(tree, maxDepth - 1, q);
    StructureMade(sys, tree, maxDepth - 1, q);
  }

  lemma StructureMade(sys: Sys, tree: Node, maxDepth: int, q: Path)
    requires WellFormed(tree)
    requires CreateDirectoryStructure(sys, tree, maxDepth).1.Pass?
    requires q in Structure(tree, maxDepth)
    ensures q in CreateDirectoryStructure(sys, tree, maxDepth).0
    ensures CreateDirectoryStructure(sys, tree, maxDepth).0[q].DirItem?
  {
  }

  /** The directories made before the pool starts, for a cut at depth `n`. */
  function MadeAbove(src: FS, n: int): set<Path> {
    set q | q in src && src[q].DirItem? && |q| < n
  }

  /** Tasks that are directories at depth `n` or other entries no deeper, each once. */
  predicate CutShaped(src: FS, n: int, ts: seq<Path>) {
    NoDuplicates(ts)
    && forall i :: 0 <= i < |ts| ==>
      |ts[i]| >= 1 && ts[i] in src && (if src[ts[i]].DirItem? then |ts[i]| == n else |ts[i]| <= n)
  }

  lemma SkeletonIsGrafted(src: FS, n: int, ts: seq<Path>)
    requires n >= 1
    ensures DirsDownTo(src, n - 1) == Grafted(src, MadeAbove(src, n), ts, 0)
  {
  }

  lemma CutAllReady(src: FS, n: int, ts: seq<Path>)
    requires Closed(src) && CutShaped(src, n, ts)
    ensures Named(ts)
    ensures forall k :: 0 <= k < |ts| ==> GraftReady(src, MadeAbove(src, n), ts, k)
  {
    forall k | 0 <= k < |ts| ensures GraftReady(src, MadeAbove(src, n), ts, k) {
      CutReady(src, n, ts, k);
    }
  }

  /** The whole run of ready tasks with every clone succeeding. */
  lemma RunAllGrafts(clone: Path -> Outcome, src: FS, made: set<Path>, ts: seq<Path>, s: AtomicState)
    requires forall q :: clone(q) == Pass
    requires Named(ts) && forall i :: 0 <= i < |ts| ==> GraftReady(src, made, ts, i)
    requires s.alive >= 1 && s.fs == Grafted(src, made, ts, 0)
    ensures AtomicRun(clone, src, s, ts).fs == Grafted(src, made, ts, |ts|)
    ensures AtomicRun(clone, src, s, ts).sent == s.sent
    ensures forall k :: 0 <= k <= |ts| ==> AtomicRun(clone, src, s, ts[..k]).sent == s.sent
  {
    forall k | 0 <= k <= |ts| ensures AtomicRun(clone, src, s, ts[..k]).sent == s.sent {
      RunGrafts(clone, src, made, ts, s, k);
    }
    assert ts[..|ts|] == ts;
    RunGrafts(clone, src, made, ts, s, |ts|);
  }

  lemma DepthTasksShape(tree: Node, n: int, src: FS, ts: seq<Path>)
    requires WellFormed(tree) && src == Flatten(tree) && ts == DepthTasks(tree, n)
    ensures CutShaped(src, n, ts)
  {
    forall i | 0 <= i < |ts|
      ensures |ts[i]| >= 1 && ts[i] in src && (if src[ts[i]].DirItem? then |ts[i]| == n else |ts[i]| <= n)
    {
      DepthTasksIff(tree, n, ts[i]);
    }
    DepthTasksIff(tree, n, []);
  }

  lemma FoundShape(tree: Node, n: int, src: FS, ts: seq<Path>)
    requires WellFormed(tree) && src == Flatten(tree) && ts == FindDirectoriesAtDepth(tree, n)
    ensures CutShaped(src, n, ts)
    ensures forall p :: p in ts <==> p in src && src[p].DirItem? && |p| == n && n >= 1
  {
    forall p ensures p in ts <==> p in src && src[p].DirItem? && |p| == n && n >= 1 {
      FoundIffAtDepth(tree, n, p);
    }
    FoundIffAtDepth(tree, n, []);
  }

  /** With every call succeeding, the corrected depth mode reproduces the source
      exactly, modes included, and reports success. */
  lemma DepthAllOk(tree: Node, maxDepth: int, sys: Sys, clone: Path -> Outcome, cpus: nat)
    requires forall op, q :: sys(op, q) == Pass
    requires forall q :: clone(q) == Pass
    requires WellFormed(tree) && tree.Dir? && maxDepth >= 1 && cpus >= 1
    ensures CloneDirectoryParallelDepth(tree, maxDepth, Ok(true), sys, clone, cpus) == (Flatten(tree), Pass)
  {
    var src := Flatten(tree);
    var ts := DepthTasks(tree, maxDepth);
    var made := MadeAbove(src, maxDepth);
    StructureAllOk(sys, tree, maxDepth - 1);
    SkeletonIsGrafted(src, maxDepth, ts);
    FlattenClosed(tree);
    DepthTasksShape(tree, maxDepth, src, ts);
    CutAllReady(src, maxDepth, ts);
    var s := AtomicState(DirsDownTo(src, maxDepth - 1), NoAtomicStats, cpus, None);
    RunAllGrafts(clone, src, made, ts, s);
    DepthCovers(tree, maxDepth, src, ts);
  }

  /** Every source entry is made beforehand or lies at or below a task. */
  lemma DepthCovers(tree: Node, maxDepth: int, src: FS, ts: seq<Path>)
    requires WellFormed(tree) && tree.Dir? && maxDepth >= 1 && src == Flatten(tree)
    requires ts == DepthTasks(tree, maxDepth)
    ensures Grafted(src, MadeAbove(src, maxDepth), ts, |ts|) == src
  {
    FlattenClosed(tree);
    var made := MadeAbove(src, maxDepth);
    forall q | q in src && q !in made ensures exists i :: 0 <= i < |ts| && HasPrefix(q, ts[i]) {
      var c := if |q| <= maxDepth then q else q[..maxDepth];
      assert HasPrefix(q, c);
      assert c in src && (src[c].DirItem? ==> |c| == maxDepth) by {
        if |q| > maxDepth {
          assert src[c].DirItem?;
        }
      }
      DepthTasksIff(tree, maxDepth, c);
      var i :| 0 <= i < |ts| && ts[i] == c;
    }
  }

  /** What the version as written leaves when every call succeeds: the directories
      above the cut and everything at or below a directory at the cut. */
  predicate KeptAsWritten(src: FS, n: int, q: Path)
    requires n >= 0
  {
    q in src && (if |q| < n then src[q].DirItem? else q[..n] in src && src[q[..n]].DirItem?)
  }

  lemma AsWrittenImage(src: FS, n: int, ts: seq<Path>)
    requires Closed(src) && n >= 1
    requires forall p :: p in ts <==> p in src && src[p].DirItem? && |p| == n
    ensures forall q :: q in Grafted(src, MadeAbove(src, n), ts, |ts|) <==> KeptAsWritten(src, n, q)
  {
    var r := Grafted(src, MadeAbove(src, n), ts, |ts|);
    forall q ensures q in r <==> KeptAsWritten(src, n, q) {
      if q in src && |q| >= n && q[..n] in src && src[q[..n]].DirItem? {
        var i :| 0 <= i < |ts| && ts[i] == q[..n];
        assert HasPrefix(q, ts[i]);
      }
      if q in r && q !in MadeAbove(src, n) {
        var i :| 0 <= i < |ts| && HasPrefix(q, ts[i]);
        assert q[..n] == ts[i];
      }
    }
  }

  /** With every call succeeding, the depth mode as written reports success and
      leaves the source's directories above the cut and everything at or below a
      directory at the cut, and nothing else: every entry that is not a directory
      and sits at depth `maxDepth` or above is missing. */
  lemma DepthAsWrittenAllOk(tree: Node, maxDepth: int, sys: Sys, clone: Path -> Outcome, cpus: nat, finished: nat)
    requires forall op, q :: sys(op, q) == Pass
    requires forall q :: clone(q) == Pass
    requires WellFormed(tree) && tree.Dir? && maxDepth >= 1 && cpus >= 1
    ensures var r := CloneDirectoryParallelDepthAsWritten(tree, maxDepth, Ok(true), sys, clone, cpus, finished);
      r.1 == Pass
      && (forall q :: q in r.0 <==> KeptAsWritten(Flatten(tree), maxDepth, q))
      && (forall q :: q in r.0 ==> r.0[q] == Flatten(tree)[q])
      && (forall q :: q in Flatten(tree) && !Flatten(tree)[q].DirItem? && |q| <= maxDepth ==> q !in r.0)
  {
    var src := Flatten(tree);
    var ts := FindDirectoriesAtDepth(tree, maxDepth);
    AsWrittenRun(tree, maxDepth, sys, clone, cpus, finished, src, ts);
    FlattenClosed(tree);
    FoundShape(tree, maxDepth, src, ts);
    AsWrittenKept(src, maxDepth, ts);
  }

  lemma AsWrittenKept(src: FS, n: int, ts: seq<Path>)
    requires Closed(src) && n >= 1
    requires forall p :: p in ts <==> p in src && src[p].DirItem? && |p| == n
    ensures var g := Grafted(src, MadeAbove(src, n), ts, |ts|);
      (forall q :: q in g <==> KeptAsWritten(src, n, q))
      && (forall q :: q in g ==> g[q] == src[q])
      && (forall q :: q in src && !src[q].DirItem? && |q| <= n ==> q !in g)
  {
    AsWrittenImage(src, n, ts);
    forall q | q in src && !src[q].DirItem? && |q| <= n ensures !KeptAsWritten(src, n, q) {
      if |q| == n {
        assert q[..n] == q;
      }
    }
  }

  lemma AsWrittenRun(tree: Node, maxDepth: int, sys: Sys, clone: Path -> Outcome, cpus: nat, finished: nat,
                     src: FS, ts: seq<Path>)
    requires forall op, q :: sys(op, q) == Pass
    requires forall q :: clone(q) == Pass
    requires WellFormed(tree) && tree.Dir? && maxDepth >= 1 && cpus >= 1
    requires src == Flatten(tree) && ts == FindDirectoriesAtDepth(tree, maxDepth)
    ensures CloneDirectoryParallelDepthAsWritten(tree, maxDepth, Ok(true), sys, clone, cpus, finished)
         == (Grafted(src, MadeAbove(src, maxDepth), ts, |ts|), Pass)
  {
    StructureAllOk(sys, tree, maxDepth - 1);
    FlattenClosed(tree);
    FoundShape(tree, maxDepth, src, ts);
    var s := AtomicState(DirsDownTo(src, maxDepth - 1), NoAtomicStats, cpus, None);
    CutGrafts(clone, src, maxDepth, ts, s);
    var k := if finished < |ts| then finished else |ts|;
    assert AtomicRun(clone, src, s, ts[..k]).sent == None;
    AsWrittenUnfold(tree, maxDepth, sys, clone, cpus, finished, s);
  }

  /** The version as written once the structure is made: the run's tree, and the
      error seen by the early poll. */
  lemma AsWrittenUnfold(tree: Node, maxDepth: int, sys: Sys, clone: Path -> Outcome, cpus: nat, finished: nat,
                        s: AtomicState)
    requires WellFormed(tree) && cpus >= 1
    requires CreateDirectoryStructure(sys, tree, maxDepth - 1).1.Pass?
    requires s == AtomicState(CreateDirectoryStructure(sys, tree, maxDepth - 1).0, NoAtomicStats, cpus, None)
    ensures var ts := FindDirectoriesAtDepth(tree, maxDepth);
      var polled := AtomicRun(clone, Flatten(tree), s, ts[..if finished < |ts| then finished else |ts|]);
      CloneDirectoryParallelDepthAsWritten(tree, maxDepth, Ok(true), sys, clone, cpus, finished)
      == (AtomicRun(clone, Flatten(tree), s, ts).fs, if polled.sent.Some? then Fail(polled.sent.value) else Pass)
  {
  }

  /** With every clone succeeding, the pool grafts every cut directory onto the
      skeleton and no task fails. */
  lemma CutGrafts(clone: Path -> Outcome, src: FS, n: int, ts: seq<Path>, s: AtomicState)
    requires forall q :: clone(q) == Pass
    requires Closed(src) && CutShaped(src, n, ts) && n >= 1
    requires s.alive >= 1 && s.sent.None? && s.fs == DirsDownTo(src, n - 1)
    ensures AtomicRun(clone, src, s, ts).fs == Grafted(src, MadeAbove(src, n), ts, |ts|)
    ensures forall k :: 0 <= k <= |ts| ==> AtomicRun(clone, src, s, ts[..k]).sent.None?
  {
    SkeletonIsGrafted(src, n, ts);
    CutAllReady(src, n, ts);
    RunAllGrafts(clone, src, MadeAbove(src, n), ts, s);
  }

  /** A file at the top of the source, cloned at depth 1 with every call succeeding:
      the version as written reports success without it, the corrected one copies
      it. */
  lemma RootFileLost(sys: Sys, clone: Path -> Outcome)
    requires forall op, q :: sys(op, q) == Pass
    requires forall q :: clone(q) == Pass
    ensures var tree := Dir(DefaultDirMode, [Entry("README.md", File(0x1A4, []))]);
      var asWritten := CloneDirectoryParallelDepthAsWritten(tree, 1, Ok(true), sys, clone, 1, 1);
      asWritten.1 == Pass && ["README.md"] !in asWritten.0
      && CloneDirectoryParallelDepth(tree, 1, Ok(true), sys, clone, 1) == (Flatten(tree), Pass)
      && ["README.md"] in Flatten(tree)
  {
    var tree := Dir(DefaultDirMode, [Entry("README.md", File(0x1A4, []))]);
    assert WellFormed(tree) by {
      assert WellFormed(File(0x1A4, []));
      assert ValidName("README.md");
    }
    var p: Path := ["README.md"];
    assert Lookup(tree, p) == Some(File(0x1A4, [])) by {
      assert FindEntry(tree.entries, "README.md") == Some(File(0x1A4, []));
      assert Lookup(File(0x1A4, []), p[1..]) == Some(File(0x1A4, []));
    }
    FlattenIsLookup(tree, p);
    DepthAsWrittenAllOk(tree, 1, sys, clone, 1, 1);
    DepthAllOk(tree, 1, sys, clone, 1);
  }

  /** Polled before any task has ended, the version as written reports success
      whenever the structure is made, whatever the clones do. */
  lemma EarlyPollPasses(tree: Node, maxDepth: int, sys: Sys, clone: Path -> Outcome, cpus: nat)
    requires forall op, q :: sys(op, q) == Pass
    requires WellFormed(tree) && tree.Dir? && cpus >= 1
    ensures CloneDirectoryParallelDepthAsWritten(tree, maxDepth, Ok(true), sys, clone, cpus, 0).1 == Pass
  {
    StructureAllOk(sys, tree, maxDepth - 1);
    var ts := FindDirectoriesAtDepth(tree, maxDepth);
    assert ts[..0] == [];
  }

  /** The corrected depth mode reports a failed clone, whichever task it was. */
  lemma DepthReportsFailure(tree: Node, maxDepth: int, sys: Sys, clone: Path -> Outcome, cpus: nat, p: Path)
    requires forall op, q :: sys(op, q) == Pass
    requires WellFormed(tree) && tree.Dir? && cpus >= 1
    requires p in DepthTasks(tree, maxDepth) && clone(p).Fail?
    ensures CloneDirectoryParallelDepth(tree, maxDepth, Ok(true), sys, clone, cpus).1.Fail?
  {
    StructureAllOk(sys, tree, maxDepth - 1);
    var s := AtomicState(DirsDownTo(Flatten(tree), maxDepth - 1), NoAtomicStats, cpus, None);
    RunRecordsFailure(clone, Flatten(tree), s, DepthTasks(tree, maxDepth), p);
  }

  /** A run that reaches a task the clone oracle refuses counts a failure. */
  lemma {:induction false} RunRecordsFailure(clone: Path -> Outcome, src: FS, s: AtomicState, ps: seq<Path>, p: Path)
    requires Named(ps) && s.alive >= 1 && s.stats.failed == 0
    requires p in ps && clone(p).Fail?
    ensures AtomicRun(clone, src, s, ps).stats.failed >= 1
    decreases |ps|
  {
    var pre := ps[..|ps| - 1];
    if p in pre {
      RunRecordsFailure(clone, src, s, pre, p);
    }
  }

  /** The error the poll misses in depth mode: a single directory at depth 1 whose
      clone fails, polled before its task ends, comes back as a success from the
      version as written and as a failure from the corrected one. */
  lemma DepthRaceMissesError(sys: Sys, clone: Path -> Outcome)
    requires forall op, q :: sys(op, q) == Pass
    requires forall q :: clone(q) == Fail("clone failed")
    ensures var tree := Dir(DefaultDirMode, [Entry("a", Dir(DefaultDirMode, []))]);
      CloneDirectoryParallelDepthAsWritten(tree, 1, Ok(true), sys, clone, 1, 0).1 == Pass
      && CloneDirectoryParallelDepth(tree, 1, Ok(true), sys, clone, 1).1.Fail?
  {
    var tree := Dir(DefaultDirMode, [Entry("a", Dir(DefaultDirMode, []))]);
    assert WellFormed(tree) by {
      assert WellFormed(Dir(DefaultDirMode, []));
      assert ValidName("a");
    }
    var p: Path := ["a"];
    assert Lookup(tree, p) == Some(Dir(DefaultDirMode, [])) by {
      assert FindEntry(tree.entries, "a") == Some(Dir(DefaultDirMode, []));
      assert Lookup(Dir(DefaultDirMode, []), p[1..]) == Some(Dir(DefaultDirMode, []));
    }
    FlattenIsLookup(tree, p);
    DepthTasksIff(tree, 1, p);
    EarlyPollPasses(tree, 1, sys, clone, 1);
    DepthReportsFailure(tree, 1, sys, clone, 1, p);
  }
}

=== FILE: filetree.dfy ===
/** The file trees the clone engine copies and the destination states it produces.

    A source tree is a `Node`; a directory lists its entries in the order
    `filepath.Walk` visits them. Walk sorts them by name; `WellFormed` does not
    require that order and nothing here depends on it. A path is the sequence of entry
    names below the root, so the root is `[]` and `filepath.Rel(root, p)` is the
    names joined with `/`. A destination is a map from such paths to the items found
    there. */
module FileTree {
  import opened Wrappers
  import opened Seqs
  import opened Utf8

  type Name = string
  type Path = seq<Name>

  /** Permission bits of `os.FileMode`, carried through unchanged. */
  type Mode = nat

  /** `0755`, the mode `os.MkdirAll` is given for parents and for the fallback's root. */
  const DefaultDirMode: Mode := 0x1ED

  datatype Node =
    | Dir(mode: Mode, entries: seq<Entry>)
    | File(mode: Mode, data: seq<byte>)
    | Symlink(target: string)
    | Other(mode: Mode)

  datatype Entry = Entry(name: Name, node: Node)

  /** What a destination holds at one path. */
  datatype Item =
    | DirItem(mode: Mode)
    | FileItem(mode: Mode, data: seq<byte>)
    | LinkItem(target: string)
    | OtherItem(mode: Mode)

  type FS = map<Path, Item>

  function ItemOf(n: Node): Item {
    match n
    case Dir(m, _) => DirItem(m)
    case File(m, d) => FileItem(m, d)
    case Symlink(t) => LinkItem(t)
    case Other(m) => OtherItem(m)
  }

  predicate ValidName(name: Name) {
    name != "" && name != "." && name != ".." && '/' !in name
  }

  /** A directory's entries carry valid, distinct names. */
  predicate DistinctEntries(es: seq<Entry>) {
    (forall i :: 0 <= i < |es| ==> ValidName(es[i].name))
    && (forall i, j :: 0 <= i < j < |es| ==> es[i].name != es[j].name)
  }

  /** A tree whose directories all hold distinct, valid names. */
  predicate WellFormed(n: Node)
    decreases n
  {
    n.Dir? ==> WellFormedEntries(n.entries)
  }

  predicate WellFormedEntries(es: seq<Entry>)
    decreases es
  {
    DistinctEntries(es) && forall i :: 0 <= i < |es| ==> WellFormed(es[i].node)
  }

  /** `names` put in front of every path of `ps`. */
  function Under(name: Name, ps: seq<Path>): (r: seq<Path>)
    ensures |r| == |ps|
    ensures forall i :: 0 <= i < |r| ==> r[i] == [name] + ps[i]
  {
    if |ps| == 0 then [] else [[name] + ps[0]] + Under(name, ps[1..])
  }

  /** The paths `filepath.Walk` visits: the node itself, then each entry's subtree in
      entry order. */
  function Walk(n: Node): (ps: seq<Path>)
    ensures |ps| >= 1 && ps[0] == []
    decreases n
  {
    [[]] + (if n.Dir? then WalkEntries(n.entries) else [])
  }

  function WalkEntries(es: seq<Entry>): (ps: seq<Path>)
    ensures forall i :: 0 <= i < |ps| ==> |ps[i]| >= 1
    decreases es
  {
    if |es| == 0 then []
    else Under(es[0].name, Walk(es[0].node)) + WalkEntries(es[1..])
  }

  /** The entry called `name`, if any. */
  function FindEntry(es: seq<Entry>, name: Name): (r: Option<Node>)
    ensures r.Some? <==> exists i :: 0 <= i < |es| && es[i].name == name
    ensures r.Some? ==> exists i :: 0 <= i < |es| && es[i].name == name && es[i].node == r.value
  {
    if |es| == 0 then None
    else if es[0].name == name then Some(es[0].node)
    else
      var r := FindEntry(es[1..], name);
      assert forall i :: 1 <= i < |es| ==> es[i] == es[1..][i - 1];
      r
  }

  /** The node a path leads to. */
  function Lookup(n: Node, p: Path): Option<Node>
    decreases |p|
  {
    if |p| == 0 then Some(n)
    else if !n.Dir? then None
    else
      match FindEntry(n.entries, p[0])
      case None => None
      case Some(c) => Lookup(c, p[1..])
  }

  /** Every item of the tree, keyed by its path. */
  function Flatten(n: Node): (fs: FS)
    ensures [] in fs && fs[[]] == ItemOf(n)
    decreases n
  {
    (if n.Dir? then FlattenEntries(n.entries) else map[])[[] := ItemOf(n)]
  }

  function FlattenEntries(es: seq<Entry>): (fs: FS)
    ensures forall p :: p in fs ==> |p| >= 1
    decreases es
  {
    if |es| == 0 then map[]
    else Prefix(es[0].name, Flatten(es[0].node)) + FlattenEntries(es[1..])
  }

  /** A destination moved below the entry `name`. */
  function Prefix(name: Name, fs: FS): (r: FS)
    ensures forall p :: p in fs ==> [name] + p in r && r[[name] + p] == fs[p]
    ensures forall q :: q in r ==> |q| >= 1 && q[0] == name && q[1..] in fs && r[q] == fs[q[1..]]
  {
    var keys := set p | p in fs :: [name] + p;
    assert forall q :: q in keys ==> |q| >= 1 && q[1..] in fs by {
      forall q | q in keys ensures |q| >= 1 && q[1..] in fs {
        var p :| p in fs && q == [name] + p;
        assert q[1..] == p;
      }
    }
    var r := map q | q in keys :: fs[q[1..]];
    forall p | p in fs ensures [name] + p in r && r[[name] + p] == fs[p] {
      assert ([name] + p)[1..] == p;
    }
    r
  }

  /** Walking the tree visits exactly the paths that lead somewhere. */
  lemma {:induction false} WalkIsLookup(n: Node, p: Path)
    requires WellFormed(n)
    ensures p in Walk(n) <==> Lookup(n, p).Some?
    decreases n
  {
    if |p| > 0 && n.Dir? {
      WalkEntriesIsLookup(n.entries, p);
    }
  }

  lemma {:induction false} WalkEntriesIsLookup(es: seq<Entry>, p: Path)
    requires WellFormedEntries(es) && |p| >= 1
    ensures p in WalkEntries(es) <==> (match FindEntry(es, p[0])
                                       case None => false
                                       case Some(c) => Lookup(c, p[1..]).Some?)
    decreases es
  {
    if |es| > 0 {
      var e := es[0];
      EntriesTail(es);
      WalkEntriesIsLookup(es[1..], p);
      UnderMember(e.name, Walk(e.node), p);
      if p[0] == e.name {
        WalkIsLookup(e.node, p[1..]);
      }
    }
  }

  /** Flattening keeps, at every path that leads somewhere, the item found there. */
  lemma {:induction false} FlattenIsLookup(n: Node, p: Path)
    requires WellFormed(n)
    ensures p in Flatten(n) <==> Lookup(n, p).Some?
    ensures p in Flatten(n) ==> Flatten(n)[p] == ItemOf(Lookup(n, p).value)
    decreases n
  {
    if |p| > 0 && n.Dir? {
      FlattenEntriesIsLookup(n.entries, p);
    }
  }

  lemma {:induction false} FlattenEntriesIsLookup(es: seq<Entry>, p: Path)
    requires WellFormedEntries(es) && |p| >= 1
    ensures p in FlattenEntries(es) <==> (FindEntry(es, p[0]).Some? && Lookup(FindEntry(es, p[0]).value, p[1..]).Some?)
    ensures p in FlattenEntries(es) ==> FlattenEntries(es)[p] == ItemOf(Lookup(FindEntry(es, p[0]).value, p[1..]).value)
    decreases es
  {
    if |es| > 0 {
      var e := es[0];
      EntriesTail(es);
      FlattenEntriesIsLookup(es[1..], p);
      PrefixMember(e.name, Flatten(e.node), p);
      if p[0] == e.name {
        FlattenIsLookup(e.node, p[1..]);
      }
    }
  }

  /** A path is a key of the moved destination exactly when it starts with `name`
      and its rest is a key of the original. */
  lemma PrefixMember(name: Name, fs: FS, p: Path)
    requires |p| >= 1
    ensures p in Prefix(name, fs) <==> p[0] == name && p[1..] in fs
    ensures p in Prefix(name, fs) ==> Prefix(name, fs)[p] == fs[p[1..]]
  {
    if p[0] == name {
      assert p == [name] + p[1..];
    }
  }

  /** A path is under `name` exactly when it starts with `name` and its rest is one
      of `ps`. */
  lemma UnderMember(name: Name, ps: seq<Path>, p: Path)
    requires |p| >= 1
    ensures p in Under(name, ps) <==> p[0] == name && p[1..] in ps
  {
    var r := Under(name, ps);
    if p in r {
      var k :| 0 <= k < |r| && r[k] == p;
      assert p[1..] == ps[k];
    }
    if p[0] == name && p[1..] in ps {
      var k :| 0 <= k < |ps| && ps[k] == p[1..];
      assert r[k] == p;
    }
  }

  /** The entries after the first are well formed and do not repeat its name. */
  lemma EntriesTail(es: seq<Entry>)
    requires WellFormedEntries(es) && |es| > 0
    ensures WellFormedEntries(es[1..]) && FindEntry(es[1..], es[0].name).None?
  {
    var rest := es[1..];
    assert forall i :: 0 <= i < |rest| ==> rest[i] == es[i + 1];
  }

  predicate NoDuplicates<T(==)>(s: seq<T>) {
    forall i, j :: 0 <= i < j < |s| ==> s[i] != s[j]
  }

  lemma UnderNoDuplicates(name: Name, ps: seq<Path>)
    requires NoDuplicates(ps)
    ensures NoDuplicates(Under(name, ps))
  {
    var r := Under(name, ps);
    forall i, j | 0 <= i < j < |r| ensures r[i] != r[j] {
      assert r[i][1..] == ps[i] && r[j][1..] == ps[j];
    }
  }

  lemma {:induction false} WalkEntriesHeads(es: seq<Entry>, q: Path)
    requires q in WalkEntries(es)
    ensures exists i :: 0 <= i < |es| && es[i].name == q[0]
    decreases es
  {
    var head := Under(es[0].name, Walk(es[0].node));
    if q !in head {
      WalkEntriesHeads(es[1..], q);
      var i :| 0 <= i < |es[1..]| && es[1..][i].name == q[0];
      assert es[i + 1].name == q[0];
    }
  }

  /** `filepath.Walk` visits no path twice. */
  lemma {:induction false} WalkNoDuplicates(n: Node)
    requires WellFormed(n)
    ensures NoDuplicates(Walk(n))
    decreases n
  {
    if n.Dir? {
      WalkEntriesNoDuplicates(n.entries);
    }
  }

  lemma {:induction false} WalkEntriesNoDuplicates(es: seq<Entry>)
    requires WellFormedEntries(es)
    ensures NoDuplicates(WalkEntries(es))
    decreases es
  {
    if |es| > 0 {
      var e := es[0];
      var rest := es[1..];
      assert WellFormedEntries(rest) by {
        assert forall i :: 0 <= i < |rest| ==> rest[i] == es[i + 1];
      }
      WalkNoDuplicates(e.node);
      WalkEntriesNoDuplicates(rest);
      var a := Under(e.name, Walk(e.node));
      var b := WalkEntries(rest);
      UnderNoDuplicates(e.name, Walk(e.node));
      forall q | q in b ensures q !in a {
        WalkEntriesHeads(rest, q);
        var i :| 0 <= i < |rest| && rest[i].name == q[0];
        assert rest[i] == es[i + 1];
      }
      forall i, j | 0 <= i < j < |a + b| ensures (a + b)[i] != (a + b)[j] {
        if i < |a| && j >= |a| {
          assert (a + b)[j] in b;
        }
      }
    }
  }

  /** `filepath.Dir` on a relative path of at least one name. */
  function Parent(p: Path): Path
    requires |p| >= 1
  {
    p[..|p| - 1]
  }

  /** Every path of two or more names comes after its parent. */
  predicate ParentsEarlier(ps: seq<Path>) {
    forall k :: 0 <= k < |ps| && |ps[k]| >= 2 ==> exists j :: 0 <= j < k && ps[j] == Parent(ps[k])
  }

  lemma UnderParentsEarlier(name: Name, ps: seq<Path>)
    requires |ps| >= 1 && ps[0] == [] && ParentsEarlier(ps)
    ensures ParentsEarlier(Under(name, ps))
  {
    var r := Under(name, ps);
    forall k | 0 <= k < |r| && |r[k]| >= 2 ensures exists j :: 0 <= j < k && r[j] == Parent(r[k]) {
      var q := ps[k];
      assert r[k] == [name] + q;
      if |q| == 1 {
        assert r[0] == [name];
        assert Parent(r[k]) == [name];
      } else {
        var j :| 0 <= j < k && ps[j] == Parent(q);
        assert r[j] == [name] + Parent(q);
        assert Parent(r[k]) == [name] + Parent(q);
      }
    }
  }

  lemma AppendParentsEarlier(a: seq<Path>, b: seq<Path>)
    requires ParentsEarlier(a) && ParentsEarlier(b)
    ensures ParentsEarlier(a + b)
  {
    var r := a + b;
    forall k | 0 <= k < |r| && |r[k]| >= 2 ensures exists j :: 0 <= j < k && r[j] == Parent(r[k]) {
      if k < |a| {
        var j :| 0 <= j < k && a[j] == Parent(a[k]);
        assert r[j] == a[j];
      } else {
        var j :| 0 <= j < k - |a| && b[j] == Parent(b[k - |a|]);
        assert r[j + |a|] == b[j];
      }
    }
  }

  /** `filepath.Walk` visits a directory before anything inside it. */
  lemma {:induction false} WalkParentsEarlier(n: Node)
    ensures ParentsEarlier(Walk(n))
    decreases n
  {
    if n.Dir? {
      WalkEntriesParentsEarlier(n.entries);
      AppendParentsEarlier([[]], WalkEntries(n.entries));
    }
  }

  lemma {:induction false} WalkEntriesParentsEarlier(es: seq<Entry>)
    ensures ParentsEarlier(WalkEntries(es))
    decreases es
  {
    if |es| > 0 {
      WalkParentsEarlier(es[0].node);
      UnderParentsEarlier(es[0].name, Walk(es[0].node));
      WalkEntriesParentsEarlier(es[1..]);
      AppendParentsEarlier(Under(es[0].name, Walk(es[0].node)), WalkEntries(es[1..]));
    }
  }

  /** Whatever a path leads to sits in a directory. */
  lemma {:induction false} LookupParentIsDir(n: Node, p: Path)
    requires |p| >= 1 && Lookup(n, p).Some?
    ensures Lookup(n, Parent(p)).Some? && Lookup(n, Parent(p)).value.Dir?
    decreases |p|
  {
    var c := FindEntry(n.entries, p[0]).value;
    if |p| >= 2 {
      LookupParentIsDir(c, p[1..]);
      assert Parent(p)[1..] == Parent(p[1..]);
    }
  }

  /** In the flattened tree, the parent of every non-root path is a directory. */
  lemma FlatParentIsDir(n: Node, p: Path)
    requires WellFormed(n) && |p| >= 1 && p in Flatten(n)
    ensures Parent(p) in Flatten(n) && Flatten(n)[Parent(p)].DirItem?
  {
    FlattenIsLookup(n, p);
    LookupParentIsDir(n, p);
    FlattenIsLookup(n, Parent(p));
  }

  /** Every walked path is a key of the flattened tree, whatever the names. */
  lemma {:induction false} WalkInFlatten(n: Node, p: Path)
    requires p in Walk(n)
    ensures p in Flatten(n)
    decreases n
  {
    if p != [] {
      WalkEntriesInFlatten(n.entries, p);
    }
  }

  lemma {:induction false} WalkEntriesInFlatten(es: seq<Entry>, p: Path)
    requires p in WalkEntries(es)
    ensures p in FlattenEntries(es)
    decreases es
  {
    var head := Under(es[0].name, Walk(es[0].node));
    if p in head {
      var i :| 0 <= i < |head| && head[i] == p;
      WalkInFlatten(es[0].node, Walk(es[0].node)[i]);
    } else {
      WalkEntriesInFlatten(es[1..], p);
    }
  }

  /** Every proper prefix of a path that leads somewhere leads to a directory. */
  lemma {:induction false} AncestorIsDir(n: Node, p: Path, i: nat)
    requires Lookup(n, p).Some? && i < |p|
    ensures Lookup(n, p[..i]).Some? && Lookup(n, p[..i]).value.Dir?
    decreases |p|
  {
    LookupParentIsDir(n, p);
    if i < |p| - 1 {
      AncestorIsDir(n, Parent(p), i);
      assert Parent(p)[..i] == p[..i];
    }
  }
}

=== FILE: gitignore.dfy ===
/** The simplified `.gitignore` matcher of the path rewriter
    (pkg/cowgit/pathrewrite.go): a list of patterns read line by line, and a match
    test that knows directory patterns, a few wildcard shapes and literal paths. */
module GitIgnore {
  import opened Wrappers
  import opened Seqs
  import opened Strings

  datatype GitIgnore = GitIgnore(patterns: seq<string>)

  /** A trimmed line becomes a pattern unless it is blank or a comment. */
  predicate IsPatternLine(line: string) {
    line != "" && !HasPrefix(line, "#")
  }

  /** What `parseGitignore` collects from the scanned lines: each line trimmed,
      blank lines and comments dropped, order kept. */
  function PatternsOf(lines: seq<string>): (ps: seq<string>)
    ensures |ps| <= |lines|
    ensures forall i :: 0 <= i < |ps| ==> IsPatternLine(ps[i]) && TrimSpace(ps[i]) == ps[i]
    decreases |lines|
  {
    if |lines| == 0 then []
    else
      var line := TrimSpace(lines[0]);
      TrimSpaceIdempotent(lines[0]);
      if IsPatternLine(line) then [line] + PatternsOf(lines[1..]) else PatternsOf(lines[1..])
  }

  /** `parseGitignore`: `None` stands for a `.gitignore` that cannot be opened, which
      gives a matcher with no patterns. */
  function ParseGitignore(content: Option<string>): (g: GitIgnore)
    ensures content.None? ==> g.patterns == []
    ensures forall i :: 0 <= i < |g.patterns| ==> IsPatternLine(g.patterns[i])
    ensures forall i :: 0 <= i < |g.patterns| ==> TrimSpace(g.patterns[i]) == g.patterns[i]
  {
    match content
    case None => GitIgnore([])
    case Some(text) => GitIgnore(PatternsOf(ScanLines(text)))
  }

  lemma {:induction false} PatternsOfAppend(a: seq<string>, b: seq<string>)
    ensures PatternsOf(a + b) == PatternsOf(a) + PatternsOf(b)
    decreases |a|
  {
    if |a| > 0 {
      var ab := a + b;
      assert ab[0] == a[0];
      assert ab[1..] == a[1..] + b;
      PatternsOfAppend(a[1..], b);
      var line := TrimSpace(a[0]);
      if IsPatternLine(line) {
        assert PatternsOf(ab) == [line] + PatternsOf(a[1..] + b);
        assert PatternsOf(a) == [line] + PatternsOf(a[1..]);
      } else {
        assert PatternsOf(ab) == PatternsOf(a[1..] + b);
        assert PatternsOf(a) == PatternsOf(a[1..]);
      }
    } else {
      assert a + b == b;
    }
  }

  /** Lines that are already patterns are kept as they are. */
  lemma {:induction false} PatternsOfPatterns(lines: seq<string>)
    requires forall i :: 0 <= i < |lines| ==> IsPatternLine(lines[i]) && TrimSpace(lines[i]) == lines[i]
    ensures PatternsOf(lines) == lines
    decreases |lines|
  {
    if |lines| > 0 {
      PatternsOfPatterns(lines[1..]);
      assert lines == [lines[0]] + lines[1..];
    }
  }

  /** A trimmed line cannot end with a carriage return, which is white space. */
  lemma TrimmedHasNoCR(line: string)
    requires TrimSpace(line) == line
    ensures DropCR(line) == line
  {
  }

  /** Writing patterns one per line and parsing the file gives the patterns back. */
  lemma ParseTerminated(ps: seq<string>)
    requires forall i :: 0 <= i < |ps| ==> IsPatternLine(ps[i]) && TrimSpace(ps[i]) == ps[i]
    requires forall i :: 0 <= i < |ps| ==> '\n' !in ps[i]
    ensures ParseGitignore(Some(Terminated(ps))).patterns == ps
  {
    forall i | 0 <= i < |ps| ensures DropCR(ps[i]) == ps[i] {
      TrimmedHasNoCR(ps[i]);
    }
    ScanTerminated(ps);
    PatternsOfPatterns(ps);
  }

  /** Blank lines and comments between patterns change nothing. */
  lemma SkippedLines(a: seq<string>, line: string, b: seq<string>)
    requires !IsPatternLine(TrimSpace(line))
    ensures PatternsOf(a + [line] + b) == PatternsOf(a) + PatternsOf(b)
  {
    var one := [line];
    assert one[0] == line && one[1..] == [];
    assert PatternsOf(one) == [];
    PatternsOfAppend(a + one, b);
    PatternsOfAppend(a, one);
    assert PatternsOf(a + one) == PatternsOf(a);
  }

  /** `matchWildcard`, for patterns holding a `*`. */
  function MatchWildcard(pattern: string, path: string): bool {
    if pattern == "*" then true
    else if HasPrefix(pattern, "*.") then HasSuffix(path, pattern[1..])
    else if HasSuffix(pattern, "*") then HasPrefix(path, pattern[..|pattern| - 1])
    else
      var parts := Split(pattern, '*');
      if |parts| == 2 then HasPrefix(path, parts[0]) && HasSuffix(path, parts[1])
      else false
  }

  /** `matchPattern`: a pattern ending in `/` matches that directory and everything
      below it, a pattern holding `*` goes to `MatchWildcard`, and any other pattern
      matches itself and everything below it. */
  function MatchPattern(pattern: string, path: string): bool {
    if HasSuffix(pattern, "/") then
      var dir := TrimSuffix(pattern, "/");
      HasPrefix(path, dir + "/") || path == dir
    else if Contains(pattern, "*") then MatchWildcard(pattern, path)
    else path == pattern || HasPrefix(path, pattern + "/")
  }

  /** `GitIgnore.Match`: the first pattern that matches decides. */
  function Match(g: GitIgnore, path: string): (r: bool)
    ensures r <==> exists i | 0 <= i < |g.patterns| :: MatchPattern(g.patterns[i], path)
    decreases |g.patterns|
  {
    if |g.patterns| == 0 then false
    else if MatchPattern(g.patterns[0], path) then true
    else
      var rest := GitIgnore(g.patterns[1..]);
      assert forall i :: 1 <= i < |g.patterns| ==> g.patterns[i] == rest.patterns[i - 1];
      Match(rest, path)
  }

  lemma ContainsChar(s: string, c: char)
    ensures Contains(s, [c]) <==> c in s
  {
    if c in s {
      var k :| 0 <= k < |s| && s[k] == c;
      assert OccursAt(s, [c], k);
    }
    if Contains(s, [c]) {
      var k :| 0 <= k <= |s| - 1 && OccursAt(s, [c], k);
      assert s[k..k + 1][0] == s[k];
    }
  }

  /** A path is below a literal pattern exactly when the pattern's segments start the
      path's segments. */
  predicate SegmentPrefix(pattern: string, path: string) {
    var p := Split(pattern, '/');
    var q := Split(path, '/');
    |p| <= |q| && q[..|p|] == p
  }

  lemma {:induction false} JoinAppend<T>(a: seq<seq<T>>, b: seq<seq<T>>, sep: seq<T>)
    requires |a| >= 1 && |b| >= 1
    ensures Join(a + b, sep) == Join(a, sep) + sep + Join(b, sep)
    decreases |a|
  {
    if |a| == 1 {
      assert (a + b)[1..] == b;
    } else {
      JoinAppend(a[1..], b, sep);
      assert (a + b)[1..] == a[1..] + b;
    }
  }

  /** A path below a literal pattern has the pattern's segments first. */
  lemma BelowHasSegmentPrefix(pattern: string, path: string)
    requires path == pattern || HasPrefix(path, pattern + "/")
    ensures SegmentPrefix(pattern, path)
  {
    if path != pattern {
      var t := path[|pattern| + 1..];
      assert path == pattern + ['/'] + t;
      SplitAppend(pattern, '/', t);
    }
  }

  /** A path that has the pattern's segments first is the pattern or below it. */
  lemma JoinPrefix<T>(p: seq<seq<T>>, q: seq<seq<T>>, sep: seq<T>)
    requires 1 <= |p| <= |q| && q[..|p|] == p
    ensures Join(q, sep) == Join(p, sep) || HasPrefix(Join(q, sep), Join(p, sep) + sep)
  {
    var rest := q[|p|..];
    assert q == p + rest;
    if |rest| == 0 {
      assert q == p;
    } else {
      JoinAppend(p, rest, sep);
      var head := Join(p, sep) + sep;
      var tail := Join(rest, sep);
      assert Join(q, sep) == head + tail;
      assert (head + tail)[..|head|] == head;
    }
  }

  lemma SegmentPrefixIsBelow(pattern: string, path: string)
    requires SegmentPrefix(pattern, path)
    ensures path == pattern || HasPrefix(path, pattern + "/")
  {
    JoinSplit(path, '/');
    JoinSplit(pattern, '/');
    JoinPrefix(Split(pattern, '/'), Split(path, '/'), "/");
  }

  /** A literal pattern (no `*`, no trailing `/`) matches exactly the paths whose
      `/`-separated segments begin with the pattern's segments. */
  lemma LiteralMatchesSegments(pattern: string, path: string)
    requires !HasSuffix(pattern, "/") && '*' !in pattern
    ensures MatchPattern(pattern, path) <==> SegmentPrefix(pattern, path)
  {
    ContainsChar(pattern, '*');
    if MatchPattern(pattern, path) {
      BelowHasSegmentPrefix(pattern, path);
    }
    if SegmentPrefix(pattern, path) {
      SegmentPrefixIsBelow(pattern, path);
    }
  }

  /** For a literal directory, a trailing `/` makes no difference: this matcher does not
      know whether a path names a directory. */
  lemma TrailingSlashIgnored(dir: string, path: string)
    requires !HasSuffix(dir, "/") && '*' !in dir
    ensures MatchPattern(dir + "/", path) == MatchPattern(dir, path)
  {
    ContainsChar(dir, '*');
    assert (dir + "/")[..|dir|] == dir;
  }

  /** `*` matches every path. */
  lemma StarMatchesAll(path: string)
    ensures MatchPattern("*", path)
  {
    ContainsChar("*", '*');
  }

  /** `*.ext` matches exactly the paths that end in `.ext`, in any directory. */
  lemma ExtensionPattern(ext: string, path: string)
    requires !HasSuffix(ext, "/")
    ensures MatchPattern("*." + ext, path) <==> HasSuffix(path, "." + ext)
  {
    var pattern := "*." + ext;
    assert OccursAt(pattern, "*", 0);
    assert pattern[..2] == "*.";
    assert pattern[1..] == "." + ext;
    if |ext| == 0 {
      assert pattern == "*.";
    } else {
      assert pattern[|pattern| - 1..] == ext[|ext| - 1..];
    }
  }

  /** `prefix*` (not `*` itself, not `*.ext`) matches exactly the paths that start with
      `prefix`, taken literally even if it holds another `*`. */
  lemma PrefixPattern(prefix: string, path: string)
    requires prefix != "" && !HasPrefix(prefix + "*", "*.")
    ensures MatchPattern(prefix + "*", path) <==> HasPrefix(path, prefix)
  {
    var pattern := prefix + "*";
    assert OccursAt(pattern, "*", |prefix|);
    assert pattern[|pattern| - 1..] == "*";
    assert pattern[..|pattern| - 1] == prefix;
  }

  /** A pattern with one `*` strictly inside it, which is neither `*.ext` nor `prefix*`,
      matches the paths that start with the text before the star and end with the text
      after it; the two may overlap. */
  lemma InnerStarPattern(before: string, after: string, path: string)
    requires before != "" && after != ""
    requires '*' !in before && '*' !in after && !HasSuffix(after, "/")
    ensures MatchPattern(before + "*" + after, path) <==> HasPrefix(path, before) && HasSuffix(path, after)
  {
    var pattern := before + "*" + after;
    assert OccursAt(pattern, "*", |before|);
    assert pattern[..|before|] == before;
    assert pattern[|pattern| - |after|..] == after;
    assert !HasPrefix(pattern, "*.") by {
      assert pattern[0] == before[0];
    }
    assert !HasSuffix(pattern, "*") by {
      assert pattern[|pattern| - 1] == after[|after| - 1];
    }
    assert pattern == before + ['*'] + after;
    SplitAppend(before, '*', after);
    SplitNoSeparator(before, '*');
    SplitNoSeparator(after, '*');
  }

  /** The overlap the inner-star rule allows: `a*a` matches `a`. */
  lemma InnerStarOverlap()
    ensures MatchPattern("a*a", "a")
  {
    InnerStarPattern("a", "a", "a");
    assert "a" + "*" + "a" == "a*a";
  }

  /** A pattern with two or more stars that is not `*`, `*.ext` or `prefix*` matches
      nothing. */
  lemma ManyStarsMatchNothing(pattern: string, path: string)
    requires multiset(pattern)['*'] >= 2
    requires !HasSuffix(pattern, "/") && !HasPrefix(pattern, "*.") && !HasSuffix(pattern, "*")
    ensures !MatchPattern(pattern, path)
  {
    assert '*' in pattern;
    ContainsChar(pattern, '*');
  }
}

=== FILE: gitignore_examples.dfy ===
/** The `.gitignore` file and the match table of `TestGitIgnoreParsing`
    (pkg/cowgit/pathrewrite_test.go), stated about the model. */
module GitIgnoreExamples {
  import opened Wrappers
  import opened Seqs
  import opened Strings
  import opened GitIgnore

  /** The lines of the test's `.gitignore`. */
  function TestFileLines(): seq<string> {
    ["# Comments should be ignored", "node_modules/", "*.log", "build", "dist/", ".env",
     "*.tmp", "", "# More patterns", "venv/", "__pycache__/", "*.pyc"]
  }

  function TestPatterns(): seq<string> {
    ["node_modules/", "*.log", "build", "dist/", ".env", "*.tmp", "venv/", "__pycache__/", "*.pyc"]
  }

  function TestIgnore(): GitIgnore {
    GitIgnore(TestPatterns())
  }

  lemma Trimmed(line: string)
    requires |line| > 0 && !IsSpace(line[0]) && !IsSpace(line[|line| - 1])
    ensures TrimSpace(line) == line
  {
    TrimSpaceExact(line, 0, |line|);
  }

  lemma TestFileScan(ls: seq<string>)
    requires ls == TestFileLines()
    ensures ScanLines(Terminated(ls)) == ls
  {
    forall i | 0 <= i < |ls| ensures '\n' !in ls[i] && DropCR(ls[i]) == ls[i] {
    }
    ScanTerminated(ls);
  }

  lemma AllPatterns(ps: seq<string>)
    requires forall i :: 0 <= i < |ps| ==> |ps[i]| > 0 && ps[i][0] != '#'
    requires forall i :: 0 <= i < |ps| ==> !IsSpace(ps[i][0]) && !IsSpace(ps[i][|ps[i]| - 1])
    ensures PatternsOf(ps) == ps
  {
    forall i | 0 <= i < |ps| ensures IsPatternLine(ps[i]) && TrimSpace(ps[i]) == ps[i] {
      Trimmed(ps[i]);
    }
    PatternsOfPatterns(ps);
  }

  lemma TestFileHead(ls: seq<string>)
    requires ls == TestFileLines()
    ensures PatternsOf(ls[1..7]) == ls[1..7]
  {
    AllPatterns(ls[1..7]);
  }

  lemma TestFileTail(ls: seq<string>)
    requires ls == TestFileLines()
    ensures PatternsOf(ls[9..]) == ls[9..]
  {
    AllPatterns(ls[9..]);
  }

  lemma TestFileSkipped(ls: seq<string>)
    requires ls == TestFileLines()
    ensures !IsPatternLine(TrimSpace(ls[0]))
    ensures !IsPatternLine(TrimSpace(ls[7]))
    ensures !IsPatternLine(TrimSpace(ls[8]))
  {
    Trimmed(ls[0]);
    Trimmed(ls[8]);
    assert TrimSpace(ls[7]) == "";
  }

  /** Twelve lines cut into the first, six, two single lines and the last three. */
  lemma TwelveLines(ls: seq<string>)
    requires |ls| == 12
    ensures ls == [ls[0]] + (ls[1..7] + ([ls[7]] + ([ls[8]] + ls[9..])))
  {
  }

  /** The test file's shape: a skipped line, patterns, two skipped lines and more
      patterns keep exactly the patterns. */
  lemma ThreeSkipped(l0: string, h: seq<string>, l7: string, l8: string, t: seq<string>)
    requires !IsPatternLine(TrimSpace(l0)) && !IsPatternLine(TrimSpace(l7))
    requires !IsPatternLine(TrimSpace(l8))
    ensures PatternsOf([l0] + (h + ([l7] + ([l8] + t)))) == PatternsOf(h) + PatternsOf(t)
  {
    PatternsOfAppend([l0], h + ([l7] + ([l8] + t)));
    PatternsOfAppend(h, [l7] + ([l8] + t));
    PatternsOfAppend([l7], [l8] + t);
    PatternsOfAppend([l8], t);
    SkippedLine(l0);
    SkippedLine(l7);
    SkippedLine(l8);
  }

  lemma SkippedLine(line: string)
    requires !IsPatternLine(TrimSpace(line))
    ensures PatternsOf([line]) == []
  {
    assert [line][1..] == [];
  }

  lemma TestFilePatterns(ls: seq<string>)
    requires ls == TestFileLines()
    ensures PatternsOf(ls) == TestPatterns()
  {
    TestFileHead(ls);
    TestFileTail(ls);
    TestFileSkipped(ls);
    TwelveLines(ls);
    ThreeSkipped(ls[0], ls[1..7], ls[7], ls[8], ls[9..]);
    TestFileKeptLines(ls);
  }

  lemma TestFileKeptLines(ls: seq<string>)
    requires ls == TestFileLines()
    ensures ls[1..7] + ls[9..] == TestPatterns()
  {
  }

  /** Parsing the test's `.gitignore` keeps its nine patterns, in order, and drops the
      two comments and the blank line. */
  lemma TestFileParse()
    ensures ParseGitignore(Some(Terminated(TestFileLines()))).patterns == TestPatterns()
  {
    TestFileScan(TestFileLines());
    TestFilePatterns(TestFileLines());
  }

  lemma DirPatterns(path: string)
    ensures MatchPattern("node_modules/", path) <==> path == "node_modules" || HasPrefix(path, "node_modules/")
    ensures MatchPattern("dist/", path) <==> path == "dist" || HasPrefix(path, "dist/")
    ensures MatchPattern("venv/", path) <==> path == "venv" || HasPrefix(path, "venv/")
    ensures MatchPattern("__pycache__/", path) <==> path == "__pycache__" || HasPrefix(path, "__pycache__/")
  {
  }

  lemma LiteralPatterns(path: string)
    ensures MatchPattern("build", path) <==> path == "build" || HasPrefix(path, "build/")
    ensures MatchPattern(".env", path) <==> path == ".env" || HasPrefix(path, ".env/")
  {
    ContainsChar("build", '*');
    ContainsChar(".env", '*');
  }

  lemma ExtensionPatterns(path: string)
    ensures MatchPattern("*.log", path) <==> HasSuffix(path, ".log")
    ensures MatchPattern("*.tmp", path) <==> HasSuffix(path, ".tmp")
    ensures MatchPattern("*.pyc", path) <==> HasSuffix(path, ".pyc")
  {
    ContainsChar("*.log", '*');
    assert "*.log"[..2] == "*." && "*.log"[1..] == ".log";
    ContainsChar("*.tmp", '*');
    assert "*.tmp"[..2] == "*." && "*.tmp"[1..] == ".tmp";
    ContainsChar("*.pyc", '*');
    assert "*.pyc"[..2] == "*." && "*.pyc"[1..] == ".pyc";
  }

  lemma MatchedBy(g: GitIgnore, i: int, path: string)
    requires 0 <= i < |g.patterns| && MatchPattern(g.patterns[i], path)
    ensures Match(g, path)
  {
  }

  /** The paths the test expects to be ignored, each with the pattern that catches it. */
  lemma IgnoredNodeModules()
    ensures Match(TestIgnore(), "node_modules/react/package.json")
  {
    DirPatterns("node_modules/react/package.json");
    MatchedBy(TestIgnore(), 0, "node_modules/react/package.json");
  }

  lemma IgnoredBuild()
    ensures Match(TestIgnore(), "build")
  {
    LiteralPatterns("build");
    MatchedBy(TestIgnore(), 2, "build");
  }

  lemma IgnoredDist()
    ensures Match(TestIgnore(), "dist/app.js")
  {
    DirPatterns("dist/app.js");
    MatchedBy(TestIgnore(), 3, "dist/app.js");
  }

  lemma IgnoredLog()
    ensures Match(TestIgnore(), "app.log")
  {
    ExtensionPatterns("app.log");
    MatchedBy(TestIgnore(), 1, "app.log");
  }

  lemma IgnoredTmp()
    ensures Match(TestIgnore(), "debug.tmp")
  {
    ExtensionPatterns("debug.tmp");
    MatchedBy(TestIgnore(), 5, "debug.tmp");
  }

  lemma IgnoredVenv()
    ensures Match(TestIgnore(), "venv/bin/python")
  {
    DirPatterns("venv/bin/python");
    MatchedBy(TestIgnore(), 6, "venv/bin/python");
  }

  lemma IgnoredPycache()
    ensures Match(TestIgnore(), "__pycache__/module.pyc")
  {
    DirPatterns("__pycache__/module.pyc");
    MatchedBy(TestIgnore(), 7, "__pycache__/module.pyc");
  }

  lemma IgnoredEnv()
    ensures Match(TestIgnore(), ".env")
  {
    LiteralPatterns(".env");
    MatchedBy(TestIgnore(), 4, ".env");
  }

  lemma OtherFirst(path: string, p: string)
    requires |path| > 0 && |p| > 0 && path[0] != p[0]
    ensures path != p && !HasPrefix(path, p)
  {
  }

  lemma OtherLast(path: string, x: string)
    requires |path| > 0 && |x| > 0 && path[|path| - 1] != x[|x| - 1]
    ensures !HasSuffix(path, x)
  {
  }

  /** No pattern of the test file matches a path whose first and last characters
      none of them can produce. */
  lemma NoTestPatternMatches(g: GitIgnore, path: string)
    requires g == TestIgnore()
    requires |path| > 0 && path[0] !in "ndvb_." && path[|path| - 1] !in "gpc"
    ensures !Match(g, path)
  {
    DirPatterns(path);
    LiteralPatterns(path);
    ExtensionPatterns(path);
    OtherFirst(path, "node_modules"); OtherFirst(path, "node_modules/");
    OtherFirst(path, "dist"); OtherFirst(path, "dist/");
    OtherFirst(path, "venv"); OtherFirst(path, "venv/");
    OtherFirst(path, "__pycache__"); OtherFirst(path, "__pycache__/");
    OtherFirst(path, "build"); OtherFirst(path, "build/");
    OtherFirst(path, ".env"); OtherFirst(path, ".env/");
    OtherLast(path, ".log"); OtherLast(path, ".tmp"); OtherLast(path, ".pyc");
    var ps := g.patterns;
    assert forall i :: 0 <= i < |ps| ==> !MatchPattern(ps[i], path);
  }

  /** The paths the test expects to be kept; `config.env` is not `.env`. */
  lemma KeptPaths(path: string)
    requires path == "src/app.js" || path == "README.md" || path == "package.json" || path == "config.env"
    ensures !Match(TestIgnore(), path)
  {
    NoTestPatternMatches(TestIgnore(), path);
  }
}

=== FILE: listcmd.dfy ===
/** cmd/list.go: which worktrees the list command shows, the abbreviated HEAD, and
    the unit `formatSize` picks for a size in bytes. */
module ListCommand {
  import opened Seqs
  import opened Porcelain
  import opened Manager

  const Unit := 1024
  const Units := "KMGTPE"
  const MinInt64 := -0x8000_0000_0000_0000
  const MaxInt64 := 0x7FFF_FFFF_FFFF_FFFF

  function Pow(b: nat, e: nat): (r: nat)
    ensures b >= 1 ==> r >= 1
    decreases e
  {
    if e == 0 then 1 else b * Pow(b, e - 1)
  }

  /** How a size is shown: below one kibibyte as a count of bytes, otherwise as the
      size divided by `div` followed by the unit letter. */
  datatype SizeLabel = Bytes(n: int) | Scaled(size: int, div: int, unit: char)

  /** `formatSize` without the decimal rendering: sizes below 1024, negative ones
      included, stay in bytes; otherwise `div` is the power of 1024 with
      `div <= bytes < 1024 * div`, and its exponent picks the unit letter. */
  method FormatSize(bytes: int) returns (r: SizeLabel)
    requires MinInt64 <= bytes <= MaxInt64
    ensures bytes < Unit <==> r == Bytes(bytes)
    ensures r.Scaled? ==> r.size == bytes && r.div <= bytes < Unit * r.div
    ensures r.Scaled? ==> exists e :: 0 <= e < |Units| && r.div == Pow(Unit, e + 1) && r.unit == Units[e]
  {
    if bytes < Unit {
      return Bytes(bytes);
    }
    var div, exp := Unit, 0;
    var n := bytes / Unit;
    while n >= Unit
      invariant 0 <= exp && div == Pow(Unit, exp + 1) && div >= Unit
      invariant n == bytes / div && n >= 1
      decreases n
    {
      DivStep(bytes, div, Unit);
      div := div * Unit;
      exp := exp + 1;
      n := n / Unit;
    }
    DivBounds(bytes, div, n, Unit);
    ExponentBound(exp, div);
    return Scaled(bytes, div, Units[exp]);
  }

  lemma MulSub(a: int, b: int, d: int)
    ensures (a - b) * d == a * d - b * d
  {
  }

  lemma MulAtLeast(k: int, d: int)
    requires k >= 1 && d > 0
    ensures k * d >= d
  {
  }

  lemma MulAtMost(k: int, u: int, d: int)
    requires k <= u - 1 && d > 0
    ensures k * d <= u * d - d
  {
    MulSub(u, 1, d);
    MulSub(u - 1, k, d);
    MulNonNegative(u - 1 - k, d);
  }

  lemma MulNonNegative(a: int, b: int)
    requires a >= 0 && b >= 0
    ensures a * b >= 0
  {
  }

  /** Division is determined by its quotient and remainder. */
  lemma DivUnique(x: int, d: int, q: int, m: int)
    requires d > 0 && 0 <= m < d && x == q * d + m
    ensures x / d == q
  {
    var q', m' := x / d, x % d;
    assert x == q' * d + m';
    MulSub(q, q', d);
    MulSub(q', q, d);
    if q' < q {
      MulAtLeast(q - q', d);
    } else if q < q' {
      MulAtLeast(q' - q, d);
    }
  }

  lemma DivStep(x: nat, a: nat, b: nat)
    requires a > 0 && b > 0
    ensures x / a / b == x / (a * b)
  {
    var q, m := x / a, x % a;
    var q2, m2 := q / b, q % b;
    assert x == q * a + m;
    assert q == q2 * b + m2;
    assert q * a == q2 * (a * b) + m2 * a;
    MulAtMost(m2, b, a);
    DivUnique(x, a * b, q2, m2 * a + m);
  }

  lemma DivBounds(x: int, d: int, n: int, u: int)
    requires d > 0 && n == x / d && 1 <= n < u
    ensures d <= x < u * d
  {
    var m := x % d;
    assert x == n * d + m;
    MulAtLeast(n, d);
    MulAtMost(n, u, d);
  }

  lemma ExponentBound(exp: nat, div: nat)
    requires div == Pow(Unit, exp + 1) && div <= MaxInt64
    ensures exp < |Units|
  {
    if exp >= |Units| {
      assert Pow(Unit, 7) > MaxInt64;
      PowGrows(Unit, 7, exp + 1);
    }
  }

  lemma {:induction false} PowGrows(b: nat, i: nat, j: nat)
    requires b >= 1 && i <= j
    ensures Pow(b, i) <= Pow(b, j)
    decreases j
  {
    if i < j {
      PowGrows(b, i, j - 1);
      assert Pow(b, j) == b * Pow(b, j - 1);
    }
  }

  /** Only one exponent brackets a size, so the unit `FormatSize` picks is the only
      one that keeps the shown figure in `[1, 1024)`. */
  lemma {:induction false} BracketUnique(bytes: int, e1: nat, e2: nat)
    requires Pow(Unit, e1 + 1) <= bytes < Unit * Pow(Unit, e1 + 1)
    requires Pow(Unit, e2 + 1) <= bytes < Unit * Pow(Unit, e2 + 1)
    ensures e1 == e2
  {
    if e1 < e2 {
      PowGrows(Unit, e1 + 2, e2 + 1);
    } else if e2 < e1 {
      PowGrows(Unit, e2 + 2, e1 + 1);
    }
  }

  /** The abbreviated HEAD shown by the table and compact output. */
  function ShortHead(head: string): (r: string)
    ensures |head| <= 8 ==> r == head
    ensures |head| > 8 ==> |r| == 8
    ensures HasPrefix(head, r)
  {
    if |head| > 8 then head[..8] else head
  }

  /** Abbreviating twice is abbreviating once. */
  lemma ShortHeadIdempotent(head: string)
    ensures ShortHead(ShortHead(head)) == ShortHead(head)
  {
  }

  /** The list command keeps a worktree when its path mentions `.cow-worktrees` or
      is not the repository path. */
  predicate Shown(w: WorktreeInfo, repo: string) {
    Contains(w.path, ".cow-worktrees") || w.path != repo
  }

  /** The listing the command shows, in order. */
  function ListFilter(ws: seq<WorktreeInfo>, repo: string): (r: seq<WorktreeInfo>)
    ensures forall w :: w in r <==> w in ws && Shown(w, repo)
  {
    Keep(ws, (w: WorktreeInfo) => Shown(w, repo))
  }

  /** The `.cow-worktrees` test only matters for the repository itself: unless the
      repository path mentions `.cow-worktrees`, the command shows what `ListCoW`
      keeps. */
  lemma ListFilterIsListCoW(ws: seq<WorktreeInfo>, repo: string)
    requires !Contains(repo, ".cow-worktrees")
    ensures ListFilter(ws, repo) == Keep(ws, (w: WorktreeInfo) => w.path != repo)
  {
    KeepAgree(ws, (w: WorktreeInfo) => Shown(w, repo), (w: WorktreeInfo) => w.path != repo);
  }

  /** Run from inside a `.cow-worktrees` directory, the command shows every worktree,
      the repository itself included. */
  lemma ListFilterInsideCowDir(ws: seq<WorktreeInfo>, repo: string)
    requires Contains(repo, ".cow-worktrees")
    ensures ListFilter(ws, repo) == ws
  {
    KeepAll(ws, (w: WorktreeInfo) => Shown(w, repo));
  }
}

=== FILE: manager.dfy ===
/** pkg/cowgit/manager.go: the manager's choice of branch name and worktree path,
    copy-on-write creation with its fallback, the listing filter, and removal by
    branch name. */
module Manager {
  import opened Wrappers
  import opened Seqs
  import opened Porcelain
  import opened Worktree

  /** `CreateOptions`. */
  datatype CreateOptions = CreateOptions(branchName: string, worktreePath: string, fromCommit: string,
                                         noCoW: bool, noRewrite: bool, prefix: string)

  /** The branch a creation uses: the prefix, when there is one, before the name. */
  function EffectiveBranch(opts: CreateOptions): (b: string)
    ensures opts.prefix == "" ==> b == opts.branchName
    ensures HasPrefix(b, opts.prefix) && |b| == |opts.prefix| + |opts.branchName|
  {
    if opts.prefix != "" then opts.prefix + opts.branchName else opts.branchName
  }

  /** The prefix can be taken off again: the given name is what follows it. */
  lemma EffectiveBranchStrips(opts: CreateOptions)
    ensures TrimPrefix(EffectiveBranch(opts), opts.prefix) == opts.branchName
  {
    assert (opts.prefix + opts.branchName)[..|opts.prefix|] == opts.prefix;
  }

  /** The name pattern of the temporary directory made when no path is given. */
  function TempPattern(branch: string): string {
    "cowtree-" + branch + "-"
  }

  /** What creation meets: the temporary-directory maker, the copy-on-write support
      check, the worktree's own environment, and creating the parent directory of
      the path for the regular fallback. */
  datatype CreateEnv = CreateEnv(tempDir: string -> Result<string>, supported: Result<bool>,
                                 wt: Env, mkdirParent: Outcome)

  /** `NewWorktreeWithOptions`: no parallel cloning. */
  function NewConfig(repo: string, path: string, branch: string, noRewrite: bool): Config {
    Config(repo, path, branch, "", noRewrite, false, false, 0)
  }

  function RegularArgs(branch: string, path: string): seq<string> {
    ["worktree", "add", "-b", branch, path]
  }

  /** `createRegularWorktree`: create the parent of the path, then `git worktree add -b`
      from the repository's current HEAD. */
  function CreateRegular(e: CreateEnv, c: Config): (r: Outcome)
    ensures r.Pass? <==> e.mkdirParent.Pass? && e.wt.git(c.repo, RegularArgs(c.branch, c.wt)).Ok?
  {
    match e.mkdirParent
    case Fail(m) => Fail("failed to create worktree directory: " + m)
    case Pass =>
      match e.wt.git(c.repo, RegularArgs(c.branch, c.wt))
      case Err(m) => Fail("failed to create regular worktree: " + m)
      case Ok(_) => Pass
  }

  /** The regular creation once a copy-on-write attempt has run: git refuses the
      branch when the attempt left it in the repository. */
  function CreateRegularAfter(e: CreateEnv, c: Config, left: bool): (r: Outcome)
    ensures !left ==> r == CreateRegular(e, c)
    ensures r.Pass? <==> !left && CreateRegular(e, c).Pass?
  {
    if left && e.mkdirParent.Pass? then Fail("failed to create regular worktree: " + BranchExists(c.branch))
    else CreateRegular(e, c)
  }

  /** The path a creation uses, or the error of making a temporary one. */
  function WorktreePath(e: CreateEnv, opts: CreateOptions): (r: Result<string>)
    ensures opts.worktreePath != "" ==> r == Ok(opts.worktreePath)
    ensures opts.worktreePath == "" ==> r.Ok? == e.tempDir(TempPattern(EffectiveBranch(opts))).Ok?
  {
    if opts.worktreePath != "" then Ok(opts.worktreePath)
    else match e.tempDir(TempPattern(EffectiveBranch(opts)))
      case Err(m) => Err("failed to create temp directory: " + m)
      case Ok(d) => Ok(d)
  }

  /** Whether copy-on-write is tried: only when it is not turned off and the support
      check answers yes without error. */
  predicate TriesCoW(e: CreateEnv, opts: CreateOptions) {
    !opts.noCoW && e.supported == Ok(true)
  }

  /** `Create`: the created worktree and whether the copy-on-write attempt
      succeeded (through its own `git worktree add` fallback included). A
      failed copy-on-write attempt falls back to the regular creation; the returned
      worktree keeps the base commit the attempt recorded. `v` is the setup the
      attempt runs, as written or corrected. */
  function Create(e: CreateEnv, repo: string, opts: CreateOptions, v: Variant): (r: (Result<Config>, bool))
    ensures r.0.Ok? ==> r.0.value.repo == repo && r.0.value.branch == EffectiveBranch(opts)
                        && Ok(r.0.value.wt) == WorktreePath(e, opts) && !r.0.value.parallelCoW
    ensures r.1 ==> r.0.Ok? && TriesCoW(e, opts)
    ensures WorktreePath(e, opts).Err? ==> r.0.Err? && r.0.msg == WorktreePath(e, opts).msg
  {
    match WorktreePath(e, opts)
    case Err(m) => (Err(m), false)
    case Ok(path) =>
      var c := NewConfig(repo, path, EffectiveBranch(opts), opts.noRewrite);
      if TriesCoW(e, opts) && CreateCoW(e.wt, c, v).1.Pass? then (Ok(CreateCoW(e.wt, c, v).2), true)
      else
        var kept := if TriesCoW(e, opts) then CreateCoW(e.wt, c, v).2 else c;
        match CreateRegularAfter(e, c, TriesCoW(e, opts) && LeavesBranch(e.wt, kept, v))
        case Fail(m) => (Err(m), false)
        case Pass => (Ok(kept), false)
  }

  /** With copy-on-write off or unsupported, creation is the regular creation. */
  lemma NoCoWIsRegular(e: CreateEnv, repo: string, opts: CreateOptions, v: Variant)
    requires !TriesCoW(e, opts)
    requires WorktreePath(e, opts).Ok?
    ensures var c := NewConfig(repo, WorktreePath(e, opts).value, EffectiveBranch(opts), opts.noRewrite);
      Create(e, repo, opts, v) == (if CreateRegular(e, c).Pass? then Ok(c) else Err(CreateRegular(e, c).msg), false)
  {
  }

  /** Creation succeeds exactly when a path is found and either the copy-on-write
      attempt succeeds or the regular fallback does, the latter only when the attempt
      left no branch behind. */
  lemma CreateSucceeds(e: CreateEnv, repo: string, opts: CreateOptions, v: Variant)
    requires WorktreePath(e, opts).Ok?
    ensures var c := NewConfig(repo, WorktreePath(e, opts).value, EffectiveBranch(opts), opts.noRewrite);
      Create(e, repo, opts, v).0.Ok? <==>
        (TriesCoW(e, opts) && CreateCoW(e.wt, c, v).1.Pass?)
        || (!(TriesCoW(e, opts) && LeavesBranch(e.wt, CreateCoW(e.wt, c, v).2, v)) && CreateRegular(e, c).Pass?)
  {
  }

  // ---------------------------------------------------------------------------
  // Listing.

  /** The elements of `xs` that satisfy `p`, in order. */
  function Keep<T>(xs: seq<T>, p: T -> bool): (r: seq<T>)
    ensures |r| <= |xs|
    ensures forall i :: 0 <= i < |r| ==> r[i] in xs && p(r[i])
    ensures forall i :: 0 <= i < |xs| && p(xs[i]) ==> xs[i] in r
    decreases |xs|
  {
    if |xs| == 0 then []
    else
      assert xs == [xs[0]] + xs[1..];
      (if p(xs[0]) then [xs[0]] else []) + Keep(xs[1..], p)
  }

  /** Keeping distributes over concatenation, so the kept elements keep their order. */
  lemma {:induction false} KeepAppend<T>(xs: seq<T>, ys: seq<T>, p: T -> bool)
    ensures Keep(xs + ys, p) == Keep(xs, p) + Keep(ys, p)
    decreases |xs|
  {
    if |xs| == 0 {
      assert xs + ys == ys;
    } else {
      assert (xs + ys)[0] == xs[0] && (xs + ys)[1..] == xs[1..] + ys;
      KeepAppend(xs[1..], ys, p);
    }
  }

  /** When every element is kept, nothing is lost. */
  lemma {:induction false} KeepAll<T>(xs: seq<T>, p: T -> bool)
    requires forall i :: 0 <= i < |xs| ==> p(xs[i])
    ensures Keep(xs, p) == xs
    decreases |xs|
  {
    if |xs| > 0 {
      KeepAll(xs[1..], p);
      assert xs == [xs[0]] + xs[1..];
    }
  }

  /** Two filters that agree on every element keep the same elements. */
  lemma {:induction false} KeepAgree<T>(xs: seq<T>, p: T -> bool, q: T -> bool)
    requires forall i :: 0 <= i < |xs| ==> p(xs[i]) == q(xs[i])
    ensures Keep(xs, p) == Keep(xs, q)
    decreases |xs|
  {
    if |xs| > 0 {
      KeepAgree(xs[1..], p, q);
    }
  }

  /** `ListCoW`: the listed worktrees other than the repository itself, in order. */
  function ListCoW(listing: Result<string>, repo: string): (r: Result<seq<WorktreeInfo>>)
    ensures r.Err? <==> listing.Err?
    ensures r.Ok? ==> forall w :: w in r.value <==> w in Parse(listing.value) && w.path != repo
    ensures r.Ok? ==> r.value == Keep(Parse(listing.value), (w: WorktreeInfo) => w.path != repo)
  {
    match ListWorktrees(listing)
    case Err(m) => Err(m)
    case Ok(ws) => Ok(Keep(ws, (w: WorktreeInfo) => w.path != repo))
  }

  /** The first listed worktree on `branch`, by position. */
  function FindByBranch(ws: seq<WorktreeInfo>, branch: string): (r: Option<nat>)
    ensures r.None? <==> forall i :: 0 <= i < |ws| ==> ws[i].branch != branch
    ensures r.Some? ==> r.value < |ws| && ws[r.value].branch == branch
                        && forall i :: 0 <= i < r.value ==> ws[i].branch != branch
    decreases |ws|
  {
    if |ws| == 0 then None
    else if ws[0].branch == branch then Some(0)
    else match FindByBranch(ws[1..], branch)
      case None => None
      case Some(i) => Some(i + 1)
  }

  /** `Remove`: find the worktree of the branch in the listing, then remove it alone
      when the branch is to be kept, or with its branch otherwise. The result is the
      path acted on, the calls made and the outcome. */
  function Remove(listing: Result<string>, e: RemovalEnv, repo: string, branch: string, keepBranch: bool)
    : (r: (Option<string>, seq<RemovalCall>, Outcome))
    ensures listing.Err? ==> r == (None, [], Fail("failed to list worktrees: " + ListWorktrees(listing).msg))
    ensures listing.Ok? ==>
      var ws := Parse(listing.value);
      match FindByBranch(ws, branch)
      case None => r == (None, [], Fail("worktree for branch " + branch + " not found"))
      case Some(i) => r.0 == Some(ws[i].path)
    ensures keepBranch ==> DeleteRef(branch) !in r.1 && RunGit(PruneArgs) !in r.1
    ensures !keepBranch && r.0.Some? ==> r.1 == RemoveWithBranch(e, repo, r.0.value, branch).0
    ensures keepBranch && r.0.Some? ==> r.1 == [RunGit(RemoveArgs(r.0.value))]
    ensures r.0.Some? ==> r.2 == if keepBranch then RemoveKeepingBranch(e.git, repo, r.0.value)
                                 else RemoveWithBranch(e, repo, r.0.value, branch).2
  {
    match ListWorktrees(listing)
    case Err(m) => (None, [], Fail("failed to list worktrees: " + m))
    case Ok(ws) =>
      match FindByBranch(ws, branch)
      case None => (None, [], Fail("worktree for branch " + branch + " not found"))
      case Some(i) =>
        var path := ws[i].path;
        if keepBranch then (Some(path), [RunGit(RemoveArgs(path))], RemoveKeepingBranch(e.git, repo, path))
        else
          var (calls, _, o) := RemoveWithBranch(e, repo, path, branch);
          (Some(path), calls, o)
  }
}

=== FILE: pool.dfy ===
/** The bookkeeping the three adaptive pools share (`WorkerPool` in
    pkg/cowgit/adaptive_pool.go, `CoWPool` and `AtomicClonePool` in
    pkg/cowgit/cow_pool.go): a registry of running workers and a controller that,
    every tick, may add one worker or retire one.

    Clocks become explicit nanosecond readings and the processing rate an exact
    rational; which worker a map iteration happens to retire is an index chosen by
    the caller. */
module Pool {
  import opened Wrappers

  /** The workers registered with a pool, in an order the caller does not control;
      `nextId` is the last id handed out and `workerCount` the atomic counter. */
  datatype Registry = Registry(active: seq<int>, nextId: int, workerCount: int)

  predicate Distinct(ids: seq<int>) {
    forall i, j :: 0 <= i < j < |ids| ==> ids[i] != ids[j]
  }

  /** The registry's own invariant: distinct ids, each no larger than the last one
      handed out, and a counter that matches the registry's size. */
  predicate Valid(r: Registry) {
    Distinct(r.active)
    && (forall i :: 0 <= i < |r.active| ==> 1 <= r.active[i] <= r.nextId)
    && r.workerCount == |r.active|
    && r.nextId >= 0
  }

  const Empty := Registry([], 0, 0)

  /** `max(runtime.NumCPU()/2, 1)`: the size below which no worker is retired. */
  function MinWorkers(cpus: nat): (m: nat)
    ensures m >= 1 && m <= cpus / 2 + 1
    ensures cpus >= 2 ==> m == cpus / 2
  {
    if cpus / 2 > 1 then cpus / 2 else 1
  }

  /** `AddWorker`: a fresh id, one more entry, one more on the counter. */
  function AddWorker(r: Registry): (r': Registry)
    requires Valid(r)
    ensures Valid(r')
    ensures r'.nextId == r.nextId + 1
    ensures r'.active == r.active + [r'.nextId]
    ensures r'.nextId !in r.active
    ensures r'.workerCount == r.workerCount + 1
  {
    var id := r.nextId + 1;
    Registry(r.active + [id], id, r.workerCount + 1)
  }

  /** The registry with its `k`-th worker gone. */
  function Without(ids: seq<int>, k: nat): (r: seq<int>)
    requires k < |ids|
    ensures |r| == |ids| - 1
    ensures forall i :: 0 <= i < |r| ==> r[i] == if i < k then ids[i] else ids[i + 1]
    ensures multiset(r) + multiset{ids[k]} == multiset(ids)
  {
    assert ids == ids[..k] + [ids[k]] + ids[k + 1..];
    ids[..k] + ids[k + 1..]
  }

  /** Dropping a worker keeps the ids distinct and within their range. */
  lemma WithoutKeepsIds(ids: seq<int>, k: nat, last: int)
    requires k < |ids| && Distinct(ids) && forall i :: 0 <= i < |ids| ==> 1 <= ids[i] <= last
    ensures Distinct(Without(ids, k))
    ensures forall i :: 0 <= i < |Without(ids, k)| ==> 1 <= Without(ids, k)[i] <= last
  {
    var rest := Without(ids, k);
    forall i, j | 0 <= i < j < |rest| ensures rest[i] != rest[j] {
      var a := if i < k then i else i + 1;
      var b := if j < k then j else j + 1;
      assert rest[i] == ids[a] && rest[j] == ids[b] && a < b;
    }
  }

  /** `RemoveWorker`: refused at or below the floor; otherwise the worker the map
      iteration yields first (the one at `pick`, wrapped) is stopped and dropped. */
  function RemoveWorker(r: Registry, cpus: nat, pick: nat): (res: (Registry, bool))
    requires Valid(r)
    ensures Valid(res.0)
    ensures res.1 <==> |r.active| > MinWorkers(cpus)
    ensures !res.1 ==> res.0 == r
    ensures res.1 ==> res.0.workerCount == r.workerCount - 1 && res.0.nextId == r.nextId
    ensures res.1 ==> exists i :: 0 <= i < |r.active| && multiset(res.0.active) + multiset{r.active[i]} == multiset(r.active)
  {
    if |r.active| <= MinWorkers(cpus) then (r, false)
    else
      var k := pick % |r.active|;
      WithoutKeepsIds(r.active, k, r.nextId);
      (Registry(Without(r.active, k), r.nextId, r.workerCount - 1), true)
  }

  /** `Start`: one worker per CPU. */
  function Start(r: Registry, cpus: nat): (r': Registry)
    requires Valid(r)
    ensures Valid(r')
    ensures r'.workerCount == r.workerCount + cpus
    ensures r'.nextId == r.nextId + cpus
    decreases cpus
  {
    if cpus == 0 then r else Start(AddWorker(r), cpus - 1)
  }

  /** The constants that tell the three controllers apart: grow when the queue is
      longer than `grow` times the workers, up to `cap` times the CPUs, and shrink when
      the queue is empty and the rate is below `shrinkBelow`. */
  datatype Controller = Controller(grow: nat, cap: nat, shrinkBelow: real)

  const RewriteController := Controller(5, 4, 1.0)
  const CoWController := Controller(10, 2, 5.0)
  const AtomicController := Controller(5, 2, 1.0)

  /** `time.Second` in nanoseconds. */
  const Second: int := 1_000_000_000

  /** What `adjustWorkers` asks of the pool. */
  datatype Action = Hold | Grow | Shrink

  /** The decision of `adjustWorkers`. `sinceLast` is the time since the last change,
      `None` before the first one (the zero `time.Time` is far in the past). */
  function Choose(c: Controller, cpus: nat, sinceLast: Option<int>, workers: int, queue: nat, rate: real): (a: Action)
    ensures sinceLast.Some? && sinceLast.value < Second ==> a == Hold
    ensures a == Grow <==>
      (sinceLast.None? || sinceLast.value >= Second)
      && queue > workers * c.grow && workers < cpus * c.cap && rate > 0.0
    ensures a == Shrink <==>
      (sinceLast.None? || sinceLast.value >= Second)
      && !(queue > workers * c.grow && workers < cpus * c.cap && rate > 0.0)
      && queue == 0 && rate < c.shrinkBelow
  {
    if sinceLast.Some? && sinceLast.value < Second then Hold
    else if queue > workers * c.grow && workers < cpus * c.cap && rate > 0.0 then Grow
    else if queue == 0 && rate < c.shrinkBelow then Shrink
    else Hold
  }

  /** A pool with its controller: the registry and the time of the last change. */
  datatype Scaled = Scaled(reg: Registry, lastAdjust: Option<int>)

  /** `adjustWorkers` at time `now`: grow by one, or try to retire one; the time is
      recorded only when something changed. */
  function Adjust(c: Controller, cpus: nat, s: Scaled, now: int, queue: nat, rate: real, pick: nat): (r: Scaled)
    requires Valid(s.reg)
    ensures Valid(r.reg)
    ensures r.reg.workerCount == s.reg.workerCount
         || r.reg.workerCount == s.reg.workerCount + 1
         || r.reg.workerCount == s.reg.workerCount - 1
    ensures r.reg.workerCount != s.reg.workerCount ==> r.lastAdjust == Some(now)
    ensures r.reg.workerCount == s.reg.workerCount ==> r == s
  {
    var since := if s.lastAdjust.Some? then Some(now - s.lastAdjust.value) else None;
    match Choose(c, cpus, since, s.reg.workerCount, queue, rate)
    case Hold => s
    case Grow => Scaled(AddWorker(s.reg), Some(now))
    case Shrink =>
      var (reg, ok) := RemoveWorker(s.reg, cpus, pick);
      if ok then Scaled(reg, Some(now)) else s
  }

  /** The limits a controller keeps: it never retires a worker at or below the floor
      and never adds one at or above its cap. */
  lemma AdjustKeepsBounds(c: Controller, cpus: nat, s: Scaled, now: int, queue: nat, rate: real, pick: nat)
    requires Valid(s.reg)
    ensures var r := Adjust(c, cpus, s, now, queue, rate, pick);
      (r.reg.workerCount < s.reg.workerCount ==> r.reg.workerCount >= MinWorkers(cpus))
      && (r.reg.workerCount > s.reg.workerCount ==> r.reg.workerCount <= cpus * c.cap)
  {
  }

  /** Within a second of the last change nothing happens. */
  lemma AdjustRateLimited(c: Controller, cpus: nat, s: Scaled, now: int, queue: nat, rate: real, pick: nat)
    requires Valid(s.reg) && s.lastAdjust.Some? && now - s.lastAdjust.value < Second
    ensures Adjust(c, cpus, s, now, queue, rate, pick) == s
  {
  }

  /** Left idle right after `Start`, a pool of two or more CPUs does not stay at one
      worker per CPU: the first tick sees an empty queue and no progress and retires
      a worker. */
  lemma StartupIdleShrinks(c: Controller, cpus: nat, now: int, pick: nat)
    requires cpus >= 2 && c.shrinkBelow > 0.0
    ensures Adjust(c, cpus, Scaled(Start(Empty, cpus), None), now, 0, 0.0, pick).reg.workerCount == cpus - 1
  {
    var reg := Start(Empty, cpus);
    assert |reg.active| == cpus > MinWorkers(cpus);
  }

  /** What the control loop remembers between ticks. */
  datatype Ticker = Ticker(lastProcessed: int, lastCheck: int)

  /** One tick of `controlLoop` at time `now` with `processed` tasks done so far: when
      time has moved on, the rate since the previous tick is fed to `adjustWorkers`;
      otherwise the tick is ignored. */
  function Tick(c: Controller, cpus: nat, t: Ticker, s: Scaled, now: int, processed: int, queue: nat, pick: nat): (r: (Ticker, Scaled))
    requires Valid(s.reg)
    ensures now <= t.lastCheck ==> r == (t, s)
    ensures now > t.lastCheck ==> r.0 == Ticker(processed, now)
    ensures Valid(r.1.reg)
  {
    if now - t.lastCheck > 0 then
      var dt := (now - t.lastCheck) as real / Second as real;
      var rate := (processed - t.lastProcessed) as real / dt;
      (Ticker(processed, now), Adjust(c, cpus, s, now, queue, rate, pick))
    else (t, s)
  }

  /** A tick that sees the queue growing faster than the workers while they make
      progress adds exactly one worker, below the cap and outside the one-second
      window. */
  lemma TickGrows(c: Controller, cpus: nat, t: Ticker, s: Scaled, now: int, processed: int, queue: nat, pick: nat)
    requires Valid(s.reg) && now > t.lastCheck && processed > t.lastProcessed
    requires s.lastAdjust.None? || now - s.lastAdjust.value >= Second
    requires queue > s.reg.workerCount * c.grow && s.reg.workerCount < cpus * c.cap
    ensures Tick(c, cpus, t, s, now, processed, queue, pick).1.reg.workerCount == s.reg.workerCount + 1
  {
    var dt := (now - t.lastCheck) as real / Second as real;
    assert dt > 0.0;
    var rate := (processed - t.lastProcessed) as real / dt;
    assert rate > 0.0;
  }

  /** A tick that sees no task finished since the previous one never adds a worker,
      whatever the queue: a pool whose workers have all exited on errors (they stay
      counted) gets no new one to drain its channel. */
  lemma StalledNeverGrows(c: Controller, cpus: nat, t: Ticker, s: Scaled, now: int, queue: nat, pick: nat)
    requires Valid(s.reg)
    ensures Tick(c, cpus, t, s, now, t.lastProcessed, queue, pick).1.reg.workerCount <= s.reg.workerCount
  {
    if now - t.lastCheck > 0 {
      var dt := (now - t.lastCheck) as real / Second as real;
      var rate := (t.lastProcessed - t.lastProcessed) as real / dt;
      assert rate == 0.0;
    }
  }
}

=== FILE: porcelain.dfy ===
/** `ListWorktrees` of pkg/cowgit/worktree.go: the parser of
    `git worktree list --porcelain`, and the format git writes, so that the parser can
    be checked against its writer. */
module Porcelain {
  import opened Wrappers
  import opened Seqs

  /** `WorktreeInfo`: the path, the branch without `refs/heads/`, and the HEAD commit;
      an empty string stands for a field the output did not give. */
  datatype WorktreeInfo = WorktreeInfo(path: string, branch: string, head: string)

  const NoInfo := WorktreeInfo("", "", "")

  const WorktreeTag := "worktree "
  const BranchTag := "branch "
  const HeadTag := "HEAD "
  const HeadsPrefix := "refs/heads/"

  /** The parser's state between lines: the records emitted so far and the one being
      filled in. */
  datatype Scan = Scan(done: seq<WorktreeInfo>, current: WorktreeInfo)

  predicate AllNamed(ws: seq<WorktreeInfo>) {
    forall i :: 0 <= i < |ws| ==> ws[i].path != ""
  }

  /** The records emitted once the current one is closed: it is kept only when it
      has a path. */
  function Flush(s: Scan): (r: seq<WorktreeInfo>)
    ensures AllNamed(s.done) ==> AllNamed(r)
    ensures HasPrefix(r, s.done) && |r| <= |s.done| + 1
    ensures |r| == |s.done| + 1 <==> s.current.path != ""
  {
    if s.current.path != "" then s.done + [s.current] else s.done
  }

  /** One line: a `worktree ` line closes the current record and opens a new one; a
      `branch ` or `HEAD ` line sets that field of the current record; any other
      line is ignored. */
  function Feed(s: Scan, line: string): (r: Scan)
    ensures HasPrefix(line, WorktreeTag) ==> r == Scan(Flush(s), NoInfo.(path := line[|WorktreeTag|..]))
    ensures !HasPrefix(line, WorktreeTag) ==> r.done == s.done && r.current.path == s.current.path
    ensures !HasPrefix(line, WorktreeTag) && !HasPrefix(line, BranchTag) && !HasPrefix(line, HeadTag) ==> r == s
  {
    if HasPrefix(line, WorktreeTag) then
      Scan(Flush(s), WorktreeInfo(TrimPrefix(line, WorktreeTag), "", ""))
    else if HasPrefix(line, BranchTag) then
      s.(current := s.current.(branch := TrimPrefix(TrimPrefix(line, BranchTag), HeadsPrefix)))
    else if HasPrefix(line, HeadTag) then
      s.(current := s.current.(head := TrimPrefix(line, HeadTag)))
    else s
  }

  function FeedAll(s: Scan, lines: seq<string>): (r: Scan)
    ensures AllNamed(s.done) ==> AllNamed(r.done)
    ensures HasPrefix(r.done, s.done)
    decreases |lines|
  {
    if |lines| == 0 then s else FeedAll(Feed(s, lines[0]), lines[1..])
  }

  /** `ListWorktrees`: the records of the output in order, without those that never
      got a path; a failed `git worktree list` is reported with its error. */
  function ListWorktrees(output: Result<string>): (r: Result<seq<WorktreeInfo>>)
    ensures output.Err? <==> r.Err?
    ensures r.Err? ==> r.msg == "failed to list worktrees: " + output.msg
    ensures r.Ok? ==> AllNamed(r.value)
  {
    match output
    case Err(e) => Err("failed to list worktrees: " + e)
    case Ok(text) => Ok(Parse(text))
  }

  function Parse(text: string): (r: seq<WorktreeInfo>)
    ensures AllNamed(r)
  {
    Flush(FeedAll(Scan([], NoInfo), Split(text, '\n')))
  }

  lemma {:induction false} FeedAllAppend(s: Scan, a: seq<string>, b: seq<string>)
    ensures FeedAll(s, a + b) == FeedAll(FeedAll(s, a), b)
    decreases |a|
  {
    if |a| > 0 {
      assert (a + b)[0] == a[0] && (a + b)[1..] == a[1..] + b;
      FeedAllAppend(Feed(s, a[0]), a[1..], b);
    } else {
      assert a + b == b;
    }
  }

  /** The lines git writes for one worktree: its path, its HEAD, then its branch as a
      full ref or `detached`, then a blank line. */
  function RecordLines(w: WorktreeInfo): seq<string> {
    [WorktreeTag + w.path, HeadTag + w.head,
     if w.branch == "" then "detached" else BranchTag + HeadsPrefix + w.branch,
     ""]
  }

  function Lines(ws: seq<WorktreeInfo>): seq<string>
    decreases |ws|
  {
    if |ws| == 0 then [] else RecordLines(ws[0]) + Lines(ws[1..])
  }

  /** `git worktree list --porcelain` for the given worktrees. */
  function Render(ws: seq<WorktreeInfo>): string {
    Join(Lines(ws), "\n")
  }

  /** A record can be written on lines of its own. */
  predicate Printable(w: WorktreeInfo) {
    w.path != "" && '\n' !in w.path && '\n' !in w.branch && '\n' !in w.head
  }

  lemma Tagged(tag: string, x: string)
    ensures HasPrefix(tag + x, tag) && TrimPrefix(tag + x, tag) == x
  {
    assert (tag + x)[..|tag|] == tag;
  }

  lemma Untagged(line: string, tag: string)
    requires |line| > 0 && |tag| > 0 && line[0] != tag[0]
    ensures !HasPrefix(line, tag)
  {
    if |tag| <= |line| {
      assert line[..|tag|][0] == line[0];
    }
  }

  lemma FeedFour(s: Scan, a: string, b: string, c: string, d: string)
    ensures FeedAll(s, [a, b, c, d]) == Feed(Feed(Feed(Feed(s, a), b), c), d)
  {
    var s1 := Feed(s, a);
    var s2 := Feed(s1, b);
    var s3 := Feed(s2, c);
    assert [a, b, c, d][1..] == [b, c, d];
    assert [b, c, d][1..] == [c, d];
    assert [c, d][1..] == [d];
    assert [d][1..] == [];
    assert FeedAll(s3, [d]) == Feed(s3, d);
    assert FeedAll(s2, [c, d]) == FeedAll(s3, [d]);
    assert FeedAll(s1, [b, c, d]) == FeedAll(s2, [c, d]);
  }

  lemma FeedRecord(s: Scan, w: WorktreeInfo)
    ensures FeedAll(s, RecordLines(w)) == Scan(Flush(s), w)
  {
    var ls := RecordLines(w);
    Tagged(WorktreeTag, w.path);
    var s1 := Feed(s, ls[0]);
    assert s1 == Scan(Flush(s), WorktreeInfo(w.path, "", ""));
    Tagged(HeadTag, w.head);
    Untagged(ls[1], WorktreeTag);
    Untagged(ls[1], BranchTag);
    var s2 := Feed(s1, ls[1]);
    assert s2 == Scan(Flush(s), WorktreeInfo(w.path, "", w.head));
    var s3 := Feed(s2, ls[2]);
    if w.branch == "" {
      Untagged(ls[2], WorktreeTag);
      Untagged(ls[2], BranchTag);
      Untagged(ls[2], HeadTag);
    } else {
      Tagged(BranchTag, HeadsPrefix + w.branch);
      Tagged(HeadsPrefix, w.branch);
      assert ls[2] == BranchTag + (HeadsPrefix + w.branch);
      Untagged(ls[2], WorktreeTag);
    }
    assert s3 == Scan(Flush(s), w);
    FeedFour(s, ls[0], ls[1], ls[2], ls[3]);
  }

  lemma {:induction false} FeedRecords(s: Scan, ws: seq<WorktreeInfo>)
    requires AllNamed(ws)
    ensures Flush(FeedAll(s, Lines(ws))) == Flush(s) + ws
    decreases |ws|
  {
    if |ws| > 0 {
      FeedAllAppend(s, RecordLines(ws[0]), Lines(ws[1..]));
      FeedRecord(s, ws[0]);
      FeedRecords(Scan(Flush(s), ws[0]), ws[1..]);
      assert ws == [ws[0]] + ws[1..];
    }
  }

  lemma {:induction false} LinesPrintable(ws: seq<WorktreeInfo>)
    requires forall i :: 0 <= i < |ws| ==> Printable(ws[i])
    ensures forall i :: 0 <= i < |Lines(ws)| ==> '\n' !in Lines(ws)[i]
    decreases |ws|
  {
    if |ws| > 0 {
      LinesPrintable(ws[1..]);
      var ls := RecordLines(ws[0]);
      assert forall i :: 0 <= i < |ls| ==> '\n' !in ls[i];
    }
  }

  /** Parsing what git writes gives back the worktrees it was written from, in order. */
  lemma ParseRender(ws: seq<WorktreeInfo>)
    requires forall i :: 0 <= i < |ws| ==> Printable(ws[i])
    ensures Parse(Render(ws)) == ws
  {
    var start := Scan([], NoInfo);
    if |ws| == 0 {
      assert Split(Render(ws), '\n') == [[]];
    } else {
      LinesPrintable(ws);
      SplitJoin(Lines(ws), '\n');
    }
    FeedRecords(start, ws);
  }

  /** Lines before the first `worktree ` line describe no worktree and are dropped. */
  lemma {:induction false} PreambleDropped(pre: seq<string>, rest: seq<string>)
    requires forall i :: 0 <= i < |pre| ==> !HasPrefix(pre[i], WorktreeTag)
    requires |rest| > 0 && HasPrefix(rest[0], WorktreeTag)
    ensures FeedAll(Scan([], NoInfo), pre + rest) == FeedAll(Scan([], NoInfo), rest)
  {
    var s := FeedAll(Scan([], NoInfo), pre);
    FeedAllAppend(Scan([], NoInfo), pre, rest);
    PreambleNoPath(Scan([], NoInfo), pre);
    assert rest == [rest[0]] + rest[1..];
    FeedAllAppend(s, [rest[0]], rest[1..]);
    FeedAllAppend(Scan([], NoInfo), [rest[0]], rest[1..]);
  }

  lemma {:induction false} PreambleNoPath(s: Scan, pre: seq<string>)
    requires forall i :: 0 <= i < |pre| ==> !HasPrefix(pre[i], WorktreeTag)
    ensures FeedAll(s, pre).done == s.done && FeedAll(s, pre).current.path == s.current.path
    decreases |pre|
  {
    if |pre| > 0 {
      PreambleNoPath(Feed(s, pre[0]), pre[1..]);
    }
  }

  /** Within one record the last `branch ` line wins. */
  lemma LaterBranchWins(s: Scan, b1: string, b2: string)
    ensures FeedAll(s, [BranchTag + b1, BranchTag + b2]).current.branch
         == TrimPrefix(b2, HeadsPrefix)
  {
    var l1 := BranchTag + b1;
    var l2 := BranchTag + b2;
    Tagged(BranchTag, b1);
    Tagged(BranchTag, b2);
    Untagged(l1, WorktreeTag);
    Untagged(l2, WorktreeTag);
    assert [l1, l2][1..] == [l2];
    assert [l2][1..] == [];
    assert FeedAll(Feed(s, l1), [l2]) == Feed(Feed(s, l1), l2);
  }
}

=== FILE: registration.dfy ===
/** `registerWorktreeManually` of pkg/cowgit/worktree.go: the administrative files
    that make a cloned directory a linked worktree of the repository, and how git
    reads them back.

    Paths are strings joined with `/`; the parts are taken to be clean, so
    `filepath.Join` is concatenation. Each file operation is an oracle that says
    whether it succeeds. The files a run leaves are a map from path to contents;
    directories are not tracked. */
module Registration {
  import opened Wrappers
  import opened Seqs

  const DirMode := 0x1ED
  const FileMode := 0x1A4

  /** `os.MkdirAll`, `os.WriteFile` and `os.RemoveAll`. */
  datatype FileOp =
    | MkdirAll(path: string, mode: int)
    | WriteFile(path: string, data: string, mode: int)
    | RemoveAll(path: string)

  type FileSys = FileOp -> Outcome

  /** An operation and the words its error is wrapped in. */
  datatype Step = Step(op: FileOp, context: string)

  function Ops(steps: seq<Step>): (ops: seq<FileOp>)
    ensures |ops| == |steps|
    ensures forall i :: 0 <= i < |steps| ==> ops[i] == steps[i].op
  {
    seq(|steps|, i requires 0 <= i < |steps| => steps[i].op)
  }

  /** The index of the first step whose operation fails, or the number of steps. */
  function FirstFailure(fsys: FileSys, steps: seq<Step>): (k: nat)
    ensures k <= |steps|
    ensures forall i :: 0 <= i < k ==> fsys(steps[i].op).Pass?
    ensures k < |steps| ==> fsys(steps[k].op).Fail?
    decreases |steps|
  {
    if |steps| == 0 then 0
    else if fsys(steps[0].op).Fail? then 0
    else 1 + FirstFailure(fsys, steps[1..])
  }

  /** Runs the steps in order and stops at the first that fails; the operations
      attempted and the outcome. */
  function RunSteps(fsys: FileSys, steps: seq<Step>): (r: (seq<FileOp>, Outcome))
    ensures var k := FirstFailure(fsys, steps);
      (r.1.Pass? <==> k == |steps|)
      && (k == |steps| ==> r.0 == Ops(steps))
      && (k < |steps| ==> r.0 == Ops(steps[..k + 1]) && r.1 == Fail(steps[k].context + fsys(steps[k].op).msg))
    decreases |steps|
  {
    if |steps| == 0 then ([], Pass)
    else match fsys(steps[0].op)
      case Fail(e) =>
        assert Ops(steps[..1]) == [steps[0].op];
        ([steps[0].op], Fail(steps[0].context + e))
      case Pass =>
        var (ops, o) := RunSteps(fsys, steps[1..]);
        var k := FirstFailure(fsys, steps[1..]);
        assert k < |steps| - 1 ==> [steps[0].op] + Ops(steps[1..][..k + 1]) == Ops(steps[..k + 2]);
        assert k == |steps| - 1 ==> [steps[0].op] + Ops(steps[1..]) == Ops(steps);
        ([steps[0].op] + ops, o)
  }

  lemma AllPass(fsys: FileSys, steps: seq<Step>)
    requires forall i :: 0 <= i < |steps| ==> fsys(steps[i].op).Pass?
    ensures RunSteps(fsys, steps) == (Ops(steps), Pass)
  {
  }

  /** `filepath.Join(dir, name)` for clean parts. */
  function Slash(dir: string, name: string): string {
    dir + "/" + name
  }

  function GitFile(wt: string): string {
    Slash(wt, ".git")
  }

  /** `<repo>/.git/worktrees/<name>`. */
  function MetaDir(repo: string, name: string): string {
    Slash(Slash(Slash(repo, ".git"), "worktrees"), name)
  }

  function Ref(branch: string): string {
    "refs/heads/" + branch
  }

  function HeadFile(branch: string): string {
    "ref: " + Ref(branch) + "\n"
  }

  function GitFileContents(meta: string): string {
    "gitdir: " + meta + "\n"
  }

  /** The registration with a given `commondir` contents: the metadata directory,
      its `HEAD`, `commondir` and `gitdir` files, then the worktree's `.git`
      directory replaced by a file that points back at the metadata. */
  function RegisterSteps(repo: string, wt: string, branch: string, commondir: string): (steps: seq<Step>)
    ensures |steps| == 6
  {
    var meta := MetaDir(repo, branch);
    [Step(MkdirAll(meta, DirMode), "failed to create worktree metadata directory: "),
     Step(WriteFile(Slash(meta, "HEAD"), HeadFile(branch), FileMode), "failed to write HEAD file: "),
     Step(WriteFile(Slash(meta, "commondir"), commondir, FileMode), "failed to write commondir file: "),
     Step(WriteFile(Slash(meta, "gitdir"), GitFile(wt) + "\n", FileMode), "failed to write gitdir file: "),
     Step(RemoveAll(GitFile(wt)), "failed to remove .git directory: "),
     Step(WriteFile(GitFile(wt), GitFileContents(meta), FileMode), "failed to write .git file: ")]
  }

  const TwoUp := "../..\n"

  /** `registerWorktreeManually` as written: the metadata directory is named after
      the branch and `commondir` always says two levels up. */
  function RegisterAsWritten(fsys: FileSys, repo: string, wt: string, branch: string): (r: (seq<FileOp>, Outcome))
    ensures var steps := RegisterSteps(repo, wt, branch, TwoUp);
      r.1.Pass? <==> forall i :: 0 <= i < 6 ==> fsys(steps[i].op).Pass?
  {
    RunSteps(fsys, RegisterSteps(repo, wt, branch, TwoUp))
  }

  function Dots(n: nat): (r: seq<string>)
    ensures |r| == n && forall i :: 0 <= i < n ==> r[i] == ".."
  {
    seq(n, _ => "..")
  }

  /** `..` repeated `n` times, joined with `/`. */
  function Up(n: nat): string {
    Join(Dots(n), "/")
  }

  /** The `commondir` contents that lead from the metadata directory of `name` back
      to `.git`: one level up per segment of the name and one for `worktrees`. */
  function CommonDirFor(name: string): string {
    Up(|Split(name, '/')| + 1) + "\n"
  }

  /** The registration with `commondir` matched to the depth of the metadata
      directory. */
  function Register(fsys: FileSys, repo: string, wt: string, branch: string): (r: (seq<FileOp>, Outcome))
    ensures var steps := RegisterSteps(repo, wt, branch, CommonDirFor(branch));
      r.1.Pass? <==> forall i :: 0 <= i < 6 ==> fsys(steps[i].op).Pass?
  {
    RunSteps(fsys, RegisterSteps(repo, wt, branch, CommonDirFor(branch)))
  }

  lemma UpTwo()
    ensures Up(2) + "\n" == TwoUp
  {
    var d := Dots(2);
    assert d == ["..", ".."];
    assert d[1..] == [".."];
    assert Up(2) == ".." + "/" + "..";
  }

  /** For a branch name without `/` the correction changes nothing. */
  lemma RegisterSingleSegment(fsys: FileSys, repo: string, wt: string, branch: string)
    requires '/' !in branch
    ensures Register(fsys, repo, wt, branch) == RegisterAsWritten(fsys, repo, wt, branch)
  {
    SplitNoSeparator(branch, '/');
    UpTwo();
    assert CommonDirFor(branch) == TwoUp;
  }

  // ---------------------------------------------------------------------------
  // The files a run leaves, and how git reads a linked worktree.

  type Files = map<string, string>

  /** `p` is `dir` or lies below it. */
  predicate Within(p: string, dir: string) {
    p == dir || HasPrefix(p, dir + "/")
  }

  function Apply(files: Files, op: FileOp): (r: Files)
    ensures op.WriteFile? ==> r == files[op.path := op.data]
    ensures op.RemoveAll? ==> forall k :: k in r <==> k in files && !Within(k, op.path)
    ensures forall k :: k in r && k in files && !(op.WriteFile? && k == op.path) ==> r[k] == files[k]
  {
    match op
    case MkdirAll(_, _) => files
    case WriteFile(p, d, _) => files[p := d]
    case RemoveAll(p) => map k | k in files && !Within(k, p) :: files[k]
  }

  function ApplyAll(files: Files, ops: seq<FileOp>): Files
    decreases |ops|
  {
    if |ops| == 0 then files else ApplyAll(Apply(files, ops[0]), ops[1..])
  }

  /** A path given as segments, followed by a relative path: `..` goes one level
      up, `.` and empty segments stay, any other segment goes one level down. */
  function Resolve(base: seq<string>, rel: seq<string>): seq<string>
    decreases |rel|
  {
    if |rel| == 0 then base
    else if rel[0] == ".." then Resolve(if |base| > 0 then base[..|base| - 1] else base, rel[1..])
    else if rel[0] == "." || rel[0] == "" then Resolve(base, rel[1..])
    else Resolve(base + [rel[0]], rel[1..])
  }

  /** What git finds from a worktree: the metadata directory its `.git` file names,
      the ref in that directory's `HEAD`, the common directory (as path segments)
      its `commondir` leads to, and the path its `gitdir` points back at. */
  datatype Link = Link(meta: string, head: string, common: seq<string>, back: string)

  function ReadLink(files: Files, wt: string): Option<Link> {
    var g := GitFile(wt);
    if g !in files || !HasPrefix(files[g], "gitdir: ") then None
    else
      var meta := TrimSuffix(TrimPrefix(files[g], "gitdir: "), "\n");
      var head, common, back := Slash(meta, "HEAD"), Slash(meta, "commondir"), Slash(meta, "gitdir");
      if head !in files || common !in files || back !in files || !HasPrefix(files[head], "ref: ") then None
      else
        Some(Link(meta, TrimSuffix(TrimPrefix(files[head], "ref: "), "\n"),
                  Resolve(Split(meta, '/'), Split(TrimSuffix(files[common], "\n"), '/')),
                  TrimSuffix(files[back], "\n")))
  }

  /** A branch name as `git check-ref-format` admits it, as far as the path goes:
      no empty, `.` or `..` segment. */
  predicate CleanName(name: string) {
    var segs := Split(name, '/');
    forall i :: 0 <= i < |segs| ==> segs[i] != "" && segs[i] != "." && segs[i] != ".."
  }

  /** The metadata files do not lie inside the worktree's `.git`, which the
      registration removes. */
  predicate MetaOutside(repo: string, wt: string, name: string) {
    var meta := MetaDir(repo, name);
    !Within(Slash(meta, "HEAD"), GitFile(wt)) && !Within(Slash(meta, "commondir"), GitFile(wt))
    && !Within(Slash(meta, "gitdir"), GitFile(wt))
  }

  lemma TrimBoth(tag: string, x: string, tail: string)
    ensures HasPrefix(tag + x + tail, tag)
    ensures TrimSuffix(TrimPrefix(tag + x + tail, tag), tail) == x
  {
    assert (tag + x + tail)[..|tag|] == tag;
    assert (tag + x + tail)[|tag|..] == x + tail;
    assert (x + tail)[|x + tail| - |tail|..] == tail;
    assert (x + tail)[..|x + tail| - |tail|] == x;
  }

  lemma TrimNewline(x: string)
    ensures TrimSuffix(x + "\n", "\n") == x
  {
    TrimBoth("", x, "\n");
    assert "" + x + "\n" == x + "\n";
  }

  lemma ApplySix(files: Files, ops: seq<FileOp>)
    requires |ops| == 6
    ensures ApplyAll(files, ops)
         == Apply(Apply(Apply(Apply(Apply(Apply(files, ops[0]), ops[1]), ops[2]), ops[3]), ops[4]), ops[5])
  {
    var f1 := Apply(files, ops[0]);
    var f2 := Apply(f1, ops[1]);
    var f3 := Apply(f2, ops[2]);
    var f4 := Apply(f3, ops[3]);
    var f5 := Apply(f4, ops[4]);
    var t1 := ops[1..];
    var t2 := t1[1..];
    var t3 := t2[1..];
    var t4 := t3[1..];
    var t5 := t4[1..];
    assert t5 == [ops[5]] && t5[1..] == [];
    assert ApplyAll(f5, t5) == Apply(f5, ops[5]);
    assert ApplyAll(f4, t4) == ApplyAll(f5, t5);
    assert ApplyAll(f3, t3) == ApplyAll(f4, t4);
    assert ApplyAll(f2, t2) == ApplyAll(f3, t3);
    assert ApplyAll(f1, t1) == ApplyAll(f2, t2);
  }

  /** The files a successful registration leaves, whatever was there before. */
  lemma RegisteredFiles(files: Files, repo: string, wt: string, branch: string, commondir: string)
    requires MetaOutside(repo, wt, branch)
    ensures var meta := MetaDir(repo, branch);
      var after := ApplyAll(files, Ops(RegisterSteps(repo, wt, branch, commondir)));
      GitFile(wt) in after && after[GitFile(wt)] == GitFileContents(meta)
      && Slash(meta, "HEAD") in after && after[Slash(meta, "HEAD")] == HeadFile(branch)
      && Slash(meta, "commondir") in after && after[Slash(meta, "commondir")] == commondir
      && Slash(meta, "gitdir") in after && after[Slash(meta, "gitdir")] == GitFile(wt) + "\n"
  {
    var meta := MetaDir(repo, branch);
    var ops := Ops(RegisterSteps(repo, wt, branch, commondir));
    ApplySix(files, ops);
    var f4 := Apply(Apply(Apply(Apply(files, ops[0]), ops[1]), ops[2]), ops[3]);
    var h, c, g := Slash(meta, "HEAD"), Slash(meta, "commondir"), Slash(meta, "gitdir");
    assert |h| != |c| && |h| != |g| && |c| != |g|;
    assert h in f4 && f4[h] == HeadFile(branch);
    assert c in f4 && f4[c] == commondir;
    assert g in f4 && f4[g] == GitFile(wt) + "\n";
  }

  lemma {:induction false} UpSplit(n: nat)
    ensures Split(Up(n), '/') == (if n == 0 then [[]] else Dots(n))
  {
    if n > 0 {
      assert '/' !in "..";
      SplitJoin(Dots(n), '/');
    }
  }

  lemma {:induction false} ResolveDots(x: seq<string>, y: seq<string>)
    ensures Resolve(x + y, Dots(|y|)) == x
    decreases |y|
  {
    if |y| == 0 {
      assert x + y == x;
    } else {
      var d := Dots(|y|);
      assert d[1..] == Dots(|y| - 1);
      assert (x + y)[..|x + y| - 1] == x + y[..|y| - 1];
      ResolveDots(x, y[..|y| - 1]);
    }
  }

  lemma {:induction false} ResolveDotsShort(x: seq<string>, n: nat)
    requires n <= |x|
    ensures Resolve(x, Dots(n)) == x[..|x| - n]
    decreases n
  {
    if n == 0 {
      assert x[..|x|] == x;
    } else {
      assert Dots(n)[1..] == Dots(n - 1);
      ResolveDotsShort(x[..|x| - 1], n - 1);
      assert x[..|x| - 1][..|x| - 1 - (n - 1)] == x[..|x| - n];
    }
  }

  lemma SplitSlash(a: string, b: string)
    ensures Split(Slash(a, b), '/') == Split(a, '/') + Split(b, '/')
  {
    assert Slash(a, b) == a + ['/'] + b;
    SplitAppend(a, '/', b);
  }

  lemma SegmentsOf(repo: string, a: string, b: string, name: string)
    requires '/' !in a && '/' !in b
    ensures Split(Slash(Slash(Slash(repo, a), b), name), '/') == Split(repo, '/') + [a] + ([b] + Split(name, '/'))
    ensures Split(Slash(repo, a), '/') == Split(repo, '/') + [a]
  {
    var g := Slash(repo, a);
    var w := Slash(g, b);
    SplitOne(repo, a);
    SplitOne(g, b);
    SplitSlash(w, name);
    Regroup(Split(repo, '/'), a, b, Split(name, '/'));
  }

  lemma SplitOne(x: string, a: string)
    requires '/' !in a
    ensures Split(Slash(x, a), '/') == Split(x, '/') + [a]
  {
    SplitNoSeparator(a, '/');
    SplitSlash(x, a);
  }

  lemma Regroup(r: seq<string>, a: string, b: string, n: seq<string>)
    ensures r + [a] + [b] + n == r + [a] + ([b] + n)
  {
  }

  /** The metadata directory and the repository's `.git`, as segments. */
  lemma MetaSegments(repo: string, name: string)
    ensures Split(MetaDir(repo, name), '/') == Split(repo, '/') + [".git"] + (["worktrees"] + Split(name, '/'))
    ensures Split(Slash(repo, ".git"), '/') == Split(repo, '/') + [".git"]
  {
    SegmentsOf(repo, ".git", "worktrees", name);
  }

  /** A file outside the worktree's `.git` that the registration does not write keeps
      whatever it held, or its absence. */
  lemma RegistrationKeeps(files: Files, repo: string, wt: string, branch: string, commondir: string, k: string)
    requires !Within(k, GitFile(wt))
    requires var meta := MetaDir(repo, branch);
      k != Slash(meta, "HEAD") && k != Slash(meta, "commondir") && k != Slash(meta, "gitdir")
    ensures var after := ApplyAll(files, Ops(RegisterSteps(repo, wt, branch, commondir)));
      (k in after <==> k in files) && (k in files ==> after[k] == files[k])
  {
    ApplySix(files, Ops(RegisterSteps(repo, wt, branch, commondir)));
  }

  /** Whatever lay inside the worktree's `.git` directory is gone after the
      registration. */
  lemma RegistrationDrops(files: Files, repo: string, wt: string, branch: string, commondir: string, k: string)
    requires Within(k, GitFile(wt)) && k != GitFile(wt)
    ensures k !in ApplyAll(files, Ops(RegisterSteps(repo, wt, branch, commondir)))
  {
    ApplySix(files, Ops(RegisterSteps(repo, wt, branch, commondir)));
  }

  /** The loose ref file of a branch under the `.git` directory of `dir`. */
  function RefFile(dir: string, b: string): string {
    Slash(GitFile(dir), Ref(b))
  }

  /** A file of the metadata directory is never the repository's ref file: one lies
      under `.git/worktrees`, the other under `.git/refs`. */
  lemma MetaNotRef(repo: string, branch: string, name: string)
    ensures Slash(MetaDir(repo, branch), name) != RefFile(repo, branch)
  {
    var k := |repo| + 6;
    assert Slash(MetaDir(repo, branch), name) == repo + "/.git/" + ("worktrees/" + branch + "/" + name);
    assert RefFile(repo, branch) == repo + "/.git/" + ("refs/heads/" + branch);
    assert Slash(MetaDir(repo, branch), name)[k] == 'w';
    assert RefFile(repo, branch)[k] == 'r';
  }

  /** A path below `dir/` lies within `dir`. */
  lemma Below(dir: string, rest: string)
    ensures Within(Slash(dir, rest), dir) && Slash(dir, rest) != dir
  {
    assert (dir + "/" + rest)[..|dir + "/"|] == dir + "/";
  }

  /** What git reads after a successful registration with a given `commondir`. */
  lemma ReadRegistered(files: Files, repo: string, wt: string, branch: string, commondir: string)
    requires MetaOutside(repo, wt, branch)
    ensures var meta := MetaDir(repo, branch);
      ReadLink(ApplyAll(files, Ops(RegisterSteps(repo, wt, branch, commondir))), wt)
      == Some(Link(meta, Ref(branch), Resolve(Split(meta, '/'), Split(TrimSuffix(commondir, "\n"), '/')), GitFile(wt)))
  {
    var meta := MetaDir(repo, branch);
    RegisteredFiles(files, repo, wt, branch, commondir);
    TrimBoth("gitdir: ", meta, "\n");
    TrimBoth("ref: ", Ref(branch), "\n");
    TrimNewline(GitFile(wt));
  }

  /** Git reads the corrected registration back as it was meant: the worktree's
      `.git` names the metadata directory, whose `HEAD` is the branch, whose
      `commondir` leads to the repository's `.git` and whose `gitdir` points back at
      the worktree. */
  lemma RegisterLinks(fsys: FileSys, files: Files, repo: string, wt: string, branch: string)
    requires CleanName(branch) && MetaOutside(repo, wt, branch)
    requires Register(fsys, repo, wt, branch).1.Pass?
    ensures ReadLink(ApplyAll(files, Register(fsys, repo, wt, branch).0), wt)
         == Some(Link(MetaDir(repo, branch), Ref(branch), Split(Slash(repo, ".git"), '/'), GitFile(wt)))
  {
    var n := |Split(branch, '/')|;
    ReadRegistered(files, repo, wt, branch, CommonDirFor(branch));
    TrimNewline(Up(n + 1));
    UpSplit(n + 1);
    MetaSegments(repo, branch);
    ResolveDots(Split(repo, '/') + [".git"], ["worktrees"] + Split(branch, '/'));
  }

  /** The version as written leads git to the repository's `.git` exactly when the
      branch name has a single segment; for `feature/x` it leads to
      `.git/worktrees`. */
  lemma AsWrittenCommonDirIff(fsys: FileSys, files: Files, repo: string, wt: string, branch: string)
    requires MetaOutside(repo, wt, branch)
    requires RegisterAsWritten(fsys, repo, wt, branch).1.Pass?
    ensures var link := ReadLink(ApplyAll(files, RegisterAsWritten(fsys, repo, wt, branch).0), wt);
      link.Some? && (link.value.common == Split(Slash(repo, ".git"), '/') <==> '/' !in branch)
  {
    ReadRegistered(files, repo, wt, branch, TwoUp);
    UpTwo();
    TrimNewline(Up(2));
    UpSplit(2);
    MetaSegments(repo, branch);
    var segs := Split(repo, '/') + [".git"] + (["worktrees"] + Split(branch, '/'));
    ResolveDotsShort(segs, 2);
    var n := |Split(branch, '/')|;
    assert '/' !in branch <==> n == 1 by {
      assert n == multiset(branch)['/'] + 1;
    }
    if n == 1 {
      assert segs[..|segs| - 2] == Split(repo, '/') + [".git"];
    }
  }

  lemma Apart(p: string, dir: string)
    requires |p| > 1 && |dir| > 1 && p[1] != dir[1]
    ensures !Within(p, dir)
  {
  }

  /** A branch name with more than one segment: the version as written points
      `commondir` at `.git/worktrees` or below instead of `.git`, the corrected one at
      `.git`. */
  lemma NestedBranchMisplaces(fsys: FileSys, repo: string, wt: string, branch: string)
    requires forall op :: fsys(op) == Pass
    requires MetaOutside(repo, wt, branch) && CleanName(branch) && '/' in branch
    ensures var asWritten := ReadLink(ApplyAll(map[], RegisterAsWritten(fsys, repo, wt, branch).0), wt);
      asWritten.Some? && asWritten.value.common != Split(Slash(repo, ".git"), '/')
    ensures var corrected := ReadLink(ApplyAll(map[], Register(fsys, repo, wt, branch).0), wt);
      corrected.Some? && corrected.value.common == Split(Slash(repo, ".git"), '/')
  {
    AllPass(fsys, RegisterSteps(repo, wt, branch, TwoUp));
    AllPass(fsys, RegisterSteps(repo, wt, branch, CommonDirFor(branch)));
    AsWrittenCommonDirIff(fsys, map[], repo, wt, branch);
    RegisterLinks(fsys, map[], repo, wt, branch);
  }

  lemma TwoSegments(prefix: string, name: string)
    requires prefix != "" && '/' !in prefix && prefix != "." && prefix != ".."
    requires name != "" && '/' !in name && name != "." && name != ".."
    ensures '/' in prefix + "/" + name && CleanName(prefix + "/" + name)
  {
    var branch := prefix + "/" + name;
    assert branch == prefix + ['/'] + name;
    assert branch[|prefix|] == '/';
    SplitNoSeparator(prefix, '/');
    SplitNoSeparator(name, '/');
    SplitAppend(prefix, '/', name);
    assert Split(branch, '/') == [prefix, name];
  }

  /** `cow/feature` registered for `/tmp/wt` in `/repo` with every file operation
      succeeding. */
  lemma PrefixedBranchMisplacesCommonDir(fsys: FileSys)
    requires forall op :: fsys(op) == Pass
    ensures var asWritten := ReadLink(ApplyAll(map[], RegisterAsWritten(fsys, "/repo", "/tmp/wt", "cow/feature").0), "/tmp/wt");
      asWritten.Some? && asWritten.value.common != Split(Slash("/repo", ".git"), '/')
    ensures var corrected := ReadLink(ApplyAll(map[], Register(fsys, "/repo", "/tmp/wt", "cow/feature").0), "/tmp/wt");
      corrected.Some? && corrected.value.common == Split(Slash("/repo", ".git"), '/')
  {
    var meta := MetaDir("/repo", "cow/feature");
    assert meta[1] == 'r';
    assert GitFile("/tmp/wt")[1] == 't';
    Apart(Slash(meta, "HEAD"), GitFile("/tmp/wt"));
    Apart(Slash(meta, "commondir"), GitFile("/tmp/wt"));
    Apart(Slash(meta, "gitdir"), GitFile("/tmp/wt"));
    assert "cow/feature" == "cow" + "/" + "feature";
    TwoSegments("cow", "feature");
    NestedBranchMisplaces(fsys, "/repo", "/tmp/wt", "cow/feature");
  }
}

=== FILE: rewrite.dfy ===
/** The path rewriter: after a clone, every file of the destination that the source's
    `.gitignore` matches and that is text has each occurrence of the source directory's
    bytes replaced by the destination directory's bytes (pkg/cowgit/pathrewrite.go,
    `rewriteAbsolutePathsAsync`, and the `WorkerPool` of pkg/cowgit/adaptive_pool.go).

    The workers are run one file at a time in walk order. A worker whose write fails
    sends the error if the one-slot error channel is still empty and then exits, so a
    run keeps the first error and stops handing out files once every worker is gone. */
module Rewrite {
  import opened Wrappers
  import opened Seqs
  import opened Utf8
  import opened TextClass
  import opened GitIgnore
  import opened FileTree

  /** What happens to one walked file. */
  datatype Decision =
    | RelFailed
    | NoMatch
    | ReadFailed
    | Binary
    | Unchanged
    | Rewrite(updated: seq<byte>)

  /** The per-file decision of `processFile` and of the rewrite workers: `rel` is what
      `filepath.Rel` gave, `content` what `os.ReadFile` gave. A file is rewritten exactly
      when it is matched, readable and text, the two directories differ and the content
      holds the source directory. */
  function Decide(g: GitIgnore, src: seq<byte>, dst: seq<byte>, rel: Option<string>,
                  content: Option<seq<byte>>): (d: Decision)
    ensures d.Rewrite? <==>
      rel.Some? && Match(g, rel.value) && content.Some? && IsValidText(content.value)
      && src != dst && Contains(content.value, src)
    ensures d.Rewrite? ==> d.updated == ReplaceAll(content.value, src, dst) && d.updated != content.value
    ensures d == NoMatch <==> rel.Some? && !Match(g, rel.value)
    ensures d == Binary <==> rel.Some? && Match(g, rel.value) && content.Some? && !IsValidText(content.value)
  {
    if rel.None? then RelFailed
    else if !Match(g, rel.value) then NoMatch
    else if content.None? then ReadFailed
    else if !IsValidText(content.value) then Binary
    else
      var updated := ReplaceAll(content.value, src, dst);
      ReplaceAllUnchangedIff(content.value, src, dst);
      if updated != content.value then Rewrite(updated) else Unchanged
  }

  /** An unmatched path is decided before the file is read: its content plays no part. */
  lemma NoMatchIgnoresContent(g: GitIgnore, src: seq<byte>, dst: seq<byte>, rel: string,
                              c1: Option<seq<byte>>, c2: Option<seq<byte>>)
    requires !Match(g, rel)
    ensures Decide(g, src, dst, Some(rel), c1) == Decide(g, src, dst, Some(rel), c2) == NoMatch
  {
  }

  /** The counters of a `WorkerPool`. */
  datatype Stats = Stats(processed: nat, matches: nat, text: nat, modified: nat,
                         binary: nat, noMatch: nat)

  const NoStats := Stats(0, 0, 0, 0, 0, 0)

  /** Text and binary files are among the matched ones; modified files are text files. */
  predicate Consistent(s: Stats) {
    s.text + s.binary <= s.matches && s.modified <= s.text
  }

  /** The number of files a run of the counters has decided. */
  function Decided(s: Stats): nat {
    s.matches + s.noMatch
  }

  /** The counters `processFile` bumps for a decision. */
  function Tally(s: Stats, d: Decision): (r: Stats)
    ensures Consistent(s) ==> Consistent(r)
    ensures r.processed == s.processed
    ensures Decided(r) == Decided(s) + (if d.RelFailed? then 0 else 1)
    ensures r.modified == s.modified + (if d.Rewrite? then 1 else 0)
  {
    match d
    case RelFailed => s
    case NoMatch => s.(noMatch := s.noMatch + 1)
    case ReadFailed => s.(matches := s.matches + 1)
    case Binary => s.(matches := s.matches + 1, binary := s.binary + 1)
    case Unchanged => s.(matches := s.matches + 1, text := s.text + 1)
    case Rewrite(_) => s.(matches := s.matches + 1, text := s.text + 1, modified := s.modified + 1)
  }

  /** What `processFile` leaves behind: the counters, the bytes it writes and its error. */
  datatype FileResult = FileResult(stats: Stats, written: Option<seq<byte>>, outcome: Outcome)

  /** `WorkerPool.processFile` followed by the worker's own bookkeeping: `write` is what
      `os.WriteFile` would return. Only a rewrite writes, only a failed write is an
      error, and a file counts as processed exactly when no error comes back. */
  function ProcessFile(g: GitIgnore, src: seq<byte>, dst: seq<byte>, rel: Option<string>,
                       content: Option<seq<byte>>, write: Outcome, s: Stats): (r: FileResult)
    ensures r.written.Some? <==> Decide(g, src, dst, rel, content).Rewrite?
    ensures r.written.Some? ==> r.written.value == ReplaceAll(content.value, src, dst)
    ensures r.outcome.Fail? <==> r.written.Some? && write.Fail?
    ensures r.outcome.Fail? ==> r.outcome == write
    ensures r.stats.processed == s.processed + (if r.outcome.Pass? then 1 else 0)
    ensures Consistent(s) ==> Consistent(r.stats)
  {
    var d := Decide(g, src, dst, rel, content);
    var t := Tally(s, d);
    if d.Rewrite? && write.Fail? then FileResult(t, Some(d.updated), write)
    else
      FileResult(t.(processed := t.processed + 1),
                 if d.Rewrite? then Some(d.updated) else None, Pass)
  }

  /** Where `os.ReadFile` and `os.WriteFile` on a walked entry land: a regular file of
      the destination, or somewhere else. */
  datatype Landing = InTree(at: Path) | Outside

  /** The environment of a rewrite pass.
      - `resolve`: where the operating system arrives when it follows a symlink of the
        destination (its target taken from the link's directory, through any further
        links), when that is a path of the destination;
      - `follow`: what `os.ReadFile` yields for an entry that does not land on a regular
        file of the destination: a link leading out of it, a dangling link, a special
        file;
      - `write`: what each `os.WriteFile` returns;
      - `torn`: how many bytes of the new contents a failed write leaves behind, or
        `None` when it failed before truncating the file. */
  datatype Env = Env(resolve: Path -> Option<Path>, follow: Path -> Option<seq<byte>>,
                     write: Path -> Outcome, torn: Path -> Option<nat>)

  /** `filepath.Rel(dst, path)` for a path below the destination. */
  function Rel(p: Path): string {
    Join(p, "/")
  }

  /** Both calls follow symlinks: a regular file is itself, a link that resolves to a
      regular file of the destination is that file, anything else lies outside. */
  function Land(fs: FS, env: Env, p: Path): (l: Landing)
    requires p in fs
    ensures l.InTree? ==> l.at in fs && fs[l.at].FileItem?
    ensures l == InTree(p) <==> fs[p].FileItem?
    ensures l.InTree? && l.at != p ==> fs[p].LinkItem? && env.resolve(p) == Some(l.at)
  {
    if fs[p].FileItem? then InTree(p)
    else if fs[p].LinkItem? && env.resolve(p).Some? && env.resolve(p).value in fs
            && fs[env.resolve(p).value].FileItem? then InTree(env.resolve(p).value)
    else Outside
  }

  function ReadFile(fs: FS, env: Env, p: Path): Option<seq<byte>>
    requires p in fs
  {
    match Land(fs, env, p)
    case InTree(q) => Some(fs[q].data)
    case Outside => env.follow(p)
  }

  /** A write to a regular file replaces its bytes and keeps its mode (`os.WriteFile`'s
      `0644` only applies to a file it creates). */
  function Store(fs: FS, q: Path, data: seq<byte>): (r: FS)
    requires q in fs && fs[q].FileItem?
    ensures r.Keys == fs.Keys
    ensures r[q] == FileItem(fs[q].mode, data)
    ensures forall x :: x in fs && x != q ==> r[x] == fs[x]
  {
    fs[q := FileItem(fs[q].mode, data)]
  }

  /** The first `n` bytes of `data`, all of it when it is shorter. */
  function Torn(data: seq<byte>, n: nat): (r: seq<byte>)
    ensures HasPrefix(data, r) && |r| == if n < |data| then n else |data|
  {
    if n < |data| then data[..n] else data
  }

  /** Which walked entries reach the workers: every entry that is not a directory
      (symlinks and special files included), or regular files only. */
  datatype Feed = NonDirectories | RegularFiles

  predicate Handed(feed: Feed, it: Item) {
    match feed
    case NonDirectories => !it.DirItem?
    case RegularFiles => it.FileItem?
  }

  /** Two items that differ at most in a regular file's bytes. */
  predicate SameShape(a: Item, b: Item) {
    a == b || (a.FileItem? && b.FileItem? && a.mode == b.mode)
  }

  /** The state of a pass: the destination, the counters, the workers still running,
      the first error sent, and the entries through which a write went outside the
      destination. */
  datatype RunState = RunState(fs: FS, stats: Stats, alive: nat, err: Option<string>, escaped: seq<Path>)

  /** One walked path. Directories are never handed out; once every worker has exited,
      nothing more is processed. A failed write leaves the file torn when it got past
      truncating it, and the worker exits. */
  function Step(g: GitIgnore, src: seq<byte>, dst: seq<byte>, env: Env, feed: Feed, s: RunState, p: Path)
    : (r: RunState)
    requires p in s.fs
    ensures r.fs.Keys == s.fs.Keys
    ensures Consistent(s.stats) ==> Consistent(r.stats)
    ensures r.alive == s.alive || (r.alive == s.alive - 1 && r.err.Some?)
    ensures s.err.Some? ==> r.err == s.err
    ensures forall q :: q in s.fs ==> SameShape(s.fs[q], r.fs[q])
    ensures r.escaped == s.escaped
            || (r.escaped == s.escaped + [p] && !s.fs[p].FileItem? && Match(g, Rel(p)))
    ensures feed == RegularFiles ==>
      r.escaped == s.escaped && forall q :: q in s.fs && q != p ==> r.fs[q] == s.fs[q]
  {
    if s.alive == 0 || !Handed(feed, s.fs[p]) then s
    else
      var l := Land(s.fs, env, p);
      var f := ProcessFile(g, src, dst, Some(Rel(p)), ReadFile(s.fs, env, p), env.write(p), s.stats);
      var escaped := if f.written.Some? && l.Outside? then s.escaped + [p] else s.escaped;
      if f.outcome.Fail? then
        var fs := if l.InTree? && env.torn(p).Some? then Store(s.fs, l.at, Torn(f.written.value, env.torn(p).value))
                  else s.fs;
        RunState(fs, f.stats, s.alive - 1, if s.err.None? then Some(f.outcome.msg) else s.err, escaped)
      else
        var fs := if f.written.Some? && l.InTree? then Store(s.fs, l.at, f.written.value) else s.fs;
        RunState(fs, f.stats, s.alive, s.err, escaped)
  }

  /** The paths of `ps` handed out in order. */
  function Run(g: GitIgnore, src: seq<byte>, dst: seq<byte>, env: Env, feed: Feed, s: RunState, ps: seq<Path>)
    : (r: RunState)
    requires forall i :: 0 <= i < |ps| ==> ps[i] in s.fs
    ensures r.fs.Keys == s.fs.Keys
    ensures Consistent(s.stats) ==> Consistent(r.stats)
    ensures r.alive <= s.alive
    ensures r.err.None? ==> r.alive == s.alive
    ensures s.err.Some? ==> r.err == s.err
    ensures forall q :: q in s.fs ==> SameShape(s.fs[q], r.fs[q])
    ensures HasPrefix(r.escaped, s.escaped)
    ensures forall i :: |s.escaped| <= i < |r.escaped| ==>
      r.escaped[i] in s.fs && !s.fs[r.escaped[i]].FileItem? && Match(g, Rel(r.escaped[i]))
    ensures feed == RegularFiles ==> r.escaped == s.escaped
    decreases |ps|
  {
    if |ps| == 0 then s
    else
      var m := Run(g, src, dst, env, feed, s, ps[..|ps| - 1]);
      var r := Step(g, src, dst, env, feed, m, ps[|ps| - 1]);
      assert ps[|ps| - 1] in s.fs && (m.fs[ps[|ps| - 1]].FileItem? <==> s.fs[ps[|ps| - 1]].FileItem?);
      r
  }

  /** What a pass that meets no write error makes of one item. */
  function RewriteItem(g: GitIgnore, src: seq<byte>, dst: seq<byte>, p: Path, it: Item): (r: Item)
    ensures r != it ==> it.FileItem? && r == FileItem(it.mode, ReplaceAll(it.data, src, dst))
    ensures r != it <==>
      it.FileItem? && Match(g, Rel(p)) && IsValidText(it.data) && src != dst && Contains(it.data, src)
  {
    if it.FileItem? then
      var d := Decide(g, src, dst, Some(Rel(p)), Some(it.data));
      if d.Rewrite? then FileItem(it.mode, d.updated) else it
    else it
  }

  /** `now` is what a failed write of `full` may leave: a regular file with the same
      mode holding a prefix of the new contents. */
  predicate TornFrom(full: Item, now: Item) {
    full.FileItem? && now.FileItem? && now.mode == full.mode && HasPrefix(full.data, now.data)
  }

  /** What a pass may leave of the item `it` at `q`: untouched, rewritten, or torn by a
      failed write. */
  predicate Settled(g: GitIgnore, src: seq<byte>, dst: seq<byte>, env: Env, q: Path, it: Item, now: Item) {
    now == it || now == RewriteItem(g, src, dst, q, it)
    || (env.write(q).Fail? && TornFrom(RewriteItem(g, src, dst, q, it), now))
  }

  /** The destination after the first `k` paths of `ps`, when no write fails. */
  function RewrittenUpTo(g: GitIgnore, src: seq<byte>, dst: seq<byte>, fs: FS, ps: seq<Path>, k: nat): (r: FS)
    requires k <= |ps|
    ensures r.Keys == fs.Keys
  {
    map p | p in fs :: if p in ps[..k] then RewriteItem(g, src, dst, p, fs[p]) else fs[p]
  }

  /** With regular files only, one step changes at most the path's own item, and
      leaves it untouched, rewritten as `RewriteItem` says or torn; with a successful
      write and a worker left, it is rewritten. */
  lemma StepRewrites(g: GitIgnore, src: seq<byte>, dst: seq<byte>, env: Env, m: RunState, p: Path)
    requires p in m.fs
    ensures var r := Step(g, src, dst, env, RegularFiles, m, p);
      r.fs == m.fs[p := r.fs[p]] && Settled(g, src, dst, env, p, m.fs[p], r.fs[p])
    ensures m.alive > 0 && env.write(p) == Pass ==>
      var r := Step(g, src, dst, env, RegularFiles, m, p);
      r.fs == m.fs[p := RewriteItem(g, src, dst, p, m.fs[p])] && r.alive == m.alive && r.err == m.err
  {
    var it := m.fs[p];
    var r := Step(g, src, dst, env, RegularFiles, m, p);
    assert r.fs == m.fs[p := r.fs[p]];
    if m.alive > 0 && it.FileItem? {
      assert Land(m.fs, env, p) == InTree(p);
      assert ReadFile(m.fs, env, p) == Some(it.data);
    } else {
      assert r.fs[p] == it;
    }
    if !it.FileItem? {
      assert m.fs[p := it] == m.fs;
    }
  }

  /** With regular files only and every write succeeding, the first `k` distinct paths
      are rewritten as `RewriteItem` says and everything else is untouched. */
  lemma {:induction false} RunAllWritesSucceed(g: GitIgnore, src: seq<byte>, dst: seq<byte>, env: Env,
                                                s: RunState, ps: seq<Path>, k: nat)
    requires forall q :: env.write(q) == Pass
    requires NoDuplicates(ps) && forall i :: 0 <= i < |ps| ==> ps[i] in s.fs
    requires s.alive > 0 && k <= |ps|
    ensures Run(g, src, dst, env, RegularFiles, s, ps[..k]).fs == RewrittenUpTo(g, src, dst, s.fs, ps, k)
    ensures Run(g, src, dst, env, RegularFiles, s, ps[..k]).alive == s.alive
    ensures Run(g, src, dst, env, RegularFiles, s, ps[..k]).err == s.err
    decreases k
  {
    if k > 0 {
      var p := ps[k - 1];
      RunAllWritesSucceed(g, src, dst, env, s, ps, k - 1);
      var m := Run(g, src, dst, env, RegularFiles, s, ps[..k - 1]);
      RunLast(g, src, dst, env, RegularFiles, s, ps, k);
      LastIsNew(ps, k);
      StepRewrites(g, src, dst, env, m, p);
      UpToStep(g, src, dst, s.fs, ps, k);
    }
  }

  /** Running the first `k` paths is running the first `k - 1`, then one step. */
  lemma RunLast(g: GitIgnore, src: seq<byte>, dst: seq<byte>, env: Env, feed: Feed, s: RunState, ps: seq<Path>, k: nat)
    requires forall i :: 0 <= i < |ps| ==> ps[i] in s.fs
    requires 0 < k <= |ps|
    ensures ps[k - 1] in Run(g, src, dst, env, feed, s, ps[..k - 1]).fs
    ensures Run(g, src, dst, env, feed, s, ps[..k])
         == Step(g, src, dst, env, feed, Run(g, src, dst, env, feed, s, ps[..k - 1]), ps[k - 1])
  {
    assert ps[..k][..k - 1] == ps[..k - 1] && ps[..k][k - 1] == ps[k - 1];
  }

  /** In a sequence without duplicates, the `k`-th path is not among the earlier ones. */
  lemma LastIsNew(ps: seq<Path>, k: nat)
    requires NoDuplicates(ps) && 0 < k <= |ps|
    ensures ps[k - 1] !in ps[..k - 1]
  {
    var pre := ps[..k - 1];
    forall i | 0 <= i < |pre| ensures pre[i] != ps[k - 1] {
      assert pre[i] == ps[i];
    }
  }

  /** Rewriting the `k`-th path on top of the first `k - 1` gives the first `k`. */
  lemma UpToStep(g: GitIgnore, src: seq<byte>, dst: seq<byte>, fs: FS, ps: seq<Path>, k: nat)
    requires 0 < k <= |ps| && ps[k - 1] in fs && ps[k - 1] !in ps[..k - 1]
    ensures var m := RewrittenUpTo(g, src, dst, fs, ps, k - 1);
      m[ps[k - 1] := RewriteItem(g, src, dst, ps[k - 1], m[ps[k - 1]])] == RewrittenUpTo(g, src, dst, fs, ps, k)
  {
    var p := ps[k - 1];
    var m := RewrittenUpTo(g, src, dst, fs, ps, k - 1);
    var want := RewrittenUpTo(g, src, dst, fs, ps, k);
    TakeLast(ps, k);
    assert m[p] == fs[p];
    forall q | q in fs ensures m[p := RewriteItem(g, src, dst, p, m[p])][q] == want[q] {
      assert q in ps[..k] <==> q in ps[..k - 1] || q == p;
    }
  }

  /** With regular files only, however the writes go, every item ends up untouched,
      rewritten once as `RewriteItem` says, or torn by its own failed write: nothing
      that is unmatched, binary or free of the source directory ever changes. */
  lemma {:induction false} RunTouchesOnlyRewritable(g: GitIgnore, src: seq<byte>, dst: seq<byte>, env: Env,
                                                    s: RunState, ps: seq<Path>, k: nat)
    requires NoDuplicates(ps) && forall i :: 0 <= i < |ps| ==> ps[i] in s.fs
    requires k <= |ps|
    ensures forall q :: q in s.fs ==>
      Settled(g, src, dst, env, q, s.fs[q], Run(g, src, dst, env, RegularFiles, s, ps[..k]).fs[q])
    ensures forall q :: q in s.fs && q !in ps[..k] ==> Run(g, src, dst, env, RegularFiles, s, ps[..k]).fs[q] == s.fs[q]
    decreases k
  {
    if k > 0 {
      var pre := ps[..k - 1];
      var p := ps[k - 1];
      RunTouchesOnlyRewritable(g, src, dst, env, s, ps, k - 1);
      var m := Run(g, src, dst, env, RegularFiles, s, pre);
      RunLast(g, src, dst, env, RegularFiles, s, ps, k);
      LastIsNew(ps, k);
      StepRewrites(g, src, dst, env, m, p);
      TakeLast(ps, k);
      TouchStep(g, src, dst, env, s.fs, m.fs, Run(g, src, dst, env, RegularFiles, s, ps[..k]).fs, p, pre);
    }
  }

  /** One more step keeps every item settled, and leaves alone everything not yet
      handed out. */
  lemma TouchStep(g: GitIgnore, src: seq<byte>, dst: seq<byte>, env: Env, fs: FS, mid: FS, next: FS,
                  p: Path, pre: seq<Path>)
    requires p in fs && p !in pre && mid.Keys == fs.Keys
    requires forall q :: q in fs ==> Settled(g, src, dst, env, q, fs[q], mid[q])
    requires forall q :: q in fs && q !in pre ==> mid[q] == fs[q]
    requires p in next && next == mid[p := next[p]] && Settled(g, src, dst, env, p, mid[p], next[p])
    ensures forall q :: q in fs ==> Settled(g, src, dst, env, q, fs[q], next[q])
    ensures forall q :: q in fs && q !in pre + [p] ==> next[q] == fs[q]
  {
    forall q | q in fs && q !in pre + [p] ensures next[q] == fs[q] {
      assert q !in pre && q != p;
    }
  }

  /** A pass over the destination `tree` with the source's `.gitignore` (when it could
      be read) and `workers` workers. */
  function RewritePass(feed: Feed, srcDir: string, dstDir: string, ignoreFile: Option<string>,
                       tree: Node, env: Env, workers: nat): (r: RunState)
    requires workers >= 1
    ensures r.fs.Keys == Flatten(tree).Keys
    ensures forall q :: q in Flatten(tree) ==> SameShape(Flatten(tree)[q], r.fs[q])
    ensures forall i :: 0 <= i < |r.escaped| ==>
      r.escaped[i] in Flatten(tree) && !Flatten(tree)[r.escaped[i]].FileItem?
      && Match(ParseGitignore(ignoreFile), Rel(r.escaped[i]))
    ensures feed == RegularFiles ==> r.escaped == []
  {
    var fs := Flatten(tree);
    var ps := Walk(tree);
    assert forall i :: 0 <= i < |ps| ==> ps[i] in fs by {
      forall i | 0 <= i < |ps| ensures ps[i] in fs {
        WalkInFlatten(tree, ps[i]);
      }
    }
    Run(ParseGitignore(ignoreFile), EncodeString(srcDir), EncodeString(dstDir), env, feed,
        RunState(fs, NoStats, workers, None, []), ps)
  }

  /** The error a pass returns: the first one sent, if any. */
  function Returned(s: RunState): Outcome {
    if s.err.Some? then Fail(s.err.value) else Pass
  }

  /** `rewriteAbsolutePathsAsync(srcDir, dstDir)` as written: every entry that is not
      a directory is handed out, and reading and writing follow symlinks. The result is
      the destination afterwards, the first write error, and the matched entries that
      are not regular files through which a write left the destination. Every item
      keeps its kind and mode. */
  function RewriteAbsolutePathsAsWritten(srcDir: string, dstDir: string, ignoreFile: Option<string>,
                                         tree: Node, env: Env, workers: nat): (r: (FS, Outcome, seq<Path>))
    requires workers >= 1
    ensures r.0.Keys == Flatten(tree).Keys
    ensures forall q :: q in Flatten(tree) ==> SameShape(Flatten(tree)[q], r.0[q])
    ensures forall i :: 0 <= i < |r.2| ==>
      r.2[i] in Flatten(tree) && !Flatten(tree)[r.2[i]].FileItem? && Match(ParseGitignore(ignoreFile), Rel(r.2[i]))
  {
    var s := RewritePass(NonDirectories, srcDir, dstDir, ignoreFile, tree, env, workers);
    (s.fs, Returned(s), s.escaped)
  }

  /** The pass with only regular files handed out: no write goes through a symlink. */
  function RewriteAbsolutePaths(srcDir: string, dstDir: string, ignoreFile: Option<string>,
                                tree: Node, env: Env, workers: nat): (r: (FS, Outcome))
    requires workers >= 1
    ensures r.0.Keys == Flatten(tree).Keys
    ensures forall q :: q in Flatten(tree) ==> SameShape(Flatten(tree)[q], r.0[q])
  {
    var s := RewritePass(RegularFiles, srcDir, dstDir, ignoreFile, tree, env, workers);
    (s.fs, Returned(s))
  }

  /** The destination a pass leaves when every write succeeds. */
  function Rewritten(srcDir: string, dstDir: string, ignoreFile: Option<string>, fs: FS): (r: FS)
    ensures r.Keys == fs.Keys
  {
    map p | p in fs :: RewriteItem(ParseGitignore(ignoreFile), EncodeString(srcDir), EncodeString(dstDir), p, fs[p])
  }

  /** When every write succeeds, the pass over regular files rewrites exactly the
      matched text files that hold the source directory, leaves everything else as it
      was, and reports no error. */
  lemma RewriteAllWritesSucceed(srcDir: string, dstDir: string, ignoreFile: Option<string>,
                                tree: Node, env: Env, workers: nat)
    requires workers >= 1 && WellFormed(tree)
    requires forall q :: env.write(q) == Pass
    ensures RewriteAbsolutePaths(srcDir, dstDir, ignoreFile, tree, env, workers)
         == (Rewritten(srcDir, dstDir, ignoreFile, Flatten(tree)), Pass)
  {
    var g := ParseGitignore(ignoreFile);
    var src, dst := EncodeString(srcDir), EncodeString(dstDir);
    var fs := Flatten(tree);
    var ps := Walk(tree);
    forall i | 0 <= i < |ps| ensures ps[i] in fs {
      WalkInFlatten(tree, ps[i]);
    }
    WalkNoDuplicates(tree);
    var s := RunState(fs, NoStats, workers, None, []);
    RunAllWritesSucceed(g, src, dst, env, s, ps, |ps|);
    assert ps[..|ps|] == ps;
    var r := Run(g, src, dst, env, RegularFiles, s, ps);
    assert r.fs == RewrittenUpTo(g, src, dst, fs, ps, |ps|) && r.err.None?;
    WalkCoversTree(tree);
    WholeWalkRewritten(g, src, dst, fs, ps);
  }

  lemma WalkCoversTree(tree: Node)
    requires WellFormed(tree)
    ensures forall p :: p in Flatten(tree) ==> p in Walk(tree)
  {
    forall p | p in Flatten(tree) ensures p in Walk(tree) {
      FlattenIsLookup(tree, p);
      WalkIsLookup(tree, p);
    }
  }

  lemma WholeWalkRewritten(g: GitIgnore, src: seq<byte>, dst: seq<byte>, fs: FS, ps: seq<Path>)
    requires forall p :: p in fs ==> p in ps
    ensures RewrittenUpTo(g, src, dst, fs, ps, |ps|) == map p | p in fs :: RewriteItem(g, src, dst, p, fs[p])
  {
    assert ps[..|ps|] == ps;
  }

  /** Whatever the writes do, every item of the destination after the pass over
      regular files is as cloned, rewritten as `Rewritten` says, or, where its own
      write failed, a torn prefix of that rewrite with the same mode. */
  lemma RewriteTouchesOnlyRewritable(srcDir: string, dstDir: string, ignoreFile: Option<string>,
                                     tree: Node, env: Env, workers: nat, p: Path)
    requires workers >= 1 && WellFormed(tree) && p in Flatten(tree)
    ensures var now := RewriteAbsolutePaths(srcDir, dstDir, ignoreFile, tree, env, workers).0[p];
      var full := Rewritten(srcDir, dstDir, ignoreFile, Flatten(tree))[p];
      now == Flatten(tree)[p] || now == full || (env.write(p).Fail? && TornFrom(full, now))
  {
    var g := ParseGitignore(ignoreFile);
    var src, dst := EncodeString(srcDir), EncodeString(dstDir);
    var fs := Flatten(tree);
    var ps := Walk(tree);
    forall i | 0 <= i < |ps| ensures ps[i] in fs {
      WalkInFlatten(tree, ps[i]);
    }
    WalkNoDuplicates(tree);
    var s := RunState(fs, NoStats, workers, None, []);
    RunTouchesOnlyRewritable(g, src, dst, env, s, ps, |ps|);
    assert ps[..|ps|] == ps;
  }

  // ---------------------------------------------------------------------------
  // Symlinks, as written.

  /** As written, a matched symlink that resolves to a regular file of the destination
      rewrites that file, whether or not the file itself is matched; with regular
      files only, the link is passed over. */
  lemma LinkWritesThrough(g: GitIgnore, src: seq<byte>, dst: seq<byte>, env: Env, s: RunState, p: Path, q: Path)
    requires p in s.fs && s.fs[p].LinkItem? && Match(g, Rel(p)) && s.alive > 0
    requires env.resolve(p) == Some(q) && q in s.fs && s.fs[q].FileItem?
    requires IsValidText(s.fs[q].data) && src != dst && Contains(s.fs[q].data, src)
    requires env.write(p) == Pass
    ensures var r := Step(g, src, dst, env, NonDirectories, s, p);
      r.fs == s.fs[q := FileItem(s.fs[q].mode, ReplaceAll(s.fs[q].data, src, dst))] && r.fs[q] != s.fs[q]
    ensures Step(g, src, dst, env, RegularFiles, s, p) == s
  {
    assert Land(s.fs, env, p) == InTree(q);
  }

  /** As written, a matched symlink that leads out of the destination (an absolute link
      copied from the source tree, say) whose target holds the source directory gets
      written: the write lands outside the worktree. With regular files only, it is
      passed over. */
  lemma LinkWritesOutside(g: GitIgnore, src: seq<byte>, dst: seq<byte>, env: Env, s: RunState, p: Path)
    requires p in s.fs && s.fs[p].LinkItem? && Match(g, Rel(p)) && s.alive > 0
    requires env.resolve(p).None?
    requires env.follow(p).Some? && IsValidText(env.follow(p).value) && src != dst
    requires Contains(env.follow(p).value, src)
    ensures Step(g, src, dst, env, NonDirectories, s, p).escaped == s.escaped + [p]
    ensures Step(g, src, dst, env, NonDirectories, s, p).fs == s.fs
    ensures Step(g, src, dst, env, RegularFiles, s, p) == s
  {
    assert Land(s.fs, env, p) == Outside;
  }
}

=== FILE: seqs.dfy ===
/** Sequence operations that the Go standard library provides for both strings and
    byte slices (`strings.HasPrefix`, `strings.Split`, `bytes.Index`, `bytes.ReplaceAll`
    with a non-empty pattern, ...), stated once over `seq<T>`. */
module Seqs {

  predicate HasPrefix<T(==)>(s: seq<T>, p: seq<T>) {
    |p| <= |s| && s[..|p|] == p
  }

  predicate HasSuffix<T(==)>(s: seq<T>, x: seq<T>) {
    |x| <= |s| && s[|s| - |x|..] == x
  }

  /** `p` occurs in `s` starting at index `i`. */
  predicate OccursAt<T(==)>(s: seq<T>, p: seq<T>, i: int) {
    0 <= i && i + |p| <= |s| && s[i..i + |p|] == p
  }

  /** `strings.Contains` / `bytes.Contains`: the empty pattern occurs everywhere. */
  predicate Contains<T(==)>(s: seq<T>, p: seq<T>) {
    exists i | 0 <= i <= |s| - |p| :: OccursAt(s, p, i)
  }

  /** `strings.TrimPrefix`: removes `p` once when `s` starts with it. */
  function TrimPrefix<T(==)>(s: seq<T>, p: seq<T>): (r: seq<T>)
    ensures HasPrefix(s, p) ==> s == p + r
    ensures !HasPrefix(s, p) ==> r == s
  {
    if HasPrefix(s, p) then s[|p|..] else s
  }

  /** `strings.TrimSuffix`: removes `x` once when `s` ends with it. */
  function TrimSuffix<T(==)>(s: seq<T>, x: seq<T>): (r: seq<T>)
    ensures HasSuffix(s, x) ==> s == r + x
    ensures !HasSuffix(s, x) ==> r == s
  {
    if HasSuffix(s, x) then s[..|s| - |x|] else s
  }

  /** The first `k` elements are the first `k - 1` and then the `k`-th. */
  lemma TakeLast<T>(s: seq<T>, k: int)
    requires 0 < k <= |s|
    ensures s[..k] == s[..k - 1] + [s[k - 1]]
  {
  }

  lemma OccursShift<T>(s: seq<T>, p: seq<T>, j: int)
    requires |s| > 0 && j >= 0
    ensures OccursAt(s[1..], p, j) <==> OccursAt(s, p, j + 1)
  {
    if 0 <= j && j + |p| <= |s| - 1 {
      assert s[1..][j..j + |p|] == s[j + 1..j + 1 + |p|];
    }
  }

  /** `strings.Index` / `bytes.Index`: the leftmost occurrence of `p`, or -1. */
  function Index<T(==)>(s: seq<T>, p: seq<T>): (r: int)
    ensures r == -1 <==> !Contains(s, p)
    ensures r >= 0 ==> OccursAt(s, p, r)
    ensures r >= 0 ==> forall j :: 0 <= j < r ==> !OccursAt(s, p, j)
    decreases |s|
  {
    if HasPrefix(s, p) then
      assert OccursAt(s, p, 0);
      0
    else if |s| == 0 then
      assert forall i :: OccursAt(s, p, i) ==> i == 0 && |p| == 0;
      -1
    else
      var k := Index(s[1..], p);
      assert !OccursAt(s, p, 0);
      if k < 0 then
        assert forall i :: OccursAt(s, p, i) ==> OccursAt(s[1..], p, i - 1) by {
          forall i | OccursAt(s, p, i) ensures OccursAt(s[1..], p, i - 1) {
            OccursShift(s, p, i - 1);
          }
        }
        -1
      else
        OccursShift(s, p, k);
        assert forall j :: 0 < j < k + 1 ==> !OccursAt(s, p, j) by {
          forall j | 0 < j < k + 1 ensures !OccursAt(s, p, j) {
            OccursShift(s, p, j - 1);
          }
        }
        k + 1
  }

  /** `strings.Split(s, string(c))`: the pieces between consecutive separators;
      there is always one more piece than separators. */
  function Split<T(==)>(s: seq<T>, c: T): (r: seq<seq<T>>)
    ensures |r| == multiset(s)[c] + 1
    ensures forall i :: 0 <= i < |r| ==> c !in r[i]
    decreases |s|
  {
    if |s| == 0 then [[]]
    else
      var rest := Split(s[1..], c);
      assert s == [s[0]] + s[1..];
      assert multiset(s) == multiset{s[0]} + multiset(s[1..]);
      if s[0] == c then [[]] + rest
      else [[s[0]] + rest[0]] + rest[1..]
  }

  /** `strings.Join`: the pieces with `sep` between neighbours. */
  function Join<T>(parts: seq<seq<T>>, sep: seq<T>): seq<T>
    decreases |parts|
  {
    if |parts| == 0 then []
    else if |parts| == 1 then parts[0]
    else parts[0] + sep + Join(parts[1..], sep)
  }

  lemma JoinEmptyHead<T>(parts: seq<seq<T>>, sep: seq<T>)
    requires |parts| >= 1
    ensures Join([[]] + parts, sep) == sep + Join(parts, sep)
  {
    assert ([[]] + parts)[1..] == parts;
  }

  lemma JoinConsHead<T>(x: T, parts: seq<seq<T>>, sep: seq<T>)
    requires |parts| >= 1
    ensures Join([[x] + parts[0]] + parts[1..], sep) == [x] + Join(parts, sep)
  {
    var q := [[x] + parts[0]] + parts[1..];
    if |parts| > 1 {
      assert q[1..] == parts[1..];
    }
  }

  /** Splitting and re-joining with the same separator gives back the input. */
  lemma {:induction false} JoinSplit<T>(s: seq<T>, c: T)
    ensures Join(Split(s, c), [c]) == s
    decreases |s|
  {
    if |s| > 0 {
      var rest := Split(s[1..], c);
      JoinSplit(s[1..], c);
      if s[0] == c {
        JoinEmptyHead(rest, [c]);
      } else {
        JoinConsHead(s[0], rest, [c]);
      }
      assert s == [s[0]] + s[1..];
    }
  }

  lemma {:induction false} SplitNoSeparator<T>(s: seq<T>, c: T)
    requires c !in s
    ensures Split(s, c) == [s]
    decreases |s|
  {
    if |s| > 0 {
      SplitNoSeparator(s[1..], c);
      assert [s[0]] + s[1..] == s;
    }
  }

  /** A separator in the input splits the result into the two sides' pieces. */
  lemma {:induction false} SplitAppend<T>(a: seq<T>, c: T, b: seq<T>)
    ensures Split(a + [c] + b, c) == Split(a, c) + Split(b, c)
    decreases |a|
  {
    var s := a + [c] + b;
    if |a| == 0 {
      assert s[1..] == b;
    } else {
      assert s[1..] == a[1..] + [c] + b;
      SplitAppend(a[1..], c, b);
    }
  }

  /** Joining pieces that contain no separator and splitting again gives the pieces back. */
  lemma {:induction false} SplitJoin<T>(parts: seq<seq<T>>, c: T)
    requires |parts| >= 1
    requires forall i :: 0 <= i < |parts| ==> c !in parts[i]
    ensures Split(Join(parts, [c]), c) == parts
    decreases |parts|
  {
    SplitNoSeparator(parts[0], c);
    if |parts| > 1 {
      SplitJoin(parts[1..], c);
      assert Join(parts, [c]) == parts[0] + [c] + Join(parts[1..], [c]);
      SplitAppend(parts[0], c, Join(parts[1..], [c]));
      assert parts == [parts[0]] + parts[1..];
    }
  }

  /** `bytes.Count` for a non-empty pattern: leftmost non-overlapping occurrences. */
  function Count<T(==)>(s: seq<T>, p: seq<T>): (n: nat)
    requires |p| > 0
    ensures n == 0 <==> !Contains(s, p)
    decreases |s|
  {
    var i := Index(s, p);
    if i < 0 then 0 else 1 + Count(s[i + |p|..], p)
  }

  /** Counting a one-element pattern counts its occurrences. */
  lemma {:induction false} CountOne<T>(s: seq<T>, c: T)
    ensures Count(s, [c]) == multiset(s)[c]
    decreases |s|
  {
    var i := Index(s, [c]);
    if i < 0 {
      IndexOneAbsent(s, c);
    } else {
      IndexOneFirst(s, c);
      CountOne(s[i + 1..], c);
      MultisetAfterFirst(s, c, i);
    }
  }

  lemma IndexOneAbsent<T>(s: seq<T>, c: T)
    requires Index(s, [c]) < 0
    ensures multiset(s)[c] == 0
  {
    forall j | 0 <= j < |s| ensures s[j] != c {
      assert !OccursAt(s, [c], j);
      assert s[j..j + 1] == [s[j]];
    }
  }

  lemma IndexOneFirst<T>(s: seq<T>, c: T)
    requires Index(s, [c]) >= 0
    ensures var i := Index(s, [c]); s[i] == c && c !in s[..i]
  {
    var i := Index(s, [c]);
    assert s[i..i + 1] == [c];
    forall j | 0 <= j < i ensures s[j] != c {
      assert !OccursAt(s, [c], j);
      assert s[j..j + 1] == [s[j]];
    }
  }

  lemma MultisetAfterFirst<T>(s: seq<T>, c: T, i: int)
    requires 0 <= i < |s| && s[i] == c && c !in s[..i]
    ensures multiset(s)[c] == 1 + multiset(s[i + 1..])[c]
  {
    assert s == s[..i] + [c] + s[i + 1..];
    assert multiset(s) == multiset(s[..i]) + multiset{c} + multiset(s[i + 1..]);
    assert multiset(s[..i])[c] == 0;
  }

  /** `bytes.ReplaceAll` for a non-empty pattern: every leftmost non-overlapping
      occurrence of `pat` becomes `rep`. */
  function ReplaceNonEmpty<T(==)>(s: seq<T>, pat: seq<T>, rep: seq<T>): seq<T>
    requires |pat| > 0
    decreases |s|
  {
    var i := Index(s, pat);
    if i < 0 then s
    else s[..i] + rep + ReplaceNonEmpty(s[i + |pat|..], pat, rep)
  }

  lemma ReplaceLengthStep(ls: int, lrest: int, i: int, lp: int, lr: int, lrr: int, c: int, n: int)
    requires lrr == lrest + c * (lr - lp)
    requires ls == i + lp + lrest
    requires n == 1 + c
    ensures i + lr + lrr == ls + n * (lr - lp)
  {
    assert (1 + c) * (lr - lp) == (lr - lp) + c * (lr - lp);
  }

  /** Each replacement changes the length by the difference of the two patterns. */
  lemma {:induction false} ReplaceLength<T>(s: seq<T>, pat: seq<T>, rep: seq<T>)
    requires |pat| > 0
    ensures |ReplaceNonEmpty(s, pat, rep)| == |s| + Count(s, pat) * (|rep| - |pat|)
    decreases |s|
  {
    var i := Index(s, pat);
    if i >= 0 {
      var rest := s[i + |pat|..];
      var rr := ReplaceNonEmpty(rest, pat, rep);
      assert |ReplaceNonEmpty(s, pat, rep)| == i + |rep| + |rr|;
      assert Count(s, pat) == 1 + Count(rest, pat);
      ReplaceLength(rest, pat, rep);
      ReplaceLengthStep(|s|, |rest|, i, |pat|, |rep|, |rr|, Count(rest, pat), Count(s, pat));
    }
  }

  lemma ProductNonZero(n: int, d: int)
    requires n >= 1 && d != 0
    ensures n * d != 0
  {
  }

  /** Replacing changes nothing exactly when the pattern does not occur or is
      replaced by itself. */
  lemma {:induction false} ReplaceUnchangedIff<T>(s: seq<T>, pat: seq<T>, rep: seq<T>)
    requires |pat| > 0
    ensures ReplaceNonEmpty(s, pat, rep) == s <==> (pat == rep || !Contains(s, pat))
  {
    var i := Index(s, pat);
    if i >= 0 {
      if pat == rep {
        ReplaceIdentity(s, pat);
      } else if |rep| == |pat| {
        var r := ReplaceNonEmpty(s, pat, rep);
        assert r == s[..i] + rep + ReplaceNonEmpty(s[i + |pat|..], pat, rep);
        assert r[i..i + |rep|] == rep;
        assert s[i..i + |pat|] == pat;
      } else {
        assert Count(s, pat) >= 1;
        ReplaceLength(s, pat, rep);
        ProductNonZero(Count(s, pat), |rep| - |pat|);
      }
    }
  }

  lemma {:induction false} ReplaceIdentity<T>(s: seq<T>, pat: seq<T>)
    requires |pat| > 0
    ensures ReplaceNonEmpty(s, pat, pat) == s
    decreases |s|
  {
    var i := Index(s, pat);
    if i >= 0 {
      var rest := s[i + |pat|..];
      ReplaceIdentity(rest, pat);
      assert s[i..i + |pat|] == pat;
      assert s == s[..i] + s[i..i + |pat|] + rest;
    }
  }
}

=== FILE: strings.dfy ===
/** String helpers of the Go standard library that the core relies on:
    `strings.TrimSpace` (with `unicode.IsSpace`) and the line splitting of
    `bufio.Scanner` with its default `ScanLines` split function. */
module Strings {
  import opened Seqs

  /** `unicode.IsSpace`: the ASCII white space, NEL, NBSP and the other characters
      with Unicode's White_Space property. */
  predicate IsSpace(c: char) {
    c == '\t' || c == '\n' || c == '\U{000B}' || c == '\U{000C}' || c == '\r' || c == ' '
    || c == '\U{0085}' || c == '\U{00A0}' || c == '\U{1680}'
    || ('\U{2000}' <= c <= '\U{200A}')
    || c == '\U{2028}' || c == '\U{2029}' || c == '\U{202F}' || c == '\U{205F}' || c == '\U{3000}'
  }

  /** Drops leading white space. */
  function TrimLeftSpace(s: string): (r: string)
    ensures HasSuffix(s, r)
    ensures |r| == 0 || !IsSpace(r[0])
    ensures forall i :: 0 <= i < |s| - |r| ==> IsSpace(s[i])
    decreases |s|
  {
    if |s| > 0 && IsSpace(s[0]) then
      var r := TrimLeftSpace(s[1..]);
      assert s[1..][|s[1..]| - |r|..] == s[|s| - |r|..];
      assert forall i :: 1 <= i < |s| - |r| ==> s[i] == s[1..][i - 1];
      r
    else s
  }

  /** Drops trailing white space. */
  function TrimRightSpace(s: string): (r: string)
    ensures HasPrefix(s, r)
    ensures |r| == 0 || !IsSpace(r[|r| - 1])
    ensures forall i :: |r| <= i < |s| ==> IsSpace(s[i])
    decreases |s|
  {
    if |s| > 0 && IsSpace(s[|s| - 1]) then
      var r := TrimRightSpace(s[..|s| - 1]);
      assert s[..|s| - 1][..|r|] == s[..|r|];
      r
    else s
  }

  /** `strings.TrimSpace`: the longest slice of `s` that neither starts nor ends with
      white space, with only white space cut off around it. */
  function TrimSpace(s: string): (r: string)
    ensures Contains(s, r)
    ensures |r| == 0 || (!IsSpace(r[0]) && !IsSpace(r[|r| - 1]))
    ensures |r| <= |s|
  {
    var left := TrimLeftSpace(s);
    var r := TrimRightSpace(left);
    var i := |s| - |left|;
    assert OccursAt(s, r, i) by {
      assert s[i..] == left;
      assert left[..|r|] == r;
    }
    r
  }

  /** Trimming twice trims nothing more. */
  lemma TrimSpaceIdempotent(s: string)
    ensures TrimSpace(TrimSpace(s)) == TrimSpace(s)
  {
    var r := TrimSpace(s);
    if |r| > 0 {
      assert TrimLeftSpace(r) == r;
      assert TrimRightSpace(r) == r;
    }
  }

  lemma {:induction false} TrimLeftExact(s: string, i: int)
    requires 0 <= i <= |s|
    requires forall k :: 0 <= k < i ==> IsSpace(s[k])
    requires i == |s| || !IsSpace(s[i])
    ensures TrimLeftSpace(s) == s[i..]
    decreases i
  {
    if i > 0 {
      var t := s[1..];
      assert forall k :: 0 <= k < i - 1 ==> t[k] == s[k + 1];
      TrimLeftExact(t, i - 1);
      assert t[i - 1..] == s[i..];
    }
  }

  lemma {:induction false} TrimRightExact(s: string, j: int)
    requires 0 <= j <= |s|
    requires forall k :: j <= k < |s| ==> IsSpace(s[k])
    requires j == 0 || !IsSpace(s[j - 1])
    ensures TrimRightSpace(s) == s[..j]
    decreases |s| - j
  {
    if j < |s| {
      var t := s[..|s| - 1];
      assert forall k :: j <= k < |t| ==> t[k] == s[k];
      TrimRightExact(t, j);
      assert t[..j] == s[..j];
    } else {
      assert s[..j] == s;
    }
  }

  /** `TrimSpace` is determined by what it promises: for any slice `s[i..j]` with only
      white space outside it and none at its ends, the result is that slice. */
  lemma TrimSpaceExact(s: string, i: int, j: int)
    requires 0 <= i <= j <= |s|
    requires forall k :: 0 <= k < i ==> IsSpace(s[k])
    requires forall k :: j <= k < |s| ==> IsSpace(s[k])
    requires i == j || (!IsSpace(s[i]) && !IsSpace(s[j - 1]))
    ensures TrimSpace(s) == s[i..j]
  {
    if i == j {
      TrimAllSpace(s);
    } else {
      TrimSlice(s, i, j);
    }
  }

  lemma TrimAllSpace(s: string)
    requires forall k :: 0 <= k < |s| ==> IsSpace(s[k])
    ensures TrimSpace(s) == []
  {
    TrimLeftExact(s, |s|);
    TrimRightExact([], 0);
  }

  lemma TrimSlice(s: string, i: int, j: int)
    requires 0 <= i < j <= |s|
    requires forall k :: 0 <= k < i ==> IsSpace(s[k])
    requires forall k :: j <= k < |s| ==> IsSpace(s[k])
    requires !IsSpace(s[i]) && !IsSpace(s[j - 1])
    ensures TrimSpace(s) == s[i..j]
  {
    TrimLeftExact(s, i);
    TrimRightOfSuffix(s, i, j);
    TrimSpaceSteps(s);
  }

  lemma TrimRightOfSuffix(s: string, i: int, j: int)
    requires 0 <= i < j <= |s|
    requires forall k :: j <= k < |s| ==> IsSpace(s[k])
    requires !IsSpace(s[j - 1])
    ensures TrimRightSpace(s[i..]) == s[i..j]
  {
    var left := s[i..];
    forall k | j - i <= k < |left| ensures IsSpace(left[k]) {
      assert left[k] == s[k + i];
    }
    assert left[j - i - 1] == s[j - 1];
    TrimRightExact(left, j - i);
    assert left[..j - i] == s[i..j];
  }

  lemma TrimSpaceSteps(s: string)
    ensures TrimSpace(s) == TrimRightSpace(TrimLeftSpace(s))
  {
  }

  /** `bufio.ScanLines` drops one carriage return that ends a line. */
  function DropCR(line: string): (r: string)
    ensures HasPrefix(line, r)
  {
    if |line| > 0 && line[|line| - 1] == '\r' then line[..|line| - 1] else line
  }

  /** The lines `bufio.Scanner` yields with `ScanLines`: text up to each newline, and
      the text after the last newline when there is any. */
  function ScanLines(s: string): (lines: seq<string>)
    ensures forall i :: 0 <= i < |lines| ==> '\n' !in lines[i]
    decreases |s|
  {
    if |s| == 0 then []
    else
      var i := Index(s, "\n");
      if i < 0 then
        assert '\n' !in s by {
          forall k | 0 <= k < |s| ensures s[k] != '\n' {
            assert !OccursAt(s, "\n", k);
            assert s[k..k + 1] == [s[k]];
          }
        }
        [DropCR(s)]
      else
        assert '\n' !in s[..i] by {
          forall k | 0 <= k < i ensures s[k] != '\n' {
            assert !OccursAt(s, "\n", k);
            assert s[k..k + 1] == [s[k]];
          }
        }
        [DropCR(s[..i])] + ScanLines(s[i + 1..])
  }

  /** A file made of newline-terminated lines. */
  function Terminated(lines: seq<string>): string
    decreases |lines|
  {
    if |lines| == 0 then "" else lines[0] + "\n" + Terminated(lines[1..])
  }

  lemma NewlineIndex(l: string, rest: string)
    requires '\n' !in l
    ensures Index(l + "\n" + rest, "\n") == |l|
  {
    var s := l + "\n" + rest;
    assert OccursAt(s, "\n", |l|);
    forall k | 0 <= k < |l| ensures !OccursAt(s, "\n", k) {
      assert s[k] == l[k];
    }
  }

  /** Scanning newline-terminated lines gives the lines back, when no line holds a
      newline or ends with a carriage return. */
  lemma {:induction false} ScanTerminated(lines: seq<string>)
    requires forall i :: 0 <= i < |lines| ==> '\n' !in lines[i]
    requires forall i :: 0 <= i < |lines| ==> DropCR(lines[i]) == lines[i]
    ensures ScanLines(Terminated(lines)) == lines
    decreases |lines|
  {
    if |lines| > 0 {
      var l := lines[0];
      var rest := Terminated(lines[1..]);
      assert Terminated(lines) == l + "\n" + rest;
      ScanStep(l, rest);
      ScanTerminated(lines[1..]);
      assert lines == [l] + lines[1..];
    }
  }

  /** A line ended by a newline is scanned first, then the rest. */
  lemma ScanStep(l: string, rest: string)
    requires '\n' !in l
    ensures ScanLines(l + "\n" + rest) == [DropCR(l)] + ScanLines(rest)
  {
    var s := l + "\n" + rest;
    NewlineIndex(l, rest);
    assert s[..|l|] == l;
    assert s[|l| + 1..] == rest;
  }
}

=== FILE: textclass.dfy ===
/** The text/binary classifier of the path rewriter (`isValidText`,
    pkg/cowgit/pathrewrite.go): content is text when it is valid UTF-8, holds no
    zero byte, and at least 95% of its bytes are printable ASCII, TAB, LF or CR. */
module TextClass {
  import opened Utf8

  predicate IsPrintable(b: byte) {
    (32 <= b <= 126) || b == 9 || b == 10 || b == 13
  }

  /** The number of bytes of `s` that count as printable. */
  function CountPrintable(s: seq<byte>): (n: nat)
    ensures n <= |s|
    decreases |s|
  {
    if |s| == 0 then 0
    else CountPrintable(s[..|s| - 1]) + (if IsPrintable(s[|s| - 1]) then 1 else 0)
  }

  /** The 95% threshold in integers: `printable / len < 0.95` is false exactly when
      `20 * printable >= 19 * len`. */
  predicate DenseEnough(printable: nat, len: nat) {
    20 * printable >= 19 * len
  }

  /** `isValidText`, stated directly: the three tests in the order the source makes them. */
  predicate IsValidText(content: seq<byte>) {
    Valid(content)
    && 0 !in content
    && (|content| == 0 || DenseEnough(CountPrintable(content), |content|))
  }

  /** `isValidText` as the source computes it: a validity scan, a zero-byte scan and
      one counting pass over the bytes. */
  method ClassifyText(content: seq<byte>) returns (text: bool)
    ensures text <==> IsValidText(content)
    ensures text && |content| > 0 ==> 20 * CountPrintable(content) >= 19 * |content|
  {
    var ok := CheckUtf8(content);
    if !ok {
      return false;
    }
    var i := 0;
    while i < |content|
      invariant 0 <= i <= |content|
      invariant 0 !in content[..i]
    {
      if content[i] == 0 {
        assert content[i] in content;
        return false;
      }
      assert content[..i + 1] == content[..i] + [content[i]];
      i := i + 1;
    }
    assert content[..i] == content;
    var printable := 0;
    var j := 0;
    while j < |content|
      invariant 0 <= j <= |content|
      invariant printable == CountPrintable(content[..j])
    {
      assert content[..j + 1][..j] == content[..j];
      if IsPrintable(content[j]) {
        printable := printable + 1;
      }
      j := j + 1;
    }
    assert content[..j] == content;
    text := |content| == 0 || 20 * printable >= 19 * |content|;
  }

  /** `utf8.Valid` as a scan that steps over one well-formed sequence at a time. */
  method CheckUtf8(s: seq<byte>) returns (ok: bool)
    ensures ok == Valid(s)
  {
    var i := 0;
    while i < |s|
      invariant 0 <= i <= |s|
      invariant Valid(s) == Valid(s[i..])
      decreases |s| - i
    {
      var n := SeqLen(s[i..]);
      if n == 0 {
        return false;
      }
      assert s[i..][n..] == s[i + n..];
      i := i + n;
    }
    ok := true;
  }

  lemma CountPrintableSnoc(s: seq<byte>, b: byte)
    ensures CountPrintable(s + [b]) == CountPrintable(s) + (if IsPrintable(b) then 1 else 0)
  {
    assert (s + [b])[..|s|] == s;
  }

  lemma EmptyIsText()
    ensures IsValidText([])
  {
  }

  /** Any zero byte makes the content binary. */
  lemma ZeroByteIsBinary(content: seq<byte>, k: int)
    requires 0 <= k < |content| && content[k] == 0
    ensures !IsValidText(content)
  {
    assert content[k] in content;
  }

  lemma InvalidUtf8IsBinary(content: seq<byte>)
    requires !Valid(content)
    ensures !IsValidText(content)
  {
  }

  /** "valid text" in the test table of pkg/cowgit/pathrewrite_test.go, shortened. */
  lemma PlainTextExample()
    ensures IsValidText([72, 105, 10, 116])
  {
    var t: seq<byte> := [72, 105, 10, 116];
    var t1: seq<byte> := [] + [72];
    var t2 := t1 + [105];
    var t3 := t2 + [10];
    var t4 := t3 + [116];
    CountPrintableSnoc([], 72);
    CountPrintableSnoc(t1, 105);
    CountPrintableSnoc(t2, 10);
    CountPrintableSnoc(t3, 116);
    assert t4 == t;
    assert t[1..] == [105, 10, 116];
    assert t[1..][1..] == [10, 116];
    assert t[1..][1..][1..] == [116];
    assert t[1..][1..][1..][1..] == [];
  }

  /** "with null bytes" in the test table. */
  lemma NullByteExample()
    ensures !IsValidText([72, 0, 119])
  {
    ZeroByteIsBinary([72, 0, 119], 1);
  }

  /** "invalid utf8" in the test table. */
  lemma InvalidUtf8Example()
    ensures !IsValidText([0xFF, 0xFE, 0xFD])
  {
  }

  /** "mostly binary" in the test table: 2 printable bytes out of 7. */
  lemma MostlyBinaryExample()
    ensures !IsValidText([1, 2, 3, 4, 5, 104, 105])
  {
    var b: seq<byte> := [1, 2, 3, 4, 5, 104, 105];
    var b1: seq<byte> := [] + [1];
    var b2 := b1 + [2];
    var b3 := b2 + [3];
    var b4 := b3 + [4];
    var b5 := b4 + [5];
    var b6 := b5 + [104];
    var b7 := b6 + [105];
    CountPrintableSnoc([], 1);
    CountPrintableSnoc(b1, 2);
    CountPrintableSnoc(b2, 3);
    CountPrintableSnoc(b3, 4);
    CountPrintableSnoc(b4, 5);
    CountPrintableSnoc(b5, 104);
    CountPrintableSnoc(b6, 105);
    assert b7 == b;
  }
}

=== FILE: utf8.dfy ===
/** Bytes and UTF-8 as the Go standard library treats them: `utf8.Valid` accepts
    exactly the well-formed byte sequences of section 4 of RFC 3629, `utf8.DecodeRune`
    reports a width of 1 for a byte that does not start a well-formed sequence, and a
    Go string converts to its UTF-8 encoding when turned into a `[]byte`. */
module Utf8 {
  import opened Seqs

  newtype byte = x: int | 0 <= x < 256

  predicate IsTail(b: byte) {
    0x80 <= b <= 0xBF
  }

  /** The second byte of a three-byte sequence: RFC 3629 narrows it after E0
      (no overlong forms) and after ED (no surrogates). */
  predicate SecondOfThree(b0: byte, b1: byte) {
    if b0 == 0xE0 then 0xA0 <= b1 <= 0xBF
    else if b0 == 0xED then 0x80 <= b1 <= 0x9F
    else IsTail(b1)
  }

  /** The second byte of a four-byte sequence: narrowed after F0 (no overlong
      forms) and after F4 (nothing above U+10FFFF). */
  predicate SecondOfFour(b0: byte, b1: byte) {
    if b0 == 0xF0 then 0x90 <= b1 <= 0xBF
    else if b0 == 0xF4 then 0x80 <= b1 <= 0x8F
    else IsTail(b1)
  }

  /** The length of the well-formed sequence (the `UTF8-char` rule of RFC 3629
      section 4) at the start of `s`, or 0 when `s` does not start with one. */
  function SeqLen(s: seq<byte>): (n: nat)
    ensures n <= 4 && n <= |s|
    ensures |s| > 0 && s[0] <= 0x7F ==> n == 1
    ensures |s| > 0 && (0x80 <= s[0] <= 0xC1 || s[0] >= 0xF5) ==> n == 0
  {
    if |s| == 0 then 0
    else
      var b0 := s[0];
      if b0 <= 0x7F then 1
      else if 0xC2 <= b0 <= 0xDF then
        (if |s| >= 2 && IsTail(s[1]) then 2 else 0)
      else if 0xE0 <= b0 <= 0xEF then
        (if |s| >= 3 && SecondOfThree(b0, s[1]) && IsTail(s[2]) then 3 else 0)
      else if 0xF0 <= b0 <= 0xF4 then
        (if |s| >= 4 && SecondOfFour(b0, s[1]) && IsTail(s[2]) && IsTail(s[3]) then 4 else 0)
      else 0
  }

  /** `utf8.Valid`: the whole input is a concatenation of well-formed sequences. */
  predicate Valid(s: seq<byte>)
    decreases |s|
  {
    |s| == 0 || (SeqLen(s) > 0 && Valid(s[SeqLen(s)..]))
  }

  /** The width `utf8.DecodeRune` reports for the first rune of a non-empty input. */
  function RuneWidth(s: seq<byte>): (w: nat)
    requires |s| > 0
    ensures 1 <= w <= |s|
    ensures SeqLen(s) > 0 ==> w == SeqLen(s)
  {
    if SeqLen(s) == 0 then 1 else SeqLen(s)
  }

  /** The UTF-8 encoding of one Unicode scalar value. */
  function Encode(c: char): (e: seq<byte>)
    ensures 1 <= |e| <= 4
  {
    var cp := c as int;
    if cp < 0x80 then
      [cp as byte]
    else if cp < 0x800 then
      [(0xC0 + cp / 64) as byte, (0x80 + cp % 64) as byte]
    else if cp < 0x10000 then
      [(0xE0 + cp / 4096) as byte, (0x80 + (cp / 64) % 64) as byte, (0x80 + cp % 64) as byte]
    else
      [(0xF0 + cp / 262144) as byte, (0x80 + (cp / 4096) % 64) as byte,
       (0x80 + (cp / 64) % 64) as byte, (0x80 + cp % 64) as byte]
  }

  /** Go's `[]byte(s)` for a string `s`. */
  function EncodeString(s: string): seq<byte>
    decreases |s|
  {
    if |s| == 0 then [] else Encode(s[0]) + EncodeString(s[1..])
  }

  lemma ThreeByteLead(cp: int)
    requires 0x800 <= cp < 0x10000 && !(0xD800 <= cp < 0xE000)
    ensures 0xE0 <= 0xE0 + cp / 4096 <= 0xEF
    ensures cp / 4096 == 0 ==> 0xA0 <= 0x80 + (cp / 64) % 64
    ensures cp / 4096 == 0xD ==> 0x80 + (cp / 64) % 64 <= 0x9F
  {
  }

  lemma FourByteLead(cp: int)
    requires 0x10000 <= cp <= 0x10FFFF
    ensures 0xF0 <= 0xF0 + cp / 262144 <= 0xF4
    ensures cp / 262144 == 0 ==> 0x90 <= 0x80 + (cp / 4096) % 64
    ensures cp / 262144 == 4 ==> 0x80 + (cp / 4096) % 64 <= 0x8F
  {
  }

  /** The encoding of a character is one well-formed sequence, whatever follows it. */
  lemma EncodeWellFormed(c: char, rest: seq<byte>)
    ensures SeqLen(Encode(c) + rest) == |Encode(c)|
  {
    var cp := c as int;
    var s := Encode(c) + rest;
    if 0x800 <= cp < 0x10000 {
      ThreeByteLead(cp);
    } else if cp >= 0x10000 {
      FourByteLead(cp);
    }
  }

  /** Every Go string's byte form is valid UTF-8. */
  lemma {:induction false} EncodeStringValid(s: string)
    ensures Valid(EncodeString(s))
    decreases |s|
  {
    if |s| > 0 {
      var e := Encode(s[0]);
      var rest := EncodeString(s[1..]);
      EncodeStringValid(s[1..]);
      EncodeWellFormed(s[0], rest);
      assert (e + rest)[|e|..] == rest;
    }
  }

  /** `bytes.ReplaceAll` with an empty pattern: `rep` before every rune and at the end. */
  function InsertAtRunes(s: seq<byte>, rep: seq<byte>): seq<byte>
    decreases |s|
  {
    if |s| == 0 then rep
    else
      var w := RuneWidth(s);
      rep + s[..w] + InsertAtRunes(s[w..], rep)
  }

  /** `bytes.ReplaceAll(s, pat, rep)`. */
  function ReplaceAll(s: seq<byte>, pat: seq<byte>, rep: seq<byte>): seq<byte> {
    if |pat| == 0 then InsertAtRunes(s, rep) else ReplaceNonEmpty(s, pat, rep)
  }

  lemma {:induction false} InsertAtRunesLength(s: seq<byte>, rep: seq<byte>)
    ensures |InsertAtRunes(s, rep)| >= |s| + |rep|
    decreases |s|
  {
    if |s| > 0 {
      var w := RuneWidth(s);
      assert |InsertAtRunes(s, rep)| == |rep| + w + |InsertAtRunes(s[w..], rep)|;
      InsertAtRunesLength(s[w..], rep);
    }
  }

  lemma {:induction false} InsertNothing(s: seq<byte>)
    ensures InsertAtRunes(s, []) == s
    decreases |s|
  {
    if |s| > 0 {
      var w := RuneWidth(s);
      var a, b := s[..w], s[w..];
      InsertNothing(b);
      assert InsertAtRunes(s, []) == [] + a + InsertAtRunes(b, []);
      EmptyJoin(a, b, s);
    }
  }

  lemma EmptyJoin(a: seq<byte>, b: seq<byte>, s: seq<byte>)
    requires |a| <= |s| && a == s[..|a|] && b == s[|a|..]
    ensures [] + a + b == s
  {
  }

  /** The rewrite leaves content untouched exactly when the pattern is absent or
      replaced by itself (the empty pattern occurs in every input). */
  lemma ReplaceAllUnchangedIff(s: seq<byte>, pat: seq<byte>, rep: seq<byte>)
    ensures ReplaceAll(s, pat, rep) == s <==> (pat == rep || !Contains(s, pat))
  {
    if |pat| == 0 {
      InsertAtRunesLength(s, rep);
      if rep == [] {
        InsertNothing(s);
      }
      assert OccursAt(s, pat, 0);
    } else {
      ReplaceUnchangedIff(s, pat, rep);
    }
  }
}

=== FILE: worktree.dfy ===
/** The sequencing of pkg/cowgit/worktree.go: the copy-on-write setup of a worktree
    (`setupWorktreeWithCoWProgress`), its fallback to `git worktree add`
    (`CreateCoWWorktreeWithProgress`), and removal (`Remove`, `RemoveWithBranch`,
    `Prune`, `combineErrors`).

    Every effect is a call recorded in a trace; git commands, file operations, the
    clone engines and the path rewrite are oracles that say how each call ends. */
module Worktree {
  import opened Wrappers
  import opened Seqs
  import opened Strings
  import opened Registration

  /** The clone engine a setup runs. */
  datatype Strategy = DepthMode(depth: int) | ForcedMode | ParallelMode | PlainMode

  /** Depth mode when parallel cloning is on with a positive depth, else the forced
      mode when asked for, else the parallel ladder; `CloneDirectory` when parallel
      cloning is off. */
  function ChooseStrategy(parallelCoW: bool, force: bool, depth: int): (s: Strategy)
    ensures s.DepthMode? <==> parallelCoW && depth > 0
    ensures s.DepthMode? ==> s.depth == depth
    ensures s == ForcedMode <==> parallelCoW && depth <= 0 && force
    ensures s == ParallelMode <==> parallelCoW && depth <= 0 && !force
    ensures s == PlainMode <==> !parallelCoW
  {
    if !parallelCoW then PlainMode
    else if depth > 0 then DepthMode(depth)
    else if force then ForcedMode
    else ParallelMode
  }

  /** The fields of `Worktree`. */
  datatype Config = Config(repo: string, wt: string, branch: string, baseCommit: string,
                           noRewrite: bool, parallelCoW: bool, forceParallel: bool, parallelDepth: int)

  /** A call the setup makes: a file operation, a clone from the repository into the
      worktree, a git command run in a directory, or the path rewrite. */
  datatype Call =
    | Fs(op: FileOp)
    | Clone(strategy: Strategy, src: string, dst: string)
    | Git(dir: string, args: seq<string>)
    | RewritePaths(src: string, dst: string)

  type GitOracle = (string, seq<string>) -> Result<string>

  datatype Env = Env(fsys: FileSys, clone: Strategy -> Outcome, git: GitOracle, rewrite: Outcome)

  function BranchArgs(c: Config): seq<string> {
    ["branch", c.branch, c.baseCommit]
  }

  function SymbolicRefArgs(c: Config): seq<string> {
    ["symbolic-ref", "HEAD", "refs/heads/" + c.branch]
  }

  function FsCalls(ops: seq<FileOp>): (calls: seq<Call>)
    ensures |calls| == |ops| && forall i :: 0 <= i < |ops| ==> calls[i] == Fs(ops[i])
  {
    seq(|ops|, i requires 0 <= i < |ops| => Fs(ops[i]))
  }
  /** Where `git branch` runs. As written it runs in the worktree, whose `.git` is
      still the clone's copy of the repository's; the corrected setup runs it in the
      repository, whose refs the registered worktree shares. */
  datatype BranchSite = InClone | InRepository

  function BranchDir(c: Config, site: BranchSite): string {
    if site == InClone then c.wt else c.repo
  }

  /** What the registration writes into `commondir`: as written, two levels up
      whatever the branch name; corrected, one level per segment of the name and one
      for `worktrees`. */
  datatype CommonDirMode = TwoLevelsUp | PerSegment

  function CommonDirText(c: Config, m: CommonDirMode): string {
    if m == TwoLevelsUp then TwoUp else CommonDirFor(c.branch)
  }

  /** A setup: where the branch is created and how `commondir` is written. */
  datatype Variant = Variant(site: BranchSite, commonDir: CommonDirMode)

  /** The setup as `setupWorktreeWithCoWProgress` is written. */
  const AsWrittenSetup := Variant(InClone, TwoLevelsUp)

  /** The setup with both corrections: the branch is created in the repository (and
      deleted again when a later step fails), and `commondir` matches the branch. */
  const CorrectedSetup := Variant(InRepository, PerSegment)

  function RegisterWith(fsys: FileSys, c: Config, m: CommonDirMode): (r: (seq<FileOp>, Outcome))
    ensures var steps := RegisterSteps(c.repo, c.wt, c.branch, CommonDirText(c, m));
      r == RunSteps(fsys, steps) && (r.1.Pass? <==> forall i :: 0 <= i < 6 ==> fsys(steps[i].op).Pass?)
  {
    if m == TwoLevelsUp then RegisterAsWritten(fsys, c.repo, c.wt, c.branch)
    else Register(fsys, c.repo, c.wt, c.branch)
  }

  function DeleteBranchArgs(c: Config): seq<string> {
    ["branch", "--delete", "--force", c.branch]
  }

  /** The clean-up once the branch exists: the clone is removed, and a branch made in
      the repository is deleted first, since removing the clone does not reach it.
      The outcomes of both are ignored. */
  function Cleanup(c: Config, site: BranchSite): (calls: seq<Call>)
    ensures |calls| >= 1 && calls[|calls| - 1] == Fs(RemoveAll(c.wt))
    ensures Git(c.repo, DeleteBranchArgs(c)) in calls <==> site == InRepository
  {
    match site
    case InClone => [Fs(RemoveAll(c.wt))]
    case InRepository =>
      var calls := [Git(c.repo, DeleteBranchArgs(c)), Fs(RemoveAll(c.wt))];
      assert calls[0] == Git(c.repo, DeleteBranchArgs(c));
      calls
  }

  /** The destination was cleared, the clone made and the branch created. */
  predicate BranchMade(env: Env, c: Config, site: BranchSite) {
    env.fsys(RemoveAll(c.wt)).Pass?
    && env.clone(ChooseStrategy(c.parallelCoW, c.forceParallel, c.parallelDepth)).Pass?
    && env.git(BranchDir(c, site), BranchArgs(c)).Ok?
  }

  /** Every step that must succeed for the setup to succeed. */
  predicate SetupSteps(env: Env, c: Config, v: Variant) {
    BranchMade(env, c, v.site)
    && env.git(c.wt, SymbolicRefArgs(c)).Ok?
    && RegisterWith(env.fsys, c, v.commonDir).1.Pass?
  }

  /** `setupWorktreeWithCoWProgress`: remove the destination, clone into it, create
      the branch at the base commit, point HEAD at it, register the worktree, then
      rewrite absolute paths unless told not to. A failure once the clone is in place
      removes the destination again; the rewrite's outcome is ignored. */
  function Setup(env: Env, c: Config, v: Variant): (r: (seq<Call>, Outcome))
    ensures |r.0| >= 1 && r.0[0] == Fs(RemoveAll(c.wt))
    ensures r.1.Pass? <==> SetupSteps(env, c, v)
    ensures r.1.Fail? && env.fsys(RemoveAll(c.wt)).Pass?
            && env.clone(ChooseStrategy(c.parallelCoW, c.forceParallel, c.parallelDepth)).Pass?
            ==> r.0[|r.0| - 1] == Fs(RemoveAll(c.wt))
    ensures RewritePaths(c.repo, c.wt) in r.0 <==> r.1.Pass? && !c.noRewrite
    ensures Git(c.repo, DeleteBranchArgs(c)) in r.0 <==> v.site == InRepository && BranchMade(env, c, v.site) && r.1.Fail?
  {
    var rm := Fs(RemoveAll(c.wt));
    var del := Git(c.repo, DeleteBranchArgs(c));
    match env.fsys(RemoveAll(c.wt))
    case Fail(e) => ([rm], Fail("failed to remove existing worktree path: " + e))
    case Pass =>
      var st := ChooseStrategy(c.parallelCoW, c.forceParallel, c.parallelDepth);
      var cloned := [rm, Clone(st, c.repo, c.wt)];
      match env.clone(st)
      case Fail(e) => (cloned, Fail("failed to clone directory: " + e))
      case Pass =>
        var bd := BranchDir(c, v.site);
        var branched := cloned + [Git(bd, BranchArgs(c))];
        assert del !in branched;
        match env.git(bd, BranchArgs(c))
        case Err(e) => (branched + [rm], Fail("failed to create branch " + c.branch + ": " + e))
        case Ok(_) =>
          var switched := branched + [Git(c.wt, SymbolicRefArgs(c))];
          assert del !in switched;
          match env.git(c.wt, SymbolicRefArgs(c))
          case Err(e) => (switched + Cleanup(c, v.site), Fail("failed to switch to branch " + c.branch + ": " + e))
          case Ok(_) =>
            var (ops, reg) := RegisterWith(env.fsys, c, v.commonDir);
            var registered := switched + FsCalls(ops);
            assert RewritePaths(c.repo, c.wt) !in registered && del !in registered;
            if reg.Fail? then (registered + Cleanup(c, v.site), Fail("failed to register worktree: " + reg.msg))
            else if c.noRewrite then (registered, Pass)
            else (registered + [RewritePaths(c.repo, c.wt)], Pass)
  }

  /** The path rewrite is best effort: its failure never fails the setup, and the
      calls made do not depend on it. */
  lemma RewriteNeverFails(env: Env, c: Config, v: Variant, rewrite: Outcome)
    ensures Setup(env.(rewrite := rewrite), c, v) == Setup(env, c, v)
  {
  }

  /** In a successful setup the branch is created at the base commit before HEAD is
      pointed at it, and both come after the clone and before the registration's
      first file operation. */
  lemma SetupOrder(env: Env, c: Config, v: Variant)
    requires Setup(env, c, v).1.Pass?
    ensures var calls := Setup(env, c, v).0;
      |calls| >= 5 && calls[1].Clone? && calls[2] == Git(BranchDir(c, v.site), ["branch", c.branch, c.baseCommit])
      && calls[3] == Git(c.wt, ["symbolic-ref", "HEAD", "refs/heads/" + c.branch])
      && calls[4] == Fs(MkdirAll(MetaDir(c.repo, c.branch), DirMode))
  {
    var steps := RegisterSteps(c.repo, c.wt, c.branch, CommonDirText(c, v.commonDir));
    AllPass(env.fsys, steps);
  }

  const NewRepositoryError := "this appears to be a brand new repository: please create an initial commit before creating a worktree"

  /** The git messages that say HEAD does not name a commit yet. */
  predicate NoCommitYet(e: string) {
    Contains(e, "fatal: ambiguous argument 'HEAD'") || Contains(e, "fatal: not a valid object name")
    || Contains(e, "fatal: HEAD: not a valid object name")
  }

  function RemoveArgs(wt: string): seq<string> {
    ["worktree", "remove", "-f", wt]
  }

  const RevParseArgs: seq<string> := ["rev-parse", "HEAD"]

  function AddArgs(branch: string, wt: string, commit: string): seq<string> {
    ["worktree", "add", "-b", branch, wt, commit]
  }

  /** Git's refusal to create a branch that already exists. */
  function BranchExists(branch: string): string {
    "fatal: a branch named '" + branch + "' already exists"
  }

  /** Every branch the calls create starts at `commit`: the `git branch` of the
      setup and the `git worktree add -b` of the fallback. */
  predicate StartsAt(calls: seq<Call>, commit: string) {
    forall i :: 0 <= i < |calls| && calls[i].Git? ==>
      (|calls[i].args| == 3 && calls[i].args[0] == "branch" ==> calls[i].args[2] == commit)
      && (|calls[i].args| == 6 && calls[i].args[1] == "add" ==> calls[i].args[5] == commit)
  }

  /** A failed setup leaves its branch in the repository: it made the branch there
      and the clean-up's deletion failed. */
  predicate LeavesBranch(env: Env, c: Config, v: Variant) {
    v.site == InRepository && BranchMade(env, c, v.site) && !SetupSteps(env, c, v)
    && env.git(c.repo, DeleteBranchArgs(c)).Err?
  }

  /** `CreateCoWWorktreeWithProgress`: remove any registered worktree at the path
      (ignoring the outcome), read the HEAD commit, try the copy-on-write setup from
      it, and on any failure create the worktree with `git worktree add -b` at that
      same commit. The git oracle answers as the repository stood when creation
      began; the one change tracked is a branch the failed setup left in the
      repository, which `git worktree add -b` then refuses to create again. */
  function CreateCoW(env: Env, c: Config, v: Variant): (r: (seq<Call>, Outcome, Config))
    ensures |r.0| >= 2 && r.0[0] == Git(c.repo, RemoveArgs(c.wt)) && r.0[1] == Git(c.repo, RevParseArgs)
    ensures env.git(c.repo, RevParseArgs).Err? ==> |r.0| == 2 && r.1.Fail? && r.2 == c
    ensures env.git(c.repo, RevParseArgs).Ok? ==>
      var head := TrimSpace(env.git(c.repo, RevParseArgs).value);
      r.2 == c.(baseCommit := head)
      && (r.1.Pass? <==> SetupSteps(env, r.2, v)
                         || (!LeavesBranch(env, r.2, v) && env.git(c.repo, AddArgs(c.branch, c.wt, head)).Ok?))
      && (Git(c.repo, AddArgs(c.branch, c.wt, head)) in r.0 <==> !SetupSteps(env, r.2, v))
  {
    var pre := [Git(c.repo, RemoveArgs(c.wt)), Git(c.repo, RevParseArgs)];
    match env.git(c.repo, RevParseArgs)
    case Err(e) =>
      (pre, Fail(if NoCommitYet(e) then NewRepositoryError else "failed to get HEAD commit hash: " + e), c)
    case Ok(out) =>
      var head := TrimSpace(out);
      var c' := c.(baseCommit := head);
      var (calls, o) := Setup(env, c', v);
      var add := Git(c.repo, AddArgs(c.branch, c.wt, head));
      assert add !in calls by {
        forall i | 0 <= i < |calls| ensures calls[i] != add {
          SetupCallShapes(env, c', v, i);
        }
      }
      if o.Pass? then (pre + calls, Pass, c')
      else if LeavesBranch(env, c', v) then
        (pre + calls + [add], Fail("failed to create worktree from commit " + head + ": " + BranchExists(c.branch)), c')
      else match env.git(c.repo, AddArgs(c.branch, c.wt, head))
        case Err(e) => (pre + calls + [add], Fail("failed to create worktree from commit " + head + ": " + e), c')
        case Ok(_) => (pre + calls + [add], Pass, c')
  }

  /** The git commands of a setup are the branch creation, run where the site says,
      the HEAD switch, run in the worktree, and the clean-up's branch deletion, run in
      the repository. */
  lemma SetupCallShapes(env: Env, c: Config, v: Variant, i: int)
    requires 0 <= i < |Setup(env, c, v).0|
    ensures var call := Setup(env, c, v).0[i];
      call.Git? ==> (call.dir == BranchDir(c, v.site) && call.args == BranchArgs(c))
                    || (call.dir == c.wt && call.args == SymbolicRefArgs(c))
                    || (call.dir == c.repo && call.args == DeleteBranchArgs(c))
  {
  }

  lemma StartsAtAppend(a: seq<Call>, b: seq<Call>, commit: string)
    requires StartsAt(a, commit) && StartsAt(b, commit)
    ensures StartsAt(a + b, commit)
  {
    forall i | 0 <= i < |a + b| ensures (a + b)[i] == if i < |a| then a[i] else b[i - |a|] {
    }
  }

  lemma SetupStartsAtBase(env: Env, c: Config, v: Variant)
    ensures StartsAt(Setup(env, c, v).0, c.baseCommit)
  {
    var calls := Setup(env, c, v).0;
    forall i | 0 <= i < |calls|
      ensures calls[i].Git? ==> calls[i].args == BranchArgs(c) || calls[i].args == SymbolicRefArgs(c)
                                || calls[i].args == DeleteBranchArgs(c)
    {
      SetupCallShapes(env, c, v, i);
    }
  }

  /** The calls of a creation: the clean-up and HEAD lookup, the setup's calls, then
      the fallback when the setup failed. */
  lemma CreateCalls(env: Env, c: Config, v: Variant)
    requires env.git(c.repo, RevParseArgs).Ok?
    ensures var head := TrimSpace(env.git(c.repo, RevParseArgs).value);
      var c' := c.(baseCommit := head);
      CreateCoW(env, c, v).0 == [Git(c.repo, RemoveArgs(c.wt)), Git(c.repo, RevParseArgs)] + Setup(env, c', v).0
        + (if SetupSteps(env, c', v) then [] else [Git(c.repo, AddArgs(c.branch, c.wt, head))])
  {
  }

  /** Whichever way the worktree is created, its branch starts at the trimmed HEAD
      commit read at the start. */
  lemma CreateStartsAtHead(env: Env, c: Config, v: Variant)
    requires env.git(c.repo, RevParseArgs).Ok?
    ensures StartsAt(CreateCoW(env, c, v).0, TrimSpace(env.git(c.repo, RevParseArgs).value))
  {
    var head := TrimSpace(env.git(c.repo, RevParseArgs).value);
    var c' := c.(baseCommit := head);
    CreateCalls(env, c, v);
    var pre := [Git(c.repo, RemoveArgs(c.wt)), Git(c.repo, RevParseArgs)];
    var tail: seq<Call> := if SetupSteps(env, c', v) then [] else [Git(c.repo, AddArgs(c.branch, c.wt, head))];
    assert StartsAt(pre, head);
    assert StartsAt(tail, head);
    SetupStartsAtBase(env, c', v);
    StartsAtAppend(pre, Setup(env, c', v).0, head);
    StartsAtAppend(pre + Setup(env, c', v).0, tail, head);
  }

  /** `setupRegularWorktree`. */
  function SetupRegular(git: GitOracle, c: Config, head: string): (r: Outcome)
    ensures r.Pass? <==> git(c.repo, AddArgs(c.branch, c.wt, head)).Ok?
  {
    match git(c.repo, AddArgs(c.branch, c.wt, head))
    case Err(e) => Fail("failed to create worktree from commit " + head + ": " + e)
    case Ok(_) => Pass
  }

  /** The fallback of `CreateCoWWorktreeWithProgress` is `setupRegularWorktree`,
      unless the failed setup left its branch in the repository: then git refuses the
      branch whatever it would have answered. The as-written setup never leaves one,
      because its branch lives in the clone the clean-up removes. */
  lemma FallbackIsRegular(env: Env, c: Config, v: Variant)
    requires env.git(c.repo, RevParseArgs).Ok?
    requires !SetupSteps(env, CreateCoW(env, c, v).2, v)
    ensures var head := TrimSpace(env.git(c.repo, RevParseArgs).value);
      var c' := c.(baseCommit := head);
      && (!LeavesBranch(env, c', v) ==> CreateCoW(env, c, v).1 == SetupRegular(env.git, c, head))
      && (LeavesBranch(env, c', v) ==>
            CreateCoW(env, c, v).1 == Fail("failed to create worktree from commit " + head + ": " + BranchExists(c.branch)))
      && (v.site == InClone ==> CreateCoW(env, c, v).1 == SetupRegular(env.git, c, head))
  {
  }

  // ---------------------------------------------------------------------------
  // What the setup's git commands and registration leave on disk.

  /** The files after a successful setup, starting from the files once the clone is
      in place: `git branch` writes the loose ref under the `.git` of the directory it
      runs in, `git symbolic-ref` writes the clone's `.git/HEAD`, and the
      registration follows. */
  function SetupFiles(files: Files, c: Config, site: BranchSite): Files {
    ApplyAll(Switched(files, c, site), Ops(RegisterSteps(c.repo, c.wt, c.branch, CommonDirFor(c.branch))))
  }

  /** The ref file git resolves a linked worktree's HEAD to: the ref named in the
      metadata's `HEAD`, under the common directory. */
  function HeadTarget(link: Link): string {
    Slash(Join(link.common, "/"), link.head)
  }

  /** The repository's ref file for the branch does not lie inside the worktree's
      `.git`, which the registration removes. */
  predicate RefOutside(c: Config) {
    !Within(RefFile(c.repo, c.branch), GitFile(c.wt))
  }

  /** The files once `git branch` and `git symbolic-ref` have run. */
  function Switched(files: Files, c: Config, site: BranchSite): Files {
    files[RefFile(BranchDir(c, site), c.branch) := c.baseCommit + "\n"][Slash(GitFile(c.wt), "HEAD") := HeadFile(c.branch)]
  }

  lemma Distinct(a: string, b: string, dir: string)
    requires Within(a, dir) && !Within(b, dir)
    ensures a != b
  {
  }

  /** A linked worktree registered for a clean branch name resolves its HEAD to the
      branch's ref file in the repository. */
  lemma {:induction false} SetupHeadTarget(files: Files, c: Config, site: BranchSite)
    requires CleanName(c.branch) && MetaOutside(c.repo, c.wt, c.branch)
    ensures var l := ReadLink(SetupFiles(files, c, site), c.wt);
      l == Some(Link(MetaDir(c.repo, c.branch), Ref(c.branch), Split(Slash(c.repo, ".git"), '/'), GitFile(c.wt)))
      && HeadTarget(l.value) == RefFile(c.repo, c.branch)
  {
    var switched := Switched(files, c, site);
    var n := |Split(c.branch, '/')|;
    ReadRegistered(switched, c.repo, c.wt, c.branch, CommonDirFor(c.branch));
    TrimNewline(Up(n + 1));
    UpSplit(n + 1);
    MetaSegments(c.repo, c.branch);
    ResolveDots(Split(c.repo, '/') + [".git"], ["worktrees"] + Split(c.branch, '/'));
    JoinSplit(Slash(c.repo, ".git"), '/');
  }

  lemma OrphanedRef(files: Files, c: Config)
    requires MetaOutside(c.repo, c.wt, c.branch) && RefOutside(c)
    requires RefFile(c.repo, c.branch) !in files
    ensures var after := SetupFiles(files, c, InClone);
      RefFile(c.repo, c.branch) !in after && RefFile(c.wt, c.branch) !in after
  {
    var commondir := CommonDirFor(c.branch);
    var switched := Switched(files, c, InClone);
    Below(GitFile(c.wt), Ref(c.branch));
    Below(GitFile(c.wt), "HEAD");
    Distinct(RefFile(c.wt, c.branch), RefFile(c.repo, c.branch), GitFile(c.wt));
    Distinct(Slash(GitFile(c.wt), "HEAD"), RefFile(c.repo, c.branch), GitFile(c.wt));
    RegistrationDrops(switched, c.repo, c.wt, c.branch, commondir, RefFile(c.wt, c.branch));
    MetaNotRef(c.repo, c.branch, "HEAD");
    MetaNotRef(c.repo, c.branch, "commondir");
    MetaNotRef(c.repo, c.branch, "gitdir");
    RegistrationKeeps(switched, c.repo, c.wt, c.branch, commondir, RefFile(c.repo, c.branch));
  }

  lemma RecordedRef(files: Files, c: Config)
    requires MetaOutside(c.repo, c.wt, c.branch) && RefOutside(c)
    ensures var after := SetupFiles(files, c, InRepository);
      RefFile(c.repo, c.branch) in after && after[RefFile(c.repo, c.branch)] == c.baseCommit + "\n"
  {
    var commondir := CommonDirFor(c.branch);
    var switched := Switched(files, c, InRepository);
    Below(GitFile(c.wt), "HEAD");
    Distinct(Slash(GitFile(c.wt), "HEAD"), RefFile(c.repo, c.branch), GitFile(c.wt));
    MetaNotRef(c.repo, c.branch, "HEAD");
    MetaNotRef(c.repo, c.branch, "commondir");
    MetaNotRef(c.repo, c.branch, "gitdir");
    RegistrationKeeps(switched, c.repo, c.wt, c.branch, commondir, RefFile(c.repo, c.branch));
  }

  /** As written, the setup leaves the new branch nowhere: `git branch` wrote its ref
      into the clone's `.git`, the registration deleted that directory, and the
      repository never received the ref; yet the worktree's HEAD names the branch,
      so git sees a branch with no commits. */
  lemma BranchOrphaned(files: Files, c: Config)
    requires CleanName(c.branch) && MetaOutside(c.repo, c.wt, c.branch) && RefOutside(c)
    requires RefFile(c.repo, c.branch) !in files
    ensures var after := SetupFiles(files, c, InClone);
      ReadLink(after, c.wt).Some? && HeadTarget(ReadLink(after, c.wt).value) == RefFile(c.repo, c.branch)
      && RefFile(c.repo, c.branch) !in after && RefFile(c.wt, c.branch) !in after
  {
    SetupHeadTarget(files, c, InClone);
    OrphanedRef(files, c);
  }

  /** With `git branch` run in the repository, the ref survives the registration and
      the worktree's HEAD resolves to it, holding the base commit. */
  lemma BranchRecorded(files: Files, c: Config)
    requires CleanName(c.branch) && MetaOutside(c.repo, c.wt, c.branch) && RefOutside(c)
    ensures var after := SetupFiles(files, c, InRepository);
      ReadLink(after, c.wt).Some? && HeadTarget(ReadLink(after, c.wt).value) == RefFile(c.repo, c.branch)
      && RefFile(c.repo, c.branch) in after && after[RefFile(c.repo, c.branch)] == c.baseCommit + "\n"
  {
    SetupHeadTarget(files, c, InRepository);
    RecordedRef(files, c);
  }

  // ---------------------------------------------------------------------------
  // Removal.

  const MultipleErrors := "multiple errors occurred: "
  const ErrorSeparator := "; "

  /** `combineErrors`: nil for no errors, otherwise every message in order. */
  function CombineErrors(errs: seq<string>): (r: Outcome)
    ensures r.Pass? <==> |errs| == 0
    ensures r.Fail? ==> HasPrefix(r.msg, MultipleErrors)
  {
    if |errs| == 0 then Pass else Fail(MultipleErrors + Join(errs, ErrorSeparator))
  }

  /** Where the `i`-th piece starts in the joined text. */
  function Offset(parts: seq<string>, sep: string, i: nat): nat
    requires i <= |parts|
  {
    if i == 0 then 0 else Offset(parts, sep, i - 1) + |parts[i - 1]| + |sep|
  }

  lemma {:induction false} JoinOffsets(parts: seq<string>, sep: string, i: nat)
    requires i < |parts|
    ensures OccursAt(Join(parts, sep), parts[i], Offset(parts, sep, i))
    decreases |parts|
  {
    if |parts| > 1 {
      var rest := Join(parts[1..], sep);
      var j := parts[0] + sep + rest;
      assert Join(parts, sep) == j;
      if i == 0 {
        assert j[0..|parts[0]|] == parts[0];
      } else {
        JoinOffsets(parts[1..], sep, i - 1);
        OffsetShift(parts, sep, i);
        var o := Offset(parts[1..], sep, i - 1);
        var k := |parts[0]| + |sep|;
        assert j[k + o..k + o + |parts[i]|] == rest[o..o + |parts[i]|];
      }
    }
  }

  lemma {:induction false} OffsetShift(parts: seq<string>, sep: string, i: nat)
    requires 1 <= i <= |parts|
    ensures Offset(parts, sep, i) == |parts[0]| + |sep| + Offset(parts[1..], sep, i - 1)
    decreases i
  {
    if i > 1 {
      OffsetShift(parts, sep, i - 1);
    }
  }

  lemma OccursAfter(pre: string, s: string, p: string, o: int)
    requires OccursAt(s, p, o)
    ensures OccursAt(pre + s, p, |pre| + o)
  {
    assert (pre + s)[|pre| + o..|pre| + o + |p|] == s[o..o + |p|];
  }

  /** Every collected message appears whole in the combined error, each after the
      one before it. */
  lemma CombineKeepsEach(errs: seq<string>, i: nat, j: nat)
    requires i < j < |errs|
    ensures var m := CombineErrors(errs).msg;
      OccursAt(m, errs[i], |MultipleErrors| + Offset(errs, ErrorSeparator, i))
      && OccursAt(m, errs[j], |MultipleErrors| + Offset(errs, ErrorSeparator, j))
      && Offset(errs, ErrorSeparator, i) + |errs[i]| < Offset(errs, ErrorSeparator, j)
  {
    var joined := Join(errs, ErrorSeparator);
    JoinOffsets(errs, ErrorSeparator, i);
    JoinOffsets(errs, ErrorSeparator, j);
    OccursAfter(MultipleErrors, joined, errs[i], Offset(errs, ErrorSeparator, i));
    OccursAfter(MultipleErrors, joined, errs[j], Offset(errs, ErrorSeparator, j));
    OffsetGrows(errs, i, j);
  }

  lemma {:induction false} OffsetGrows(errs: seq<string>, i: nat, j: nat)
    requires i < j <= |errs|
    ensures Offset(errs, ErrorSeparator, i) + |errs[i]| < Offset(errs, ErrorSeparator, j)
    decreases j
  {
    if j > i + 1 {
      OffsetGrows(errs, i, j - 1);
    }
  }

  /** What `os.Stat` says of the worktree path. */
  datatype Stat = Present | Absent | StatFailed(msg: string)

  /** What looking the branch reference up says. */
  datatype Lookup = Found | NotFound | LookupFailed(msg: string)

  /** The environment of a removal: the stat of the path, the git commands, opening
      the repository, the reference lookup and the reference removal. */
  datatype RemovalEnv = RemovalEnv(stat: Stat, git: GitOracle, open: Outcome, lookup: Lookup, removeRef: Outcome)

  const PruneArgs: seq<string> := ["worktree", "prune"]

  /** `Prune`. */
  function Prune(git: GitOracle, repo: string): (r: Outcome)
    ensures r.Pass? <==> git(repo, PruneArgs).Ok?
  {
    match git(repo, PruneArgs)
    case Err(e) => Fail("failed to prune worktrees: " + e)
    case Ok(_) => Pass
  }

  /** `Remove`: the worktree goes, the branch stays. */
  function RemoveKeepingBranch(git: GitOracle, repo: string, wt: string): (r: Outcome)
    ensures r.Pass? <==> git(repo, RemoveArgs(wt)).Ok?
  {
    match git(repo, RemoveArgs(wt))
    case Err(e) => Fail("failed to remove worktree: " + e)
    case Ok(_) => Pass
  }

  /** A removal's calls: git commands, and the deletion of a branch reference. */
  datatype RemovalCall = RunGit(args: seq<string>) | DeleteRef(branch: string)

  /** Every step of a removal that can fail, and whether it did. */
  predicate RemovalClean(e: RemovalEnv, repo: string, wt: string) {
    !e.stat.StatFailed? && (e.stat.Present? ==> e.git(repo, RemoveArgs(wt)).Ok?)
    && e.open.Pass? && !e.lookup.LookupFailed? && (e.lookup.Found? ==> e.removeRef.Pass?)
    && e.git(repo, PruneArgs).Ok?
  }

  /** `RemoveWithBranch`: remove the worktree if its path exists, delete the branch
      if it exists, prune, and report every error met on the way, combined; only a
      repository that cannot be opened stops it early. */
  function RemoveWithBranch(e: RemovalEnv, repo: string, wt: string, branch: string): (r: (seq<RemovalCall>, seq<string>, Outcome))
    ensures r.2 == CombineErrors(r.1)
    ensures r.2.Pass? <==> RemovalClean(e, repo, wt)
    ensures RunGit(PruneArgs) in r.0 <==> e.open.Pass?
    ensures DeleteRef(branch) in r.0 <==> e.open.Pass? && e.lookup.Found?
    ensures e.open.Fail? ==> |r.1| > 0 && r.1[|r.1| - 1] == "failed to open repository for cleanup: " + e.open.msg
    ensures e.open.Pass? && e.git(repo, PruneArgs).Err? ==>
      |r.1| > 0 && r.1[|r.1| - 1] == Prune(e.git, repo).msg
  {
    var (c1, e1) :=
      match e.stat
      case Present =>
        (match e.git(repo, RemoveArgs(wt))
         case Err(m) => ([RunGit(RemoveArgs(wt))], [m])
         case Ok(_) => ([RunGit(RemoveArgs(wt))], []))
      case Absent => ([], [])
      case StatFailed(m) => ([], ["failed to check worktree path: " + m]);
    if e.open.Fail? then
      var errs := e1 + ["failed to open repository for cleanup: " + e.open.msg];
      (c1, errs, CombineErrors(errs))
    else
      var (c2, e2) :=
        match e.lookup
        case Found =>
          (match e.removeRef
           case Fail(m) => ([DeleteRef(branch)], ["failed to remove branch " + branch + ": " + m])
           case Pass => ([DeleteRef(branch)], []))
        case NotFound => ([], [])
        case LookupFailed(m) => ([], ["error checking branch " + branch + " existence: " + m]);
      var e3 := if e.git(repo, PruneArgs).Err? then [Prune(e.git, repo).msg] else [];
      var calls := c1 + c2 + [RunGit(PruneArgs)];
      assert RunGit(PruneArgs) !in c1 + c2 && DeleteRef(branch) !in c1;
      (calls, e1 + e2 + e3, CombineErrors(e1 + e2 + e3))
  }

  /** A failed worktree removal does not stop the branch deletion or the prune. */
  lemma RemovalContinuesAfterFailure(e: RemovalEnv, repo: string, wt: string, branch: string)
    requires e.stat.Present? && e.git(repo, RemoveArgs(wt)).Err? && e.open.Pass? && e.lookup.Found?
    ensures var r := RemoveWithBranch(e, repo, wt, branch);
      DeleteRef(branch) in r.0 && RunGit(PruneArgs) in r.0
      && r.1[0] == e.git(repo, RemoveArgs(wt)).msg && r.2.Fail?
  {
  }
}

=== FILE: wrappers.dfy ===
/** Failure-carrying values shared by every module of the model.
    Go's `error` becomes the `Err` case of `Result`, carrying the error's message. */
module Wrappers {

  datatype Option<+T> = None | Some(value: T)

  datatype Result<+T> = Ok(value: T) | Err(msg: string) {
    predicate IsFailure() { Err? }

    function PropagateFailure<U>(): Result<U>
      requires Err?
    {
      Err(msg)
    }

    function Extract(): T
      requires Ok?
    {
      value
    }
  }

  /** A Go function that returns only an `error`: nil is `Pass`. */
  datatype Outcome = Pass | Fail(msg: string) {
    predicate IsFailure() { Fail? }

    function PropagateFailure(): Outcome
      requires Fail?
    {
      this
    }
  }
}
